=== FILE: README.md ===
# Booking and settlement core of a hospitality marketplace, in Dafny

This project models the domain logic of a Kenyan marketplace for event
venues, caterers and accommodation. Vendors apply and are reviewed. They
publish listings and manage an availability calendar. Customers request
bookings, pay for them through M-Pesa, and vendors are paid out once a stay
is over. The model covers these rules:

- the money arithmetic: customer pricing and the vendor payout breakdown, in
  exact reals with an explicit round-to-the-cent function;
- the availability ledger: blocking, unblocking, the range check and the
  calendar view;
- the booking state machine (pending, confirmed, completed, cancelled,
  declined), with the invariant its guards exist for: no two pending or
  confirmed bookings of one listing overlap;
- payment initiation and settlement by webhook or manual verification, and
  the phone-number normaliser;
- payout creation, one processing attempt with its retry cap, the
  scheduled sweep, and the earnings summary;
- the listing lifecycle (slug, create, update, publish or pause, soft
  delete, lookups, search with paging, vendor lists);
- the vendor lifecycle (application, profile, payout details, documents,
  review, suspension);
- the input validators of every endpoint family, as predicates and parsers
  over raw forms.

The database is an explicit `Store` value (`domain.dfy`). Each table is a
sequence whose row id is the row's position. The availability ledger is a
map keyed by (listing, day), and vendor documents a map keyed by (vendor,
document type). Every service call is a pure function from a store to a
`Result`. A failure carries no store, so it changes nothing. The few calls
that write before they throw return a `Step`, which carries the store
alongside the result. Days are whole day numbers and instants whole
milliseconds. Gateway replies, the webhook signature check, transaction
references and the clock are parameters. An update leaves out every field
whose new value is undefined, so an absent optional field in an update (a
block without a reason, a profile edit, a verdict without a reason) keeps
the stored value, while an insert stores null for it.

Modules, one per file: `Wrappers`, `Money`, `Domain`, `Patterns`,
`Validation`, `Availability`, `Payouts`, `Bookings`, `Payments`,
`Listings`, `Vendors`, and the schema modules `BookingSchema`,
`ListingSchema`, `VendorSchema`, `AvailabilitySchema`, `PaymentSchema`,
`PayoutSchema` and `AuthSchema`.

Some behaviour differs from what one might read into the system's own
description:

- Booking status follows the service's type, which includes `declined`.
  The database enum in `backend/src/db/schema/bookings.ts` lacks it.
- The database schema files under `backend/src/db/schema` lack many of the
  columns, enum values and tables the services read and write. Examples are
  the listing's `slug` and `leadTime`, the booking's `respondedAt` and
  `declineReason`, and the payment's `gatewayReference` and `currency`. The
  model follows the services.
- Prices and amounts are `decimal(10, 2)` columns. A listing's base price is
  therefore stored rounded to the cent, and everything that later reads it
  (pricing, the publish guard, the price filters) sees the rounded value. A
  price that needs more than eight digits before the point fails the write.
- The re-check inside the booking-creation transaction repeats the
  availability guard against the same bookings when calls run one at a
  time, so it always passes. `CreateBooking` therefore has no separate
  step for it.

## Model

| member | source | states |
|---|---|---|
| Money.RoundCents | backend/src/modules/bookings/bookings.service.ts:26-31 | `toFixed(2)`: the result is a whole number of cents within half a cent of the amount, a tie going away from zero |
| Money.NearestCentIsRoundCents | backend/src/modules/payouts/payouts.service.ts:22-28 | the declarative nearest-cent rule has exactly one answer, and it is `RoundCents` |
| Money.RoundCentsKeepsCents | backend/src/modules/payouts/payouts.service.ts:22-28 | re-rounding an amount that is already whole cents (what `parseFloat(x.toFixed(2))` yields) leaves it alone |
| Money.RoundCentsIdempotent | backend/src/modules/bookings/bookings.service.ts:26-31 | rounding twice is rounding once |
| Money.RoundCentsMonotone | backend/src/modules/bookings/bookings.service.ts:26-31 | rounding never reverses the order of two non-negative amounts |
| Money.StoredDecimal | backend/src/db/schema/listings.ts:18 | a `decimal(10, 2)` column keeps the nearest cent of what it is given, and refuses exactly the amounts at or beyond half a cent short of 10^8 in size |
| Money.RoundsPastLimit | backend/src/db/schema/listings.ts:18 | an amount rounds to eight digits or more before the point iff it is at least 99999999.995 in size |
| Money.RoundCentsPositive | backend/src/modules/listings/listings.service.ts:212-214 | a non-negative amount rounds to more than zero iff it is at least half a cent |
| Money.NearestCents | backend/src/modules/bookings/bookings.service.ts:26-31 | the nearest whole number of cents to a non-negative amount, a tie going up |
| Domain.FindFirst | backend/src/modules/listings/listings.service.ts:118-121 | `findFirst` on a non-id column: the returned row matches and no earlier row does; none means no row matches |
| Domain.VendorOfUser | backend/src/modules/vendors/vendors.service.ts:16-18 | the profile found belongs to the user; none means the user has no profile |
| Patterns.LocalPhoneIsPaymentPhone | backend/src/modules/payments/payments.schema.ts:5 | every phone the profile and registration pattern accepts, the payment pattern accepts too |
| Patterns.BareCountryCodeIsPaymentOnly | backend/src/modules/vendors/vendors.schema.ts:9 | a number starting with a bare `254` passes only the payment pattern |
| Patterns.PaymentPhoneLength | backend/src/modules/payments/payments.schema.ts:5 | accepted payment phones have 10, 12 or 13 characters, by prefix |
| Patterns.ParseFormatRoundTrip | backend/src/modules/availability/availability.service.ts:188 | writing a date as `YYYY-MM-DD` and reading it back gives the same year, month and day |
| Patterns.FormatParseRoundTrip | backend/src/modules/bookings/bookings.schema.ts:5-6 | every string of the date pattern is the written form of the date it spells |
| Patterns.DecimalRoundTrip | backend/src/modules/listings/listings.service.ts:18 | the decimal form of the timestamp in a slug reads back as the timestamp |
| Patterns.DecimalInjective | backend/src/modules/listings/listings.service.ts:18 | different timestamps are written differently |
| Validation.ParsePage | backend/src/modules/bookings/bookings.schema.ts:28-29 | a page is valid iff a given limit is whole in 1..100 and a given offset whole and non-negative; absent values take 20 and 0, given ones are kept |
| Validation.ParseListForm | backend/src/modules/bookings/bookings.schema.ts:26-30 | a list query is valid iff a given status is in the enum and the paging is valid; the status recognised and the page are kept, an absent status filters nothing |
| Availability.BlockDates | backend/src/modules/availability/availability.service.ts:9-62 | missing listing or foreign vendor fails with no write; otherwise each given date of the listing ends with one unavailable row whose reason is the given one, or when none is given the reason an existing row already had (none for a new row); every other row is unchanged; the result is the stored row of each input date, in order |
| Availability.BlockAll | backend/src/modules/availability/availability.service.ts:25-56 | the upsert loop: keys are the old ones plus the given dates; given dates are unavailable with the given reason, or with an existing row's earlier reason when none is given; the rest unchanged |
| Availability.ReblockKeepsReason | backend/src/modules/availability/availability.service.ts:33-42 | blocking an already blocked day again without a reason changes nothing and returns the row with its old reason |
| Availability.UnblockDates | backend/src/modules/availability/availability.service.ts:65-107 | same guards; only existing rows of the given dates are reopened with no reason, no row is created, every other row and table is unchanged; the result holds exactly the given dates that had a row, each with its reopened stored row |
| Availability.UnblockAll | backend/src/modules/availability/availability.service.ts:81-101 | the update loop keeps the key set and reopens exactly the existing rows of the given dates |
| Availability.UnblockedRows | backend/src/modules/availability/availability.service.ts:81-101 | the result lists every given date that had a row, and only those |
| Availability.CheckAvailability | backend/src/modules/availability/availability.service.ts:110-135 | the range is available iff no row of the listing dated within it is unavailable and no pending or confirmed booking of the listing meets it, ends inclusive |
| Availability.CheckAvailabilityIsDayByDay | backend/src/modules/availability/availability.service.ts:110-135 | for a forward range and well-dated bookings, the range check holds iff every day of the range has no unavailable row and no pending or confirmed booking covering it |
| Availability.BackwardsRangeCanBeRejected | backend/src/modules/availability/availability.service.ts:110-135 | the check does not compare the ends, so a backwards range can still meet a booking and be refused |
| Availability.BlockedRangeIsUnavailable | backend/src/modules/availability/availability.service.ts:25-56 | after blocking any day of a range, the range check fails |
| Availability.UnblockedRangeIsAvailable | backend/src/modules/availability/availability.service.ts:81-101 | after unblocking every day of a range, it is available iff no pending or confirmed booking overlaps it |
| Availability.BlockThenUnblockRoundTrip | backend/src/modules/availability/availability.service.ts:9-107 | blocking then unblocking the same days makes a covered range available again when no booking overlaps |
| Availability.RowsInWindow | backend/src/modules/availability/availability.service.ts:148-180 | the calendar starts from exactly the ledger rows of the listing inside the window, each with its row's flag, its reason unless empty, and no booking |
| Availability.Span | backend/src/modules/availability/availability.service.ts:187 | the days a booking fills: from its start day to its end day, both included |
| Availability.Paint | backend/src/modules/availability/availability.service.ts:187-194 | a drawn booking paints exactly its days as booked with its status; other entries are untouched |
| Availability.MarkBooked | backend/src/modules/availability/availability.service.ts:183-195 | every day a drawn booking covers reads unavailable with reason "Booked" and the status of the last drawn booking covering it; other entries are untouched |
| Availability.LastCoveringStep | backend/src/modules/availability/availability.service.ts:183-195 | painting the bookings one after another leaves on each covered day the status of the last booking covering it |
| Availability.GetCalendar | backend/src/modules/availability/availability.service.ts:138-201 | a day appears iff it has a row in the window or a drawn booking covers it; covered days read "Booked" with the status of the last drawn booking covering them, whatever their row says; others copy their row's flag and reason, an empty reason dropped |
| Availability.AvailableRangeShowsOpenCalendar | backend/src/modules/availability/availability.service.ts:157-195 | if the range check passes, every calendar day in the window is available |
| Availability.PartialOverlapIsNotDrawn | backend/src/modules/availability/availability.service.ts:157-163 | a booking running past the window is not drawn, though the range check sees it |
| Bookings.CalculatePricing | backend/src/modules/bookings/bookings.service.ts:19-32 | each of base, 15% fee, 16% VAT on base plus fee, and total is the nearest cent of its unrounded value |
| Bookings.PricingOfThousand | backend/src/modules/bookings/bookings.service.ts:19-32 | a base of 1000 gives fee 150, VAT 184, total 1334 |
| Bookings.PricingPartsNeedNotAddUp | backend/src/modules/bookings/bookings.service.ts:26-31 | independently rounded parts need not add up to the rounded total (0.10 gives 0.10 + 0.02 + 0.02 against 0.13) |
| Bookings.PricingPartsAddUpWithinRounding | backend/src/modules/bookings/bookings.service.ts:19-32 | for a non-negative price the parts miss the total by less than two cents |
| Bookings.DaysUntil | backend/src/modules/bookings/bookings.service.ts:50-52 | `Math.floor` of the milliseconds to the start day over a day: the largest whole number of days not exceeding it |
| Bookings.EffectiveLeadTime | backend/src/modules/bookings/bookings.service.ts:54 | a lead time of zero or none counts as one day |
| Bookings.LeadTimeInInstants | backend/src/modules/bookings/bookings.service.ts:50-56 | the lead-time guard passes iff the start day begins at least the lead time's worth of days after now |
| Bookings.CreateBooking | backend/src/modules/bookings/bookings.service.ts:35-115 | guards in order (listing exists, active, lead time, availability, capacity), each with its own error and no write; success appends exactly one booking, confirmed iff instant booking, priced from the listing, overlapping no held booking, and nothing else changes |
| Bookings.ListingOwner | backend/src/modules/bookings/bookings.service.ts:147-150 | the owner of a booking is its listing's vendor, when the listing exists |
| Bookings.GetBookingById | backend/src/modules/bookings/bookings.service.ts:118-157 | a booking is returned unchanged iff it exists and the caller is its customer, its listing's vendor, or an admin; otherwise NotFound or Unauthorized |
| Bookings.NewBookingIsVisibleToItsParties | backend/src/modules/bookings/bookings.service.ts:118-157 | a booking just created reads back for its customer and for the user owning the listing's vendor profile, and is refused to every other customer and vendor |
| Bookings.CheckResponder | backend/src/modules/bookings/bookings.service.ts:160-180 | a vendor may answer a request iff it exists, the vendor owns its listing, and it is pending; each failure has its own error |
| Bookings.AcceptBookingAsWritten | backend/src/modules/bookings/bookings.service.ts:182-190 | the accept re-check as written is the general range check, which includes the booking itself |
| Bookings.AcceptAsWrittenRefusesEveryRequest | backend/src/modules/availability/availability.service.ts:126-131 | that re-check always finds the pending booking itself, so accept as written never succeeds |
| Bookings.AcceptBooking | backend/src/modules/bookings/bookings.service.ts:160-209 | accept succeeds iff the responder checks pass, no day is blocked and no other held booking overlaps; only status (to confirmed) and respondedAt change |
| Bookings.CreatedRequestCanBeAccepted | backend/src/modules/bookings/bookings.service.ts:35-209 | a freshly created pending request can be accepted by its listing's vendor |
| Bookings.DeclineBooking | backend/src/modules/bookings/bookings.service.ts:212-245 | decline succeeds iff the responder checks pass, and sets only status declined, the reason and respondedAt |
| Bookings.CancelBooking | backend/src/modules/bookings/bookings.service.ts:248-284 | only the booking's customer, only from pending or confirmed (checked before the date), only strictly before the start day; sets only cancelled and the reason |
| Bookings.EndOfDay | backend/src/modules/bookings/bookings.service.ts:302-303 | 23:59:59 on the end day: inside that day, one second before the next |
| Bookings.CountCompletion | backend/src/modules/bookings/bookings.service.ts:318-322 | the listing's bookingsCount grows by exactly one and no other listing changes |
| Bookings.CompleteBooking | backend/src/modules/bookings/bookings.service.ts:287-333 | only a confirmed booking, only from 23:59:59 on its end day; sets completed and completedAt, counts the booking on its listing, and adds its payout exactly when one can be created, a failed payout not undoing the completion |
| Bookings.CompletionCreatesThePayout | backend/src/modules/bookings/bookings.service.ts:325-330 | a completed booking without a payout, whose vendor has account details, gets exactly one payout |
| Bookings.StatusChangeKeepsNoOverlap | backend/src/modules/bookings/bookings.types.ts:1 | changing a booking's status keeps the no-overlap invariant when it holds its dates afterwards only if it held them before |
| Bookings.CreateBookingKeepsNoOverlap | backend/src/modules/bookings/bookings.service.ts:59-105 | creation preserves: no two pending or confirmed bookings of a listing overlap |
| Bookings.AcceptBookingKeepsNoOverlap | backend/src/modules/bookings/bookings.service.ts:184-200 | accept preserves the invariant |
| Bookings.DeclineBookingKeepsNoOverlap | backend/src/modules/bookings/bookings.service.ts:229-240 | decline preserves the invariant |
| Bookings.CancelBookingKeepsNoOverlap | backend/src/modules/bookings/bookings.service.ts:270-278 | cancel preserves the invariant |
| Bookings.CompleteBookingKeepsNoOverlap | backend/src/modules/bookings/bookings.service.ts:309-316 | completion preserves the invariant |
| Bookings.ApplyKeepsNoOverlap | backend/src/modules/bookings/bookings.service.ts:35-333 | every single call, successful or not, of the booking, availability and payout services preserves the invariant |
| Bookings.RunKeepsNoOverlap | backend/src/modules/bookings/bookings.service.ts:35-333 | any sequence of booking, block, unblock and payout calls made one at a time preserves the invariant; payment calls are covered by their own lemmas |
| Payouts.CalculatePayout | backend/src/modules/payouts/payouts.service.ts:15-29 | gross, 15% fee, 16% VAT on the fee, 5% withholding, and net = gross - fee - withholding, each the nearest cent of its unrounded value |
| Payouts.PayoutOfThousand | backend/src/modules/payouts/payouts.service.ts:15-29 | a base of 1000 gives fee 150, VAT 24, withholding 50, net 800 |
| Payouts.NetExcludesVat | backend/src/modules/payouts/payouts.service.ts:20 | for a cents base, fee plus withholding plus net equals the gross within rounding, so the VAT is not taken from the vendor; net never exceeds gross |
| Payouts.BankDetailsAreNeverMissing | backend/src/modules/payouts/payouts.service.ts:66-74 | a bank vendor always has truthy account details, "null - null" when the fields are missing, so only M-Pesa without a number is refused |
| Payouts.VendorOfBooking | backend/src/modules/payouts/payouts.service.ts:34-40 | the payee is an existing vendor, the owner of the booking's listing |
| Payouts.CreatePayoutForBooking | backend/src/modules/payouts/payouts.service.ts:32-100 | fails with no change if the booking is missing, not completed, or already paid out; otherwise appends one pending payout from the base amount, scheduled 48 hours ahead, with the vendor's method (default M-Pesa) and account snapshot |
| Payouts.CreatePayoutKeepsOnePerBooking | backend/src/modules/payouts/payouts.service.ts:54-60 | creation keeps at most one payout per booking |
| Payouts.SecondPayoutIsRefused | backend/src/modules/payouts/payouts.service.ts:54-60 | asking again for the same booking fails with "payout exists" |
| Payouts.ProcessPayout | backend/src/modules/payouts/payouts.service.ts:139-213 | only a pending payout is processed, and other rows never change; bank always fails with "not yet supported"; a transfer completes it with reference and time; a failure records the gateway's message (or "not yet supported" for bank), raises the retry count by one and sends it back to pending, or to failed at three |
| Payouts.ThreeRejectionsExhaustRetries | backend/src/modules/payouts/payouts.service.ts:192-211 | three refusals from zero retries leave the payout failed with three retries, never due again and no longer processable |
| Payouts.ProcessPayoutIsLocal | backend/src/modules/payouts/payouts.service.ts:139-213 | an attempt's outcome depends on the payout's own row only |
| Payouts.SelectDue | backend/src/modules/payouts/payouts.service.ts:220-226 | the sweep picks at most 10 pending payouts that are due, and leaves a due one out only when the batch is full |
| Payouts.ProcessScheduledPayouts | backend/src/modules/payouts/payouts.service.ts:216-240 | one result per selected payout, each exactly what processing it alone would give, so one failure stops nothing; unselected payouts and other tables unchanged |
| Payouts.FoldIsSum | backend/src/modules/payouts/payouts.service.ts:275-290 | the summary loop equals the reference sums and counts per status |
| Payouts.GetVendorEarnings | backend/src/modules/payouts/payouts.service.ts:270-293 | earnings and their count come from completed payouts, the pending amount and its count from pending ones; other statuses are ignored |
| Payouts.SettlementMovesPendingToEarnings | backend/src/modules/payouts/payouts.service.ts:175-190 | a successful transfer moves the net from the vendor's pending amount to earnings, and no other vendor's summary changes |
| Payments.Strip | backend/src/modules/payments/payments.service.ts:15 | the result holds no space, '-', '(' or ')' and is no longer than the input |
| Payments.StripCounts | backend/src/modules/payments/payments.service.ts:15 | stripping removes every separator and keeps every other character as often as it occurs |
| Payments.StripKeepsClean | backend/src/modules/payments/payments.service.ts:15 | a string without separators is left as it is |
| Payments.FormatPhoneNumber | backend/src/modules/payments/payments.service.ts:13-27 | after stripping, a leading '0' becomes "254", a leading "+254" loses its '+', and anything else is passed on unchanged |
| Payments.FormatPhoneNumberIsIdempotent | backend/src/modules/payments/payments.service.ts:13-27 | formatting a formatted number changes nothing |
| Payments.PaymentPhoneFormatsToCountryCode | backend/src/modules/payments/payments.service.ts:13-27 | every phone the payment schema accepts comes out as "254" and a nine-digit subscriber number |
| Payments.InitiateMpesaPayment | backend/src/modules/payments/payments.service.ts:35-146 | missing, foreign, non-pending/confirmed or already-paid bookings fail with no change; otherwise one payment for the booking's total is appended, processing if the gateway starts the charge, failed with its message and an error raised if not |
| Payments.InitiationTouchesOnlyPayments | backend/src/modules/payments/payments.service.ts:35-146 | starting a charge changes nothing but the payments table, so bookings keep their dates and the no-overlap invariant |
| Payments.PaymentByReference | backend/src/modules/payments/payments.service.ts:174-176 | the payment named by a transaction reference carries it; none means no payment does |
| Payments.ConfirmBooking | backend/src/modules/payments/payments.service.ts:199-204 | the paid booking becomes confirmed whatever its status; nothing else changes |
| Payments.ConfirmBookingIfHeld | backend/src/modules/payments/payments.service.ts:199-204 | the intended confirmation: only a booking still pending or confirmed is changed |
| Payments.HandleWebhook | backend/src/modules/payments/payments.service.ts:159-223 | bad signature errors; other events are ignored with no change; a successful charge of at least the amount completes the payment and confirms the booking whatever its status; otherwise the payment fails with the gateway status, a missing status keeping the old reason |
| Payments.SettledBookingIsNotChargedAgain | backend/src/modules/payments/payments.service.ts:61-71 | once a notification settles a payment, the customer's next charge request for that booking fails as already paid and writes nothing |
| Payments.HandleWebhookRevivesCancelledBooking | backend/src/modules/payments/payments.service.ts:199-204 | as written, a late webhook revives a cancelled booking on top of a newer booking of the same dates, breaking the no-overlap invariant |
| Payments.FailureWithoutStatusKeepsReason | backend/src/modules/payments/payments.service.ts:211-219 | a failed notification without a status marks the payment failed and leaves its reason as it was |
| Payments.HandleWebhookGuarded | backend/src/modules/payments/payments.service.ts:159-223 | the intended webhook: same errors, outcome and payment rows, but bookings that no longer hold their dates keep their status |
| Payments.HandleWebhookGuardedKeepsNoOverlap | backend/src/modules/payments/payments.service.ts:186-221 | the guarded webhook preserves the no-overlap invariant |
| Payments.VerifyPaymentStatus | backend/src/modules/payments/payments.service.ts:226-277 | gateway or lookup errors become "verification failed"; a successful status completes the payment whatever the amount and confirms the booking whatever its status; any other status changes nothing |
| Payments.VerifyPaymentStatusGuarded | backend/src/modules/payments/payments.service.ts:260-265 | the intended verification: as above, but only a booking still holding its dates is confirmed |
| Payments.VerifyPaymentStatusGuardedKeepsNoOverlap | backend/src/modules/payments/payments.service.ts:249-265 | the guarded verification preserves the no-overlap invariant |
| Payments.GetPaymentById | backend/src/modules/payments/payments.service.ts:280-303 | a payment is returned iff it exists and the caller is its booking's customer |
| Payments.NewPaymentIsVisibleToItsCustomerOnly | backend/src/modules/payments/payments.service.ts:280-303 | the payment row a charge request writes, accepted or refused by the gateway, reads back for its customer and is refused to every other user |
| Listings.Lower | backend/src/modules/listings/listings.service.ts:16 | ASCII letters are lowered and every other character is left alone |
| Listings.Dashed | backend/src/modules/listings/listings.service.ts:17 | each maximal run of characters outside [a-z0-9] becomes one dash: the result has no "--" and only slug characters and dashes |
| Listings.TrimDashes | backend/src/modules/listings/listings.service.ts:18 | one leading and one trailing dash removed |
| Listings.SlugBase | backend/src/modules/listings/listings.service.ts:15-18 | the title part of a slug is tidy and has no dash at either end |
| Listings.GenerateSlug | backend/src/modules/listings/listings.service.ts:14-19 | the slug is the title part, a dash, and digits that read back as the creation instant |
| Listings.SlugsOfDifferentInstantsDiffer | backend/src/modules/listings/listings.service.ts:18 | one title slugged at two different instants gives two different slugs |
| Listings.SlugBaseKeepsLettersAndDigits | backend/src/modules/listings/listings.service.ts:15-18 | the title part keeps every letter and digit of the title, lowered, in order, and nothing else but dashes |
| Listings.SlugBaseIdempotent | backend/src/modules/listings/listings.service.ts:15-18 | slugging a slug's title part changes nothing |
| Listings.CheckOwner | backend/src/modules/listings/listings.service.ts:154-160 | a missing listing is NotFound, another vendor's is Unauthorized, otherwise the listing itself |
| Listings.CoverPhoto | backend/src/modules/listings/listings.service.ts:40 | the given cover photo if truthy, else the first photo, else none |
| Listings.CreateListing | backend/src/modules/listings/listings.service.ts:22-68 | fails with no change unless the vendor exists and is approved, and with a numeric overflow when the price is too large for its column; otherwise appends one draft listing carrying the form's fields, the price to the nearest cent, its slug and cover photo, with zero views and bookings |
| Listings.BookingsChargeTheStoredPrice | backend/src/modules/bookings/bookings.service.ts:75 | a new listing keeps its form price rounded to the cent, and a booking of it is priced from that rounded amount |
| Listings.NewListingIsNotBookable | backend/src/modules/listings/listings.service.ts:62 | a new listing is a draft, so booking it fails until it is published |
| Listings.ApplyPatch | backend/src/modules/listings/listings.service.ts:163-175 | every field the patch carries takes its value, a price rounded to the cent; the slug is regenerated iff a title is given; every other field is kept |
| Listings.UpdateListing | backend/src/modules/listings/listings.service.ts:148-191 | same ownership guards, then a numeric overflow with no change for a price too large for its column; on success only the listing's row changes, to the patched listing |
| Listings.EmptyUpdateOnlyTouchesUpdatedAt | backend/src/modules/listings/listings.service.ts:163-175 | an update carrying no field changes only the update time |
| Listings.UpdateListingIdempotent | backend/src/modules/listings/listings.service.ts:148-191 | applying one update twice at the same instant is applying it once |
| Listings.UpdateListingStatus | backend/src/modules/listings/listings.service.ts:194-226 | ownership guards; publishing needs a photo (then a positive price), each with its own error; pausing has no guard; only status and update time change |
| Listings.DeleteListing | backend/src/modules/listings/listings.service.ts:229-252 | ownership guards; soft delete: the row stays with status deleted |
| Listings.DeletedListingCanBeRepublished | backend/src/modules/listings/listings.service.ts:194-252 | nothing stops a deleted listing being set active again |
| Listings.Viewed | backend/src/modules/listings/listings.service.ts:97-100 | a lookup counts exactly one view on the listing and changes nothing else |
| Listings.GetListingById | backend/src/modules/listings/listings.service.ts:71-107 | lookup by id finds a listing whatever its status |
| Listings.WithSlug | backend/src/modules/listings/listings.service.ts:118-121 | the first listing carrying the slug |
| Listings.GetListingBySlug | backend/src/modules/listings/listings.service.ts:110-145 | lookup by slug is NotFound for a missing or deleted listing |
| Listings.DeleteHidesSlugButNotId | backend/src/modules/listings/listings.service.ts:133-135 | after a delete, the listing is not found by slug but still found by id |
| Listings.NewestFirst | backend/src/modules/listings/listings.service.ts:304-317 | `ORDER BY created_at DESC`: a permutation of the ids, newest first |
| Listings.WindowKeepsOrderAndDistinct | backend/src/modules/listings/listings.service.ts:315-317 | the offset/limit page of an ordered list of distinct ids is ordered, distinct and a sub-multiset |
| Listings.AllMatches | backend/src/modules/listings/listings.service.ts:264-302 | exactly the active listings meeting every given filter, each once, newest first |
| Listings.SearchListings | backend/src/modules/listings/listings.service.ts:255-324 | every result is an active listing meeting every given filter; results are newest first, distinct, and at most the limit (default 20) |
| Listings.NothingMatchingFindsNothing | backend/src/modules/listings/listings.service.ts:255-324 | a search whose filters no listing meets returns an empty page, whatever the paging |
| Listings.LargeFirstPageFindsEveryMatch | backend/src/modules/listings/listings.service.ts:255-324 | a first page as long as the table holds every match |
| Listings.SearchPagesAreConsecutive | backend/src/modules/listings/listings.service.ts:315-317 | two consecutive pages together equal the page as long as both |
| Listings.GetVendorListings | backend/src/modules/listings/listings.service.ts:327-340 | exactly the vendor's listings, active ones only unless all are asked for, newest first |
| Listings.GetMyListings | backend/src/modules/listings/listings.service.ts:343-353 | exactly the vendor's listings that are not deleted, most recently updated first |
| Listings.DeleteLeavesMyListings | backend/src/modules/listings/listings.service.ts:229-353 | deleting a listing removes it from its vendor's own list and keeps every other entry |
| Listings.PublishShowsListing | backend/src/modules/listings/listings.service.ts:194-340 | publishing a listing puts it in its vendor's public list |
| Vendors.ProfileOf | backend/src/modules/vendors/vendors.service.ts:84-90 | the caller's vendor profile, or NotFound when the caller has none |
| Vendors.ApplyAsVendor | backend/src/modules/vendors/vendors.service.ts:14-46 | fails with no change if the user already has a profile; otherwise the user's role becomes vendor and exactly one pending profile is appended |
| Vendors.ApplyKeepsOneProfilePerUser | backend/src/modules/vendors/vendors.service.ts:16-22 | applying keeps every user at one vendor profile at most |
| Vendors.SecondApplicationIsRefused | backend/src/modules/vendors/vendors.service.ts:16-22 | a second application by the same user fails |
| Vendors.GetVendorProfile | backend/src/modules/vendors/vendors.service.ts:49-80 | the caller's own profile, or NotFound |
| Vendors.UpdateVendorProfile | backend/src/modules/vendors/vendors.service.ts:83-104 | sets exactly the fields the update carries on the caller's profile; no other field or row changes |
| Vendors.ProfileUpdateKeepsStatusAndPayoutDetails | backend/src/modules/vendors/vendors.service.ts:92-98 | a profile update never touches status, payout details or review |
| Vendors.AddPayoutDetails | backend/src/modules/vendors/vendors.service.ts:107-138 | always sets the method; M-Pesa sets only the number, bank only the three bank fields, and only those given; everything else unchanged |
| Vendors.ValidDetailsMakeVendorPayable | backend/src/modules/vendors/vendors.service.ts:116-127 | after valid details are saved, a payout uses the chosen method and is sent to the M-Pesa number or to "bank name - account number" |
| Vendors.UploadDocument | backend/src/modules/vendors/vendors.service.ts:141-192 | one document per vendor and type: an existing one is replaced, otherwise one is added |
| Vendors.GetVendorDocuments | backend/src/modules/vendors/vendors.service.ts:195-209 | exactly the caller's documents, by type |
| Vendors.ReuploadReplaces | backend/src/modules/vendors/vendors.service.ts:157-186 | uploading twice under one type keeps only the later document |
| Vendors.ReviewVendorApplication | backend/src/modules/vendors/vendors.service.ts:255-287 | missing vendor is NotFound; a non-pending one "already reviewed"; otherwise sets status and reason, with approvedBy/At set iff approved |
| Vendors.ReviewHappensOnce | backend/src/modules/vendors/vendors.service.ts:260-266 | a second review of the same vendor is refused |
| Vendors.ReviewDecidesListing | backend/src/modules/vendors/vendors.service.ts:255-287 | after review, creating a listing is refused as not approved iff the verdict was rejection, and succeeds iff it was approval and the price fits its column |
| Vendors.SuspendVendor | backend/src/modules/vendors/vendors.service.ts:320-347 | from any status, sets suspended and the reason; a missing vendor fails |
| Vendors.SuspensionStopsNewListingsOnly | backend/src/modules/vendors/vendors.service.ts:320-347 | a suspended vendor cannot create listings or be reviewed again, but its listings stay bookable exactly as before (unpublishing them is left undone in the source) |
| BookingSchema.ValidCreateBooking | backend/src/modules/bookings/bookings.schema.ts:3-12 | a booking request is accepted iff the listing id is UUID-shaped, both dates are `YYYY-MM-DD`, guests a positive whole number, special requests at most 1000 characters, and the end not before the start |
| BookingSchema.ValidAccept | backend/src/modules/bookings/bookings.schema.ts:14-16 | an acceptance message is optional and at most 500 characters |
| BookingSchema.ValidReason | backend/src/modules/bookings/bookings.schema.ts:18-24 | a decline or cancellation reason has 10 to 500 characters |
| BookingSchema.NotBeforeFollowsFormat | backend/src/modules/bookings/bookings.schema.ts:9-12 | for written dates, end-not-before-start is calendar order: the same day, or later by year, month or day |
| BookingSchema.SameDayIsNotBefore | backend/src/modules/bookings/bookings.schema.ts:9-12 | a booking may start and end on the same day |
| BookingSchema.ParseStatusFilter | backend/src/modules/bookings/bookings.schema.ts:27 | a recognised name is the name of the status it yields, and never `disputed` |
| BookingSchema.StatusFilterNames | backend/src/modules/bookings/bookings.schema.ts:27 | a status can be filtered on by its name iff it is not `disputed` |
| BookingSchema.ListFilterRefusesDisputed | backend/src/modules/bookings/bookings.schema.ts:26-30 | a booking list query naming a status is valid iff that status is not `disputed`, and then filters on exactly that status |
| ListingSchema.ParseCreateListing | backend/src/modules/listings/listings.schema.ts:4-28 | valid iff every bound holds; the fields are kept and the defaults filled: no amenities, no instant booking, stays 1 to 30 days, lead time 1 |
| ListingSchema.ValidFormMakesPublishableListing | backend/src/modules/listings/listings.schema.ts:17-19 | a listing created from a valid form meets the publish guards iff its price is at least half a cent, since the column stores a smaller positive price as zero |
| ListingSchema.SubCentPriceCannotBePublished | backend/src/modules/listings/listings.service.ts:212-214 | a valid form priced under half a cent gives a listing whose publication fails with the invalid-price error |
| ListingSchema.DurationBoundsAreNotCompared | backend/src/modules/listings/listings.schema.ts:25-26 | a minimum stay above the maximum is accepted |
| ListingSchema.ParseUpdateListing | backend/src/modules/listings/listings.schema.ts:31 | valid iff every given field meets its create bound; every given field reaches the patch with its value, absent fields stay absent and no default is filled |
| ListingSchema.EmptyUpdateFormIsNoChange | backend/src/modules/listings/listings.schema.ts:31 | the empty update form is valid and is the patch that changes nothing |
| ListingSchema.ValidCreateIsValidUpdate | backend/src/modules/listings/listings.schema.ts:31 | the update schema is the create schema made partial: a valid create form is a valid update |
| ListingSchema.ParsePublication | backend/src/modules/listings/listings.schema.ts:34-36 | only "active" and "paused" are accepted, mapping to those statuses |
| ListingSchema.ParseSearch | backend/src/modules/listings/listings.schema.ts:39-48 | valid iff prices are positive, minimum capacity a positive whole number, paging valid; every given filter reaches the search with its value, paging defaults filled, prices not compared |
| ListingSchema.ParsedSearchPaging | backend/src/modules/listings/listings.schema.ts:46-47 | the search from a parsed form uses the requested limit (20 by default, never above 100) and offset (0 by default) |
| ListingSchema.BackwardsPriceRangeFindsNothing | backend/src/modules/listings/listings.schema.ts:42-43 | a price range given backwards passes validation and finds nothing |
| VendorSchema.ValidApplication | backend/src/modules/vendors/vendors.schema.ts:4-12 | an application is accepted iff the business name has 3 to 255 characters, a given tax PIN is KRA-shaped, the phone is a local phone, the location has at least 3 characters and the description 20 to 1000 |
| VendorSchema.ValidPayoutDetails | backend/src/modules/vendors/vendors.schema.ts:15-34 | payout details are accepted iff every given field meets its bound and the chosen method's fields are all truthy |
| VendorSchema.ValidVendorUpdate | backend/src/modules/vendors/vendors.schema.ts:37-43 | a profile update is accepted iff every given field meets the application's bound |
| VendorSchema.ValidReview | backend/src/modules/vendors/vendors.schema.ts:46-59 | a verdict is accepted iff a given reason has at least 10 characters and a rejection carries a truthy reason |
| VendorSchema.MpesaDetailsCarryAPhone | backend/src/modules/vendors/vendors.schema.ts:15-34 | valid M-Pesa details carry a number in the profile phone format |
| VendorSchema.ValidApplicationIsValidUpdate | backend/src/modules/vendors/vendors.schema.ts:37-43 | the update schema has the application's bounds: a valid application is a valid update |
| VendorSchema.ParseVerdict | backend/src/modules/vendors/vendors.schema.ts:47 | only "approved" and "rejected" are accepted, "approved" meaning approval |
| VendorSchema.RejectionsCarryAReason | backend/src/modules/vendors/vendors.schema.ts:46-59 | every valid rejection carries a reason of at least 10 characters; an approval needs none |
| AvailabilitySchema.WrittenDatesAreAccepted | backend/src/modules/availability/availability.schema.ts:3-20 | written dates, and the empty list, are accepted for blocking and unblocking and read back as the days they write; any two date-shaped strings form a range in either order |
| PaymentSchema.AcceptedPhonesReachGatewayFormatted | backend/src/modules/payments/payments.schema.ts:3-6 | every accepted initiation phone reaches the gateway as "254" and a subscriber number, and every profile phone is accepted |
| PayoutSchema.ValidTrigger | backend/src/modules/payouts/payouts.schema.ts:3-5 | a manual payout names its booking by a UUID-shaped id |
| PayoutSchema.ParseStatusFilter | backend/src/modules/payouts/payouts.schema.ts:8 | a recognised name is the name of the status it yields, and never `cancelled` |
| PayoutSchema.StatusFilterNames | backend/src/modules/payouts/payouts.schema.ts:8 | a status can be filtered on by its name iff it is not `cancelled` |
| PayoutSchema.ListFilterRefusesCancelled | backend/src/modules/payouts/payouts.schema.ts:7-11 | a payout list query naming a status is valid iff that status is not `cancelled`, and then filters on exactly that status |
| AuthSchema.ParseRole | backend/src/modules/auth/auth.schema.ts:7 | customer when absent; a given role is accepted iff it is "customer" or "vendor"; never admin |
| AuthSchema.ParseRegister | backend/src/modules/auth/auth.schema.ts:3-8 | valid iff the phone matches the profile pattern, the password has at least 8 characters, and the role is accepted |
| AuthSchema.NoSelfRegisteredAdmins | backend/src/modules/auth/auth.schema.ts:7 | no registration yields admin; omitting the role gives customer; asking for admin is refused |
| AuthSchema.ValidOtp | backend/src/modules/auth/auth.schema.ts:15-18 | a one-time code is exactly 6 characters |

## Left out

- HTTP layer (controllers, routes, authentication middleware): the caller's
  id and role are parameters. The booking controller's customer-only create
  check is not modelled.
- Redis caching is treated as absent. A cached lookup by id or slug returns
  without counting a view; the model always takes the uncached path.
- The Flutterwave gateway is modelled as replies given as parameters
  (`GatewayReply`, `ChargeReply`, `VerifyReply`). The HMAC-SHA256 webhook
  check is a boolean. Transaction references and the clock are parameters.
- Floating point: amounts are exact reals, so `toFixed(2)` artefacts of
  binary doubles are not reproduced.
- Time zones: every day is a UTC day. The local-time `setHours(23, 59, 59)`
  of completion and the local/UTC mix of the calendar loop are not
  distinguished.
- Calendar validity of dates: the date validators check the
  `YYYY-MM-DD` shape only. `new Date` on an impossible date such as
  month 13 gives an invalid date, which makes the booking refine fail; the
  model compares the spelled year, month and day instead.
- String lengths count characters, not UTF-16 code units. Lower-casing is
  ASCII only.
- SQL `LIKE` in search treats its needle literally; `%` and `_` in user
  input are not wildcards here.
- zod's email and URL checks are not modelled; those fields are free
  strings. The UUID check is the 8-4-4-4-12 hex shape, without the version
  and variant digits some zod versions also check.
- Latitude and longitude pass through the listing forms but are not stored.
- Bookings.RunKeepsNoOverlap: the replayed calls are the booking, block,
  unblock and payout-settlement calls. Payment initiation, the webhook and
  manual verification are not among them because the payments module
  builds on the bookings module. They have their own lemmas instead:
  `InitiationTouchesOnlyPayments`, and `HandleWebhookGuardedKeepsNoOverlap`
  and `VerifyPaymentStatusGuardedKeepsNoOverlap`. The last two cover the
  guarded versions only, because the versions as written break the
  invariant (see Findings).
- Bookings.CreateBooking: the booking's amount columns are `decimal(10, 2)`
  as well, so a total of 10^8 or more (a base price above about 74.96
  million) would fail the insert. The model does not produce that failure,
  and the payment and payout amounts are not checked against their columns
  either.
- Transactions, isolation and the concurrent double-booking race: calls run
  one at a time. The in-transaction re-check of booking creation is
  therefore subsumed by the availability guard.
- Listings.NewestFirst: rows with equal creation instants come out in
  reverse table order; the database gives no order for ties.
- Payouts.SelectDue: the sweep takes due payouts lowest id first; the
  source query has no `ORDER BY`.
- Other reads and admin lists (`getCustomerBookings`, `getVendorBookings`,
  `getVendorPayouts`, `getAllPayouts`, `getBookingPayments`,
  `getFeaturedListings`, `getAllListings`, `getPendingVendors`,
  `getAllVendors`, `getVendorById`, `getListingAvailability`,
  `triggerManualPayout`): they are queries outside the settlement core.
- Upload, notification and auth services (file handling, e-mail/SMS,
  password hashing, tokens) are I/O wrappers and are not part of this model.

## Findings

| source | as written | input that shows it | evidently intended | confidence | as-written member | corrected member |
|---|---|---|---|---|---|---|
| backend/src/modules/bookings/bookings.service.ts:184-190 | accept re-checks availability with the general range check, which counts pending bookings, so it sees the pending booking being accepted | any pending booking whose end is not before its start | the re-check should leave the booking itself out | high, not executed | Bookings.AcceptAsWrittenRefusesEveryRequest | Bookings.CreatedRequestCanBeAccepted |
| backend/src/modules/payments/payments.service.ts:199-204 | a settling webhook (and, at 260-265, a successful verification) sets the booking confirmed whatever its status | a booking cancelled after paying, whose dates another customer then booked, receiving a late successful webhook | only a booking still pending or confirmed should be confirmed | high, not executed | Payments.HandleWebhookRevivesCancelledBooking | Payments.HandleWebhookGuardedKeepsNoOverlap |

=== FILE: auth_schema.dfy ===
/**
  The validators of registration, login and one-time-password
  verification. The email format is not part of this model.
 */
module AuthSchema {
  import opened Wrappers
  import opened Domain
  import opened Patterns

  datatype RegisterForm = RegisterForm(email: string, phone: string, password: string, role: Option<string>)

  /** `z.enum(['customer', 'vendor']).default('customer')`. */
  function ParseRole(role: Option<string>): (r: Option<Role>)
    ensures role.None? ==> r == Some(CustomerRole)
    ensures role.Some? ==> (r.Some? <==> role.value == "customer" || role.value == "vendor")
    ensures r.Some? ==> r.value != AdminRole
  {
    match role
    case None => Some(CustomerRole)
    case Some(name) =>
      if name == "customer" then Some(CustomerRole)
      else if name == "vendor" then Some(VendorRole)
      else None
  }

  /** Validates a registration: a profile-format phone, a password of at least 8 characters, a role. */
  function ParseRegister(f: RegisterForm): (r: Option<Role>)
    ensures r.Some? <==> LocalPhone(f.phone) && |f.password| >= 8 && ParseRole(f.role).Some?
    ensures r.Some? ==> r == ParseRole(f.role)
  {
    if LocalPhone(f.phone) && |f.password| >= 8 then ParseRole(f.role) else None
  }

  /** Nobody registers as an admin: the role is the one asked for, customer when none is. */
  lemma NoSelfRegisteredAdmins(f: RegisterForm)
    ensures ParseRegister(f) != Some(AdminRole)
    ensures LocalPhone(f.phone) && |f.password| >= 8 && f.role.None? ==> ParseRegister(f) == Some(CustomerRole)
    ensures f.role == Some("admin") ==> ParseRegister(f).None?
  {
  }

  /** A one-time password has exactly 6 characters. */
  predicate ValidOtp(otp: string) {
    |otp| == 6
  }
}

=== FILE: availability.dfy ===
/**
  The availability ledger of a listing: blocking and unblocking days, the
  range check used before a booking is written, and the calendar view.
 */
module Availability {
  import opened Wrappers
  import opened Domain

  // ------------------------------------------------------------ the check

  /** Some ledger row of listing `l` within [start, end] is marked unavailable. */
  predicate BlockedDayIn(days: Ledger, l: Id, start: Day, end: Day) {
    exists k :: k in days && k.0 == l && start <= k.1 <= end && !days[k].available
  }

  /** Some pending or confirmed booking of listing `l` overlaps [start, end]. */
  predicate HeldOverlapIn(bookings: seq<Booking>, l: Id, start: Day, end: Day) {
    exists i :: 0 <= i < |bookings| && HoldsOverlapping(bookings[i], l, start, end)
  }

  /** `checkAvailability`: no blocked row and no holding booking meets the range. */
  function CheckAvailability(s: Store, l: Id, start: Day, end: Day): (ok: bool)
    ensures ok <==>
      && (forall d :: (l, d) in s.days && start <= d <= end ==> s.days[(l, d)].available)
      && (forall i :: 0 <= i < |s.bookings| ==> !HoldsOverlapping(s.bookings[i], l, start, end))
  {
    !BlockedDayIn(s.days, l, start, end) && !HeldOverlapIn(s.bookings, l, start, end)
  }

  /** Every booking ends on or after the day it starts, as the booking schema demands. */
  predicate WellDated(bookings: seq<Booking>) {
    forall i :: 0 <= i < |bookings| ==> bookings[i].startDate <= bookings[i].endDate
  }

  /** A single day is open: it has no unavailable row and no holding booking covers it. */
  predicate DayFree(s: Store, l: Id, d: Day) {
    && !((l, d) in s.days && !s.days[(l, d)].available)
    && forall i :: 0 <= i < |s.bookings| ==> !HoldsOverlapping(s.bookings[i], l, d, d)
  }

  /**
    The range check agrees with checking each day of the range on its own, in
    both directions, for every range whose end is not before its start and
    every ledger whose bookings end on or after their start.
   */
  lemma CheckAvailabilityIsDayByDay(s: Store, l: Id, start: Day, end: Day)
    requires start <= end
    requires WellDated(s.bookings)
    ensures CheckAvailability(s, l, start, end) <==> forall d :: start <= d <= end ==> DayFree(s, l, d)
  {
    if CheckAvailability(s, l, start, end) {
      forall d | start <= d <= end
        ensures DayFree(s, l, d)
      {
        forall i | 0 <= i < |s.bookings|
          ensures !HoldsOverlapping(s.bookings[i], l, d, d)
        {
          assert !HoldsOverlapping(s.bookings[i], l, start, end);
        }
      }
    } else if BlockedDayIn(s.days, l, start, end) {
      var k :| k in s.days && k.0 == l && start <= k.1 <= end && !s.days[k].available;
      assert k == (l, k.1);
      assert !DayFree(s, l, k.1);
    } else {
      var i :| 0 <= i < |s.bookings| && HoldsOverlapping(s.bookings[i], l, start, end);
      var b := s.bookings[i];
      var d := if b.startDate < start then start else b.startDate;
      assert HoldsOverlapping(b, l, d, d);
      assert !DayFree(s, l, d);
    }
  }

  /**
    No check of end >= start happens on this path: a range given backwards can
    still meet a booking, so the check rejects a range that has no days in it.
   */
  lemma BackwardsRangeCanBeRejected()
    ensures var b := Booking(0, 0, 5, 10, 1, 0.0, 0.0, 0.0, 0.0, BookingStatus.Pending, None, None, None, None, None);
            var s := Store([], [], [], map[], [b], [], [], map[]);
            !CheckAvailability(s, 0, 8, 6)
  {
    var b := Booking(0, 0, 5, 10, 1, 0.0, 0.0, 0.0, 0.0, BookingStatus.Pending, None, None, None, None, None);
    var s := Store([], [], [], map[], [b], [], [], map[]);
    assert HoldsOverlapping(s.bookings[0], 0, 8, 6);
  }

  // ---------------------------------------------------------------- block

  /**
    The row a block writes over key `k` of `days`: unavailable, with the
    given reason. An absent reason is left out of the update, so an existing
    row keeps the reason it had and a new row has none.
   */
  function BlockedRow(days: Ledger, k: (Id, Day), reason: Option<string>): DayRow {
    DayRow(false, if reason.Some? then reason else if k in days then days[k].blockedReason else None)
  }

  /**
    Upsert an unavailable row for each date, in order. Writing a date twice
    gives the row the first write gave it, so each date ends with the row
    a block over the original ledger writes.
   */
  function BlockAll(days: Ledger, l: Id, dates: seq<Day>, reason: Option<string>): (r: Ledger)
    ensures forall k :: k in r <==> k in days || (k.0 == l && k.1 in dates)
    ensures forall k :: k in r && k.0 == l && k.1 in dates ==>
      && !r[k].available
      && (reason.Some? ==> r[k].blockedReason == reason)
      && (reason.None? && k in days ==> r[k].blockedReason == days[k].blockedReason)
      && (reason.None? && k !in days ==> r[k].blockedReason.None?)
    ensures forall k :: k in days && !(k.0 == l && k.1 in dates) ==> r[k] == days[k]
    decreases |dates|
  {
    if |dates| == 0 then days
    else
      var days' := days[(l, dates[0]) := BlockedRow(days, (l, dates[0]), reason)];
      var r := BlockAll(days', l, dates[1..], reason);
      assert forall d :: d in dates <==> d == dates[0] || d in dates[1..];
      r
  }

  /**
    `blockDates`: fails without writing when the listing is missing or belongs
    to another vendor. Otherwise every given date of the listing ends with one
    unavailable row, carrying the given reason when one is given, else the
    reason an existing row already had, else none; every other row is
    unchanged; and the result holds, for each given date in order, the row
    stored for it.
   */
  function BlockDates(s: Store, l: Id, vendorId: Id, dates: seq<Day>, reason: Option<string>)
    : (r: Result<(Store, seq<(Day, DayRow)>), Error>)
    ensures l >= |s.listings| ==> r == Failure(NotFound(ListingKind))
    ensures l < |s.listings| && s.listings[l].vendorId != vendorId ==> r == Failure(Unauthorized)
    ensures r.Success? <==> l < |s.listings| && s.listings[l].vendorId == vendorId
    ensures r.Success? ==>
      var (s', rows) := r.value;
      && s' == s.(days := s'.days)
      && (forall k :: k in s'.days <==> k in s.days || (k.0 == l && k.1 in dates))
      && (forall d :: d in dates ==> !s'.days[(l, d)].available)
      && (forall d :: d in dates && reason.Some? ==> s'.days[(l, d)].blockedReason == reason)
      && (forall d :: d in dates && reason.None? && (l, d) in s.days ==>
            s'.days[(l, d)].blockedReason == s.days[(l, d)].blockedReason)
      && (forall d :: d in dates && reason.None? && (l, d) !in s.days ==> s'.days[(l, d)].blockedReason.None?)
      && (forall k :: k in s.days && !(k.0 == l && k.1 in dates) ==> s'.days[k] == s.days[k])
      && |rows| == |dates|
      && (forall i :: 0 <= i < |rows| ==> rows[i] == (dates[i], s'.days[(l, dates[i])]))
  {
    if l >= |s.listings| then Failure(NotFound(ListingKind))
    else if s.listings[l].vendorId != vendorId then Failure(Unauthorized)
    else
      var days' := BlockAll(s.days, l, dates, reason);
      assert forall d :: d in dates ==> (l, d) in days' && (l, d).1 in dates;
      var rows := seq(|dates|, i requires 0 <= i < |dates| => (dates[i], BlockedRow(s.days, (l, dates[i]), reason)));
      assert forall i :: 0 <= i < |dates| ==> days'[(l, dates[i])] == BlockedRow(s.days, (l, dates[i]), reason);
      Success((s.(days := days'), rows))
  }

  /** Blocking a day again without a reason keeps the reason it was blocked with. */
  lemma ReblockKeepsReason(s: Store, l: Id, vendorId: Id, d: Day, why: string)
    requires l < |s.listings| && s.listings[l].vendorId == vendorId
    requires (l, d) in s.days && s.days[(l, d)] == DayRow(false, Some(why))
    ensures var r := BlockDates(s, l, vendorId, [d], None);
      r.Success? && r.value.0 == s && r.value.1 == [(d, DayRow(false, Some(why)))]
  {
    var r := BlockDates(s, l, vendorId, [d], None);
    assert d in [d];
    assert r.value.0.days[(l, d)] == s.days[(l, d)];
    assert r.value.0.days == s.days;
  }

  // -------------------------------------------------------------- unblock

  /** Reopen the existing row of each date; dates without a row are skipped. */
  function UnblockAll(days: Ledger, l: Id, dates: seq<Day>): (r: Ledger)
    ensures r.Keys == days.Keys
    ensures forall k :: k in days && k.0 == l && k.1 in dates ==> r[k] == DayRow(true, None)
    ensures forall k :: k in days && !(k.0 == l && k.1 in dates) ==> r[k] == days[k]
    decreases |dates|
  {
    if |dates| == 0 then days
    else
      var days' := if (l, dates[0]) in days then days[(l, dates[0]) := DayRow(true, None)] else days;
      var r := UnblockAll(days', l, dates[1..]);
      assert forall d :: d in dates <==> d == dates[0] || d in dates[1..];
      r
  }

  /** The rows `unblockDates` returns: one per given date that had a row, in input order. */
  function UnblockedRows(days: Ledger, l: Id, dates: seq<Day>): (rows: seq<(Day, DayRow)>)
    ensures |rows| <= |dates|
    ensures forall i :: 0 <= i < |rows| ==> rows[i].0 in dates && (l, rows[i].0) in days && rows[i].1 == DayRow(true, None)
    ensures forall d :: d in dates && (l, d) in days ==> (d, DayRow(true, None)) in rows
  {
    if |dates| == 0 then []
    else
      var rest := UnblockedRows(days, l, dates[1..]);
      if (l, dates[0]) in days then [(dates[0], DayRow(true, None))] + rest else rest
  }

  /**
    `unblockDates`: fails without writing when the listing is missing or belongs
    to another vendor; otherwise only rows that already exist are reopened
    (available, no reason), no row is created, every other row is unchanged,
    and the result lists only the dates that had a row.
   */
  function UnblockDates(s: Store, l: Id, vendorId: Id, dates: seq<Day>)
    : (r: Result<(Store, seq<(Day, DayRow)>), Error>)
    ensures l >= |s.listings| ==> r == Failure(NotFound(ListingKind))
    ensures l < |s.listings| && s.listings[l].vendorId != vendorId ==> r == Failure(Unauthorized)
    ensures r.Success? <==> l < |s.listings| && s.listings[l].vendorId == vendorId
    ensures r.Success? ==>
      var (s', rows) := r.value;
      && s' == s.(days := s'.days)
      && s'.days.Keys == s.days.Keys
      && (forall k :: k in s.days && k.0 == l && k.1 in dates ==> s'.days[k] == DayRow(true, None))
      && (forall k :: k in s.days && !(k.0 == l && k.1 in dates) ==> s'.days[k] == s.days[k])
      && |rows| <= |dates|
      && (forall i :: 0 <= i < |rows| ==>
            rows[i].0 in dates && (l, rows[i].0) in s.days && rows[i].1 == DayRow(true, None)
            && rows[i].1 == s'.days[(l, rows[i].0)])
      && (forall d :: d in dates && (l, d) in s.days ==> (d, DayRow(true, None)) in rows)
  {
    if l >= |s.listings| then Failure(NotFound(ListingKind))
    else if s.listings[l].vendorId != vendorId then Failure(Unauthorized)
    else Success((s.(days := UnblockAll(s.days, l, dates)), UnblockedRows(s.days, l, dates)))
  }

  /** Blocking any day of a range makes the range unavailable. */
  lemma BlockedRangeIsUnavailable(s: Store, l: Id, vendorId: Id, dates: seq<Day>, reason: Option<string>, start: Day, end: Day)
    requires BlockDates(s, l, vendorId, dates, reason).Success?
    requires exists d :: d in dates && start <= d <= end
    ensures !CheckAvailability(BlockDates(s, l, vendorId, dates, reason).value.0, l, start, end)
  {
    var s' := BlockDates(s, l, vendorId, dates, reason).value.0;
    var d :| d in dates && start <= d <= end;
    assert (l, d) in s'.days && !s'.days[(l, d)].available;
  }

  /**
    Unblocking every day of a range makes it available again unless a pending
    or confirmed booking overlaps it.
   */
  lemma UnblockedRangeIsAvailable(s: Store, l: Id, vendorId: Id, dates: seq<Day>, start: Day, end: Day)
    requires UnblockDates(s, l, vendorId, dates).Success?
    requires forall d :: start <= d <= end ==> d in dates
    ensures CheckAvailability(UnblockDates(s, l, vendorId, dates).value.0, l, start, end)
        <==> !HeldOverlapIn(s.bookings, l, start, end)
  {
  }

  /** Blocking a set of days and then unblocking the same days reopens a range they cover. */
  lemma BlockThenUnblockRoundTrip(s: Store, l: Id, vendorId: Id, dates: seq<Day>, reason: Option<string>, start: Day, end: Day)
    requires BlockDates(s, l, vendorId, dates, reason).Success?
    requires forall d :: start <= d <= end ==> d in dates
    requires !HeldOverlapIn(s.bookings, l, start, end)
    ensures var s1 := BlockDates(s, l, vendorId, dates, reason).value.0;
            UnblockDates(s1, l, vendorId, dates).Success?
            && CheckAvailability(UnblockDates(s1, l, vendorId, dates).value.0, l, start, end)
  {
    var s1 := BlockDates(s, l, vendorId, dates, reason).value.0;
    UnblockedRangeIsAvailable(s1, l, vendorId, dates, start, end);
  }

  // ------------------------------------------------------------- calendar

  /** One day of the calendar; `bookingStatus` is present on days a booking fills. */
  datatype CalendarEntry = CalendarEntry(available: bool, reason: Option<string>, bookingStatus: Option<BookingStatus>)

  const BookedReason: string := "Booked"

  /** The bookings the calendar draws: holding, and lying wholly inside the window. */
  predicate ShownIn(b: Booking, l: Id, start: Day, end: Day) {
    b.listingId == l && HoldsDates(b.status) && b.startDate >= start && b.endDate <= end
  }

  /** Some booking the calendar draws covers day `d`. */
  predicate CoveredIn(bookings: seq<Booking>, l: Id, start: Day, end: Day, d: Day) {
    exists i :: 0 <= i < |bookings| && ShownIn(bookings[i], l, start, end)
      && bookings[i].startDate <= d <= bookings[i].endDate
  }

  /** The ledger rows of the window, copied with their flag; an empty reason is dropped. */
  function RowsInWindow(days: Ledger, l: Id, start: Day, end: Day): (cal: map<Day, CalendarEntry>)
    ensures forall d :: d in cal <==> start <= d <= end && (l, d) in days
    ensures forall d :: d in cal ==>
      && cal[d].available == days[(l, d)].available
      && cal[d].bookingStatus.None?
      && (Truthy(days[(l, d)].blockedReason) ==> cal[d].reason == days[(l, d)].blockedReason)
      && (!Truthy(days[(l, d)].blockedReason) ==> cal[d].reason.None?)
  {
    map d | start <= d <= end && (l, d) in days ::
      CalendarEntry(days[(l, d)].available,
                    if Truthy(days[(l, d)].blockedReason) then days[(l, d)].blockedReason else None,
                    None)
  }

  /** The days from `first` to `last`, both included. */
  function Span(first: Day, last: Day): (days: set<Day>)
    ensures forall d :: d in days <==> first <= d <= last
    decreases last - first
  {
    if first > last then {} else {first} + Span(first + 1, last)
  }

  /** A day is covered by a list of bookings iff its first covers it or the rest do. */
  lemma CoveredInCons(bookings: seq<Booking>, l: Id, start: Day, end: Day)
    requires |bookings| > 0
    ensures forall d :: CoveredIn(bookings, l, start, end, d) <==>
      (ShownIn(bookings[0], l, start, end) && bookings[0].startDate <= d <= bookings[0].endDate)
      || CoveredIn(bookings[1..], l, start, end, d)
  {
    var b := bookings[0];
    forall d ensures CoveredIn(bookings, l, start, end, d) ==>
      (ShownIn(b, l, start, end) && b.startDate <= d <= b.endDate) || CoveredIn(bookings[1..], l, start, end, d)
    {
      if CoveredIn(bookings, l, start, end, d) {
        var i :| 0 <= i < |bookings| && ShownIn(bookings[i], l, start, end) && bookings[i].startDate <= d <= bookings[i].endDate;
        if i > 0 {
          assert bookings[1..][i - 1] == bookings[i];
        }
      }
    }
    forall d ensures CoveredIn(bookings[1..], l, start, end, d) ==> CoveredIn(bookings, l, start, end, d)
    {
      if CoveredIn(bookings[1..], l, start, end, d) {
        var i :| 0 <= i < |bookings[1..]| && ShownIn(bookings[1..][i], l, start, end)
          && bookings[1..][i].startDate <= d <= bookings[1..][i].endDate;
        assert bookings[i + 1] == bookings[1..][i];
      }
    }
  }

  /** Booking `i` is a drawn booking covering day `d`, and no drawn booking after it covers `d`. */
  predicate LastCovering(bookings: seq<Booking>, l: Id, start: Day, end: Day, d: Day, i: int) {
    && 0 <= i < |bookings| && ShownIn(bookings[i], l, start, end)
    && bookings[i].startDate <= d <= bookings[i].endDate
    && !CoveredIn(bookings[i + 1..], l, start, end, d)
  }

  /**
    One painting step keeps the status of the last covering booking: what the
    rest of the bookings paint over `cal'` carries it, whether the day's last
    covering booking is among the rest or is the first one.
   */
  lemma LastCoveringStep(bookings: seq<Booking>, l: Id, start: Day, end: Day,
                         cal': map<Day, CalendarEntry>, r: map<Day, CalendarEntry>, d: Day)
    requires |bookings| > 0
    requires d in r && CoveredIn(bookings, l, start, end, d)
    requires CoveredIn(bookings[1..], l, start, end, d) ==>
      exists i :: LastCovering(bookings[1..], l, start, end, d, i) && r[d].bookingStatus == Some(bookings[1..][i].status)
    requires !CoveredIn(bookings[1..], l, start, end, d) ==>
      d in cal' && r[d] == cal'[d] && cal'[d].bookingStatus == Some(bookings[0].status)
    ensures exists i :: LastCovering(bookings, l, start, end, d, i) && r[d].bookingStatus == Some(bookings[i].status)
  {
    CoveredInCons(bookings, l, start, end);
    if CoveredIn(bookings[1..], l, start, end, d) {
      var i :| LastCovering(bookings[1..], l, start, end, d, i) && r[d].bookingStatus == Some(bookings[1..][i].status);
      assert bookings[i + 1] == bookings[1..][i];
      assert bookings[i + 2..] == bookings[1..][i + 1..];
      assert LastCovering(bookings, l, start, end, d, i + 1);
    } else {
      assert bookings[1..] == bookings[0 + 1..];
      assert LastCovering(bookings, l, start, end, d, 0);
    }
  }

  /** Paint every day of one booking as booked, when the calendar draws it. */
  function Paint(cal: map<Day, CalendarEntry>, b: Booking, l: Id, start: Day, end: Day): (r: map<Day, CalendarEntry>)
    ensures forall d :: d in r <==> d in cal || (ShownIn(b, l, start, end) && b.startDate <= d <= b.endDate)
    ensures forall d :: ShownIn(b, l, start, end) && b.startDate <= d <= b.endDate ==>
      r[d] == CalendarEntry(false, Some(BookedReason), Some(b.status))
    ensures forall d :: d in cal && !(ShownIn(b, l, start, end) && b.startDate <= d <= b.endDate) ==> r[d] == cal[d]
  {
    if ShownIn(b, l, start, end) then
      cal + map d | d in Span(b.startDate, b.endDate) :: CalendarEntry(false, Some(BookedReason), Some(b.status))
    else cal
  }

  /** Paint every day of each drawn booking as booked, later bookings over earlier ones. */
  function MarkBooked(cal: map<Day, CalendarEntry>, bookings: seq<Booking>, l: Id, start: Day, end: Day)
    : (r: map<Day, CalendarEntry>)
    ensures forall d :: d in r <==> d in cal || CoveredIn(bookings, l, start, end, d)
    ensures forall d :: d in r && CoveredIn(bookings, l, start, end, d) ==>
      !r[d].available && r[d].reason == Some(BookedReason)
      && r[d].bookingStatus.Some? && HoldsDates(r[d].bookingStatus.value)
    ensures forall d :: d in r && CoveredIn(bookings, l, start, end, d) ==>
      exists i :: LastCovering(bookings, l, start, end, d, i) && r[d].bookingStatus == Some(bookings[i].status)
    ensures forall d :: d in cal && !CoveredIn(bookings, l, start, end, d) ==> r[d] == cal[d]
    decreases |bookings|
  {
    if |bookings| == 0 then cal
    else
      var cal' := Paint(cal, bookings[0], l, start, end);
      var r := MarkBooked(cal', bookings[1..], l, start, end);
      CoveredInCons(bookings, l, start, end);
      assert forall d :: d in r && CoveredIn(bookings, l, start, end, d) ==>
        exists i :: LastCovering(bookings, l, start, end, d, i) && r[d].bookingStatus == Some(bookings[i].status)
      by {
        forall d | d in r && CoveredIn(bookings, l, start, end, d)
          ensures exists i :: LastCovering(bookings, l, start, end, d, i) && r[d].bookingStatus == Some(bookings[i].status)
        {
          LastCoveringStep(bookings, l, start, end, cal', r, d);
        }
      }
      r
  }

  /**
    `getCalendar`: a day appears iff it has a ledger row in the window or a
    drawn booking covers it; a covered day reads unavailable with reason
    "Booked" whatever its row says; any other day copies its row.
   */
  function GetCalendar(s: Store, l: Id, start: Day, end: Day): (cal: map<Day, CalendarEntry>)
    ensures forall d :: d in cal <==> (start <= d <= end && (l, d) in s.days) || CoveredIn(s.bookings, l, start, end, d)
    ensures forall d :: CoveredIn(s.bookings, l, start, end, d) ==>
      d in cal && !cal[d].available && cal[d].reason == Some(BookedReason)
    ensures forall d :: CoveredIn(s.bookings, l, start, end, d) ==>
      exists i :: LastCovering(s.bookings, l, start, end, d, i) && cal[d].bookingStatus == Some(s.bookings[i].status)
    ensures forall d :: start <= d <= end && (l, d) in s.days && !CoveredIn(s.bookings, l, start, end, d) ==>
      cal[d].available == s.days[(l, d)].available
      && cal[d].bookingStatus.None?
      && (cal[d].reason.Some? <==> Truthy(s.days[(l, d)].blockedReason))
      && cal[d].reason == (if Truthy(s.days[(l, d)].blockedReason) then s.days[(l, d)].blockedReason else None)
  {
    MarkBooked(RowsInWindow(s.days, l, start, end), s.bookings, l, start, end)
  }

  /** A range that passes the check shows every calendar day in it as available. */
  lemma AvailableRangeShowsOpenCalendar(s: Store, l: Id, start: Day, end: Day)
    requires CheckAvailability(s, l, start, end)
    ensures forall d :: d in GetCalendar(s, l, start, end) ==> GetCalendar(s, l, start, end)[d].available
  {
    var cal := GetCalendar(s, l, start, end);
    forall d | d in cal
      ensures cal[d].available
    {
      assert !CoveredIn(s.bookings, l, start, end, d);
      assert (l, d) in s.days;
    }
  }

  /**
    The converse fails: a booking that runs past the window is not drawn, so
    the calendar can show nothing for a window the check rejects.
   */
  lemma PartialOverlapIsNotDrawn()
    ensures var b := Booking(0, 0, 5, 10, 1, 0.0, 0.0, 0.0, 0.0, BookingStatus.Confirmed, None, None, None, None, None);
            var s := Store([], [], [], map[], [b], [], [], map[]);
            !CheckAvailability(s, 0, 8, 12) && GetCalendar(s, 0, 8, 12) == map[]
  {
    var b := Booking(0, 0, 5, 10, 1, 0.0, 0.0, 0.0, 0.0, BookingStatus.Confirmed, None, None, None, None, None);
    var s := Store([], [], [], map[], [b], [], [], map[]);
    assert HoldsOverlapping(s.bookings[0], 0, 8, 12);
    assert !CoveredIn(s.bookings, 0, 8, 12, 9) by {
      assert !ShownIn(s.bookings[0], 0, 8, 12);
    }
    var cal := GetCalendar(s, 0, 8, 12);
    assert forall d :: !CoveredIn(s.bookings, 0, 8, 12, d);
    assert forall d :: d !in cal;
  }
}

=== FILE: availability_schema.dfy ===
/**
  The validators of the availability endpoints: lists of dates to block or
  unblock, and the date ranges of the availability check and the calendar.
 */
module AvailabilitySchema {
  import opened Wrappers
  import opened Patterns

  /** Every date of a list is date-shaped; the list may be empty. */
  predicate AllDateShaped(dates: seq<string>) {
    forall i :: 0 <= i < |dates| ==> DateShaped(dates[i])
  }

  datatype BlockForm = BlockForm(dates: seq<string>, reason: Option<string>)

  predicate ValidBlock(f: BlockForm) {
    AllDateShaped(f.dates)
  }

  /** `unblock` carries dates only. */
  predicate ValidUnblock(dates: seq<string>) {
    AllDateShaped(dates)
  }

  /** The range of the availability check and of the calendar: two date-shaped strings, in any order. */
  datatype RangeForm = RangeForm(startDate: string, endDate: string)

  predicate ValidRange(f: RangeForm) {
    DateShaped(f.startDate) && DateShaped(f.endDate)
  }

  /** The dates written out, in order. */
  function FormatDates(days: seq<(nat, nat, nat)>): (r: seq<string>)
    requires forall i :: 0 <= i < |days| ==> days[i].0 < 10000 && days[i].1 < 100 && days[i].2 < 100
    ensures |r| == |days|
  {
    seq(|days|, i requires 0 <= i < |days| => FormatDate(days[i].0, days[i].1, days[i].2))
  }

  /**
    Dates written the standard way are always accepted for blocking, an
    empty list included, and read back as the days they write; any two
    dates form a range in either order: neither range validator compares
    its ends.
   */
  lemma WrittenDatesAreAccepted(days: seq<(nat, nat, nat)>, reason: Option<string>, a: string, b: string)
    requires forall i :: 0 <= i < |days| ==> days[i].0 < 10000 && days[i].1 < 100 && days[i].2 < 100
    requires DateShaped(a) && DateShaped(b)
    ensures ValidBlock(BlockForm(FormatDates(days), reason)) && ValidUnblock(FormatDates(days))
    ensures ValidBlock(BlockForm([], reason))
    ensures ValidRange(RangeForm(a, b)) && ValidRange(RangeForm(b, a))
    ensures forall i :: 0 <= i < |days| ==> ParseDate(FormatDates(days)[i]) == days[i]
  {
    forall i | 0 <= i < |days| ensures ParseDate(FormatDates(days)[i]) == days[i] {
      ParseFormatRoundTrip(days[i].0, days[i].1, days[i].2);
    }
  }
}

=== FILE: booking_schema.dfy ===
/**
  The validators of the booking endpoints: the booking request with its
  date-order rule, the accept, decline and cancel forms, and the list
  filter with its paging.
 */
module BookingSchema {
  import opened Wrappers
  import opened Domain
  import opened Patterns
  import opened Validation

  /** A raw booking request: the listing id and the dates as strings, the guest count as a JSON number. */
  datatype CreateBookingForm = CreateBookingForm(
    listingId: string,
    startDate: string,
    endDate: string,
    guests: real,
    specialRequests: Option<string>)

  /** Calendar order of two date-shaped strings: year, then month, then day. */
  predicate NotBefore(later: string, earlier: string)
    requires DateShaped(later) && DateShaped(earlier)
  {
    var (y1, m1, d1) := ParseDate(later);
    var (y0, m0, d0) := ParseDate(earlier);
    || y1 > y0
    || (y1 == y0 && m1 > m0)
    || (y1 == y0 && m1 == m0 && d1 >= d0)
  }

  predicate ValidCreateBooking(f: CreateBookingForm) {
    && UuidShaped(f.listingId)
    && DateShaped(f.startDate) && DateShaped(f.endDate)
    && PositiveWhole(f.guests)
    && (f.specialRequests.Some? ==> |f.specialRequests.value| <= 1000)
    && NotBefore(f.endDate, f.startDate)
  }

  /** A booking may start and end on the same day. */
  lemma SameDayIsNotBefore(d: string)
    requires DateShaped(d)
    ensures NotBefore(d, d)
  {
  }

  /** The date order is the order of the written dates: it follows year, month and day as written. */
  lemma NotBeforeFollowsFormat(y1: nat, m1: nat, d1: nat, y0: nat, m0: nat, d0: nat)
    requires y1 < 10000 && m1 < 100 && d1 < 100 && y0 < 10000 && m0 < 100 && d0 < 100
    ensures NotBefore(FormatDate(y1, m1, d1), FormatDate(y0, m0, d0)) <==>
      (y1, m1, d1) == (y0, m0, d0) || y1 > y0 || (y1 == y0 && m1 > m0) || (y1 == y0 && m1 == m0 && d1 > d0)
  {
    ParseFormatRoundTrip(y1, m1, d1);
    ParseFormatRoundTrip(y0, m0, d0);
  }

  /** `accept`: an optional message of at most 500 characters. */
  predicate ValidAccept(message: Option<string>) {
    message.Some? ==> |message.value| <= 500
  }

  /** `decline` and `cancel`: a reason of 10 to 500 characters. */
  predicate ValidReason(reason: string) {
    LengthIn(reason, 10, 500)
  }

  /** The name of a booking status on the wire. */
  function StatusName(st: BookingStatus): string {
    match st
    case Pending => "pending"
    case Confirmed => "confirmed"
    case Completed => "completed"
    case Cancelled => "cancelled"
    case Declined => "declined"
    case Disputed => "disputed"
  }

  /** The list filter's status enum: every status but `disputed`. */
  function ParseStatusFilter(name: string): (r: Option<BookingStatus>)
    ensures r.Some? ==> StatusName(r.value) == name && r.value != BookingStatus.Disputed
  {
    if name == "pending" then Some(BookingStatus.Pending)
    else if name == "confirmed" then Some(BookingStatus.Confirmed)
    else if name == "completed" then Some(BookingStatus.Completed)
    else if name == "cancelled" then Some(BookingStatus.Cancelled)
    else if name == "declined" then Some(BookingStatus.Declined)
    else None
  }

  /** Every status but `disputed` can be filtered on by its name; `disputed` cannot. */
  lemma StatusFilterNames(st: BookingStatus)
    ensures st != BookingStatus.Disputed <==> ParseStatusFilter(StatusName(st)) == Some(st)
  {
  }

  /**
    The list query accepts exactly the statuses the filter names, and
    the one status left out of the enum, `disputed`, makes it invalid.
   */
  lemma ListFilterRefusesDisputed(f: ListForm, st: BookingStatus)
    requires f.status == Some(StatusName(st)) && ParsePage(f.limit, f.offset).Some?
    ensures ParseListForm(f, ParseStatusFilter).Some? <==> st != BookingStatus.Disputed
    ensures ParseListForm(f, ParseStatusFilter).Some? ==> ParseListForm(f, ParseStatusFilter).value.0 == Some(st)
  {
    StatusFilterNames(st);
  }
}

=== FILE: bookings.dfy ===
/**
  The booking lifecycle: pricing, the guarded creation of a booking request,
  viewing it, and the vendor's and customer's transitions

    pending --accept--> confirmed --complete--> completed
    pending --decline--> declined
    pending | confirmed --cancel--> cancelled

  together with the invariant the guards exist for: no two bookings that hold
  their dates (pending or confirmed) on one listing overlap.
 */
module Bookings {
  import opened Wrappers
  import opened Domain
  import opened Money
  import opened Availability
  import Payouts

  const CustomerFeeRate: real := 0.15
  const CustomerVatRate: real := 0.16

  // -------------------------------------------------------------- pricing

  datatype Pricing = Pricing(baseAmount: real, platformFee: real, vat: real, totalAmount: real)

  /**
    The customer's price for a listing's base price: a 15% platform fee, VAT
    of 16% on base plus fee, and the total. Every component is computed
    unrounded and rounded to the cent on its own.
   */
  function CalculatePricing(basePrice: real): (p: Pricing)
    ensures NearestCent(basePrice, p.baseAmount)
    ensures NearestCent(basePrice * CustomerFeeRate, p.platformFee)
    ensures NearestCent((basePrice + basePrice * CustomerFeeRate) * CustomerVatRate, p.vat)
    ensures NearestCent(basePrice + basePrice * CustomerFeeRate
                        + (basePrice + basePrice * CustomerFeeRate) * CustomerVatRate, p.totalAmount)
  {
    var fee := basePrice * CustomerFeeRate;
    var subtotal := basePrice + fee;
    var vat := subtotal * CustomerVatRate;
    Pricing(RoundCents(basePrice), RoundCents(fee), RoundCents(vat), RoundCents(subtotal + vat))
  }

  /** A base price of 1000 costs the customer 1334: fee 150 and VAT 184. */
  lemma PricingOfThousand()
    ensures CalculatePricing(1000.0) == Pricing(1000.0, 150.0, 184.0, 1334.0)
  {
    CentsAmountIsCents(100000);
    CentsAmountIsCents(15000);
    CentsAmountIsCents(18400);
    CentsAmountIsCents(133400);
    NearestCentIsRoundCents(1000.0, 1000.0);
    NearestCentIsRoundCents(150.0, 150.0);
    NearestCentIsRoundCents(184.0, 184.0);
    NearestCentIsRoundCents(1334.0, 1334.0);
  }

  /**
    Because the total is rounded from unrounded parts, the rounded parts need
    not add up to it: a base of 0.10 gives fee 0.02 and VAT 0.02 but a total
    of 0.13.
   */
  lemma PricingPartsNeedNotAddUp()
    ensures var p := CalculatePricing(0.10);
      p == Pricing(0.10, 0.02, 0.02, 0.13) && p.baseAmount + p.platformFee + p.vat != p.totalAmount
  {
    CentsAmountIsCents(10);
    CentsAmountIsCents(2);
    CentsAmountIsCents(13);
    NearestCentIsRoundCents(0.10, 0.10);
    NearestCentIsRoundCents(0.015, 0.02);
    NearestCentIsRoundCents(0.0184, 0.02);
    NearestCentIsRoundCents(0.1334, 0.13);
  }

  /** For a non-negative price the rounded parts miss the total by less than two cents. */
  lemma PricingPartsAddUpWithinRounding(basePrice: real)
    requires basePrice >= 0.0
    ensures var p := CalculatePricing(basePrice);
      -0.02 < p.totalAmount - (p.baseAmount + p.platformFee + p.vat) < 0.02
  {
    var p := CalculatePricing(basePrice);
    var fee := basePrice * CustomerFeeRate;
    var vat := (basePrice + fee) * CustomerVatRate;
    assert fee >= 0.0 && vat >= 0.0;
    assert basePrice - 0.005 < p.baseAmount <= basePrice + 0.005;
    assert fee - 0.005 < p.platformFee <= fee + 0.005;
    assert vat - 0.005 < p.vat <= vat + 0.005;
    assert basePrice + fee + vat - 0.005 < p.totalAmount <= basePrice + fee + vat + 0.005;
    RoundedPartsMissBySmallAmount(basePrice, fee, vat, p.baseAmount, p.platformFee, p.vat, p.totalAmount);
  }

  /** Three roundings of half a cent each, against one rounding of their sum. */
  lemma RoundedPartsMissBySmallAmount(a: real, b: real, c: real, ra: real, rb: real, rc: real, rt: real)
    requires a - 0.005 < ra <= a + 0.005 && b - 0.005 < rb <= b + 0.005 && c - 0.005 < rc <= c + 0.005
    requires a + b + c - 0.005 < rt <= a + b + c + 0.005
    ensures -0.02 < rt - (ra + rb + rc) < 0.02
  {
  }

  // ------------------------------------------------------------- lead time

  /** Whole days from `now` until the start of day `start`, rounded down. */
  function DaysUntil(start: Day, now: Instant): (n: int)
    ensures n * DayMs <= DayStart(start) - now < (n + 1) * DayMs
  {
    (DayStart(start) - now) / DayMs
  }

  /** A lead time of zero or none means one day. */
  function EffectiveLeadTime(leadTime: Option<int>): (n: int)
    ensures leadTime.Some? && leadTime.value != 0 ==> n == leadTime.value
    ensures leadTime.None? || leadTime.value == 0 ==> n == 1
  {
    if leadTime.None? || leadTime.value == 0 then 1 else leadTime.value
  }

  predicate LeadTimeMet(listing: Listing, start: Day, now: Instant) {
    DaysUntil(start, now) >= EffectiveLeadTime(listing.leadTime)
  }

  /**
    The lead-time rule in instants: a start day is far enough ahead exactly
    when it begins at least the lead time's worth of whole days after now.
   */
  lemma LeadTimeInInstants(listing: Listing, start: Day, now: Instant)
    ensures LeadTimeMet(listing, start, now) <==>
      DayStart(start) - now >= EffectiveLeadTime(listing.leadTime) * DayMs
  {
    var n, lead := DaysUntil(start, now), EffectiveLeadTime(listing.leadTime);
    if n >= lead {
      assert lead * DayMs <= n * DayMs;
    } else {
      assert (n + 1) * DayMs <= lead * DayMs;
    }
  }

  /** A capacity of zero or none sets no limit. */
  predicate WithinCapacity(capacity: Option<int>, guests: int) {
    capacity.None? || capacity.value == 0 || guests <= capacity.value
  }

  // -------------------------------------------------------------- creation

  datatype BookingRequest = BookingRequest(
    listingId: Id, startDate: Day, endDate: Day, guests: int, specialRequests: Option<string>)

  /** The booking a request becomes once every guard has passed. */
  predicate RequestedBy(b: Booking, customerId: Id, req: BookingRequest, listing: Listing) {
    && b.listingId == req.listingId && b.customerId == customerId
    && b.startDate == req.startDate && b.endDate == req.endDate
    && b.guests == req.guests && b.specialRequests == req.specialRequests
    && CalculatePricing(listing.basePrice) == Pricing(b.baseAmount, b.platformFee, b.vat, b.totalAmount)
    && (b.status == BookingStatus.Confirmed <==> listing.instantBooking)
    && (b.status == BookingStatus.Pending <==> !listing.instantBooking)
    && b.cancellationReason.None? && b.declineReason.None?
    && b.respondedAt.None? && b.completedAt.None?
  }

  /** All of the guards of a booking request, in the order they are checked. */
  predicate Bookable(s: Store, req: BookingRequest, now: Instant) {
    && req.listingId < |s.listings|
    && s.listings[req.listingId].status == ListingStatus.Active
    && LeadTimeMet(s.listings[req.listingId], req.startDate, now)
    && CheckAvailability(s, req.listingId, req.startDate, req.endDate)
    && WithinCapacity(s.listings[req.listingId].capacity, req.guests)
  }

  /**
    Creates a booking request and returns its id. The guards run in order:
    the listing exists, it is active, the lead time is met, the dates are
    available, the guests fit. The service repeats the booking-overlap check
    inside the insert's transaction; run one call at a time, that repeat sees
    the same bookings as the availability guard and always passes, so it
    does not appear here.
   */
  function CreateBooking(s: Store, customerId: Id, req: BookingRequest, now: Instant): (r: Result<(Store, Id), Error>)
    ensures req.listingId >= |s.listings| ==> r == Failure(NotFound(ListingKind))
    ensures req.listingId < |s.listings| && s.listings[req.listingId].status != ListingStatus.Active ==>
      r == Failure(ListingNotBookable)
    ensures (req.listingId < |s.listings| && s.listings[req.listingId].status == ListingStatus.Active &&
             !LeadTimeMet(s.listings[req.listingId], req.startDate, now)) ==>
      r == Failure(LeadTimeNotMet(s.listings[req.listingId].leadTime))
    ensures (req.listingId < |s.listings| && s.listings[req.listingId].status == ListingStatus.Active &&
             LeadTimeMet(s.listings[req.listingId], req.startDate, now) &&
             !CheckAvailability(s, req.listingId, req.startDate, req.endDate)) ==>
      r == Failure(DatesUnavailable)
    ensures (req.listingId < |s.listings| && s.listings[req.listingId].status == ListingStatus.Active &&
             LeadTimeMet(s.listings[req.listingId], req.startDate, now) &&
             CheckAvailability(s, req.listingId, req.startDate, req.endDate) &&
             !WithinCapacity(s.listings[req.listingId].capacity, req.guests)) ==>
      r == Failure(OverCapacity(s.listings[req.listingId].capacity.value))
    ensures r.Success? <==> Bookable(s, req, now)
    ensures r.Success? ==>
      var (s', id) := r.value;
      && id == |s.bookings|
      && |s'.bookings| == id + 1
      && s'.bookings[..id] == s.bookings
      && s' == s.(bookings := s'.bookings)
      && RequestedBy(s'.bookings[id], customerId, req, s.listings[req.listingId])
      && !HeldOverlapIn(s.bookings, req.listingId, req.startDate, req.endDate)
  {
    if req.listingId >= |s.listings| then Failure(NotFound(ListingKind))
    else
      var listing := s.listings[req.listingId];
      if listing.status != ListingStatus.Active then Failure(ListingNotBookable)
      else if !LeadTimeMet(listing, req.startDate, now) then Failure(LeadTimeNotMet(listing.leadTime))
      else if !CheckAvailability(s, req.listingId, req.startDate, req.endDate) then Failure(DatesUnavailable)
      else if !WithinCapacity(listing.capacity, req.guests) then Failure(OverCapacity(listing.capacity.value))
      else
        var p := CalculatePricing(listing.basePrice);
        var b := Booking(
          req.listingId, customerId, req.startDate, req.endDate, req.guests,
          p.baseAmount, p.platformFee, p.vat, p.totalAmount,
          if listing.instantBooking then BookingStatus.Confirmed else BookingStatus.Pending,
          req.specialRequests, None, None, None, None);
        Success((s.(bookings := s.bookings + [b]), |s.bookings|))
  }

  // --------------------------------------------------------------- viewing

  /** The vendor owning a booking's listing. */
  function ListingOwner(s: Store, b: Booking): (r: Option<Id>)
    ensures r.Some? <==> b.listingId < |s.listings|
    ensures r.Some? ==> r.value == s.listings[b.listingId].vendorId
  {
    if b.listingId < |s.listings| then Some(s.listings[b.listingId].vendorId) else None
  }

  /** Who may see a booking: its customer, the vendor owning its listing, any admin. */
  predicate MayView(s: Store, b: Booking, userId: Id, role: Role) {
    match role
    case CustomerRole => b.customerId == userId
    case VendorRole => VendorOfUser(s, userId).Some? && ListingOwner(s, b) == VendorOfUser(s, userId)
    case AdminRole => true
  }

  /** Reads one booking on behalf of a user, refusing anyone who may not see it. */
  function GetBookingById(s: Store, bookingId: Id, userId: Id, role: Role): (r: Result<Booking, Error>)
    ensures bookingId >= |s.bookings| ==> r == Failure(NotFound(BookingKind))
    ensures r.Success? <==> bookingId < |s.bookings| && MayView(s, s.bookings[bookingId], userId, role)
    ensures r.Success? ==> r.value == s.bookings[bookingId]
    ensures r.Failure? && bookingId < |s.bookings| && s.bookings[bookingId].listingId < |s.listings| ==>
      r == Failure(Unauthorized)
  {
    if bookingId >= |s.bookings| then Failure(NotFound(BookingKind))
    else
      var b := s.bookings[bookingId];
      if role == CustomerRole && b.customerId != userId then Failure(Unauthorized)
      else if role == VendorRole then
        match VendorOfUser(s, userId)
        case None => Failure(Unauthorized)
        case Some(v) =>
          if b.listingId >= |s.listings| then Failure(NotFound(ListingKind))
          else if s.listings[b.listingId].vendorId != v then Failure(Unauthorized)
          else Success(b)
      else Success(b)
  }

  /**
    A new booking can be read back by the customer who made it and by the
    user behind the listing's vendor profile, and by no other customer or
    vendor.
   */
  lemma NewBookingIsVisibleToItsParties(s: Store, customerId: Id, req: BookingRequest, now: Instant, userId: Id)
    requires CreateBooking(s, customerId, req, now).Success?
    ensures var (s', id) := CreateBooking(s, customerId, req, now).value;
      var owner := s.listings[req.listingId].vendorId;
      && GetBookingById(s', id, customerId, CustomerRole) == Success(s'.bookings[id])
      && (userId != customerId ==> GetBookingById(s', id, userId, CustomerRole) == Failure(Unauthorized))
      && (VendorOfUser(s, userId) == Some(owner) ==> GetBookingById(s', id, userId, VendorRole) == Success(s'.bookings[id]))
      && (VendorOfUser(s, userId) != Some(owner) ==> GetBookingById(s', id, userId, VendorRole) == Failure(Unauthorized))
  {
    var (s', id) := CreateBooking(s, customerId, req, now).value;
    assert s'.vendors == s.vendors && s'.listings == s.listings;
    assert VendorOfUser(s', userId) == VendorOfUser(s, userId);
    assert s'.bookings[id].listingId == req.listingId && s'.bookings[id].customerId == customerId;
  }

  // ------------------------------------------------------------ responding

  /** The checks before a vendor answers a request: it exists, the vendor owns it, it is pending. */
  function CheckResponder(s: Store, bookingId: Id, vendorId: Id): (r: Result<Booking, Error>)
    ensures bookingId >= |s.bookings| ==> r == Failure(NotFound(BookingKind))
    ensures r.Success? <==>
      && bookingId < |s.bookings|
      && ListingOwner(s, s.bookings[bookingId]) == Some(vendorId)
      && s.bookings[bookingId].status == BookingStatus.Pending
    ensures r.Success? ==> r.value == s.bookings[bookingId]
    ensures (bookingId < |s.bookings| && ListingOwner(s, s.bookings[bookingId]) == Some(vendorId) &&
             s.bookings[bookingId].status != BookingStatus.Pending) ==>
      r == Failure(WrongBookingStatus(s.bookings[bookingId].status))
  {
    if bookingId >= |s.bookings| then Failure(NotFound(BookingKind))
    else
      var b := s.bookings[bookingId];
      if b.listingId >= |s.listings| then Failure(NotFound(ListingKind))
      else if s.listings[b.listingId].vendorId != vendorId then Failure(Unauthorized)
      else if b.status != BookingStatus.Pending then Failure(WrongBookingStatus(b.status))
      else Success(b)
  }

  /** Some pending or confirmed booking other than `self` overlaps the range. */
  predicate OtherHeldOverlapIn(bookings: seq<Booking>, self: Id, l: Id, start: Day, end: Day) {
    exists i :: 0 <= i < |bookings| && i != self && HoldsOverlapping(bookings[i], l, start, end)
  }

  /**
    Accepting as the service is written: the re-check is the general range
    check, which also sees the pending booking being accepted.
   */
  function AcceptBookingAsWritten(s: Store, bookingId: Id, vendorId: Id, now: Instant): (r: Result<(Store, Booking), Error>)
    ensures r.Success? ==> CheckResponder(s, bookingId, vendorId).Success?
    ensures r.Success? ==> CheckAvailability(s, s.bookings[bookingId].listingId,
                                             s.bookings[bookingId].startDate, s.bookings[bookingId].endDate)
  {
    var b :- CheckResponder(s, bookingId, vendorId);
    if !CheckAvailability(s, b.listingId, b.startDate, b.endDate) then Failure(DatesNoLongerAvailable)
    else
      var b' := b.(status := BookingStatus.Confirmed, respondedAt := Some(now));
      Success((s.(bookings := s.bookings[bookingId := b']), b'))
  }

  /**
    The service's accept never succeeds on a booking whose end is not before
    its start: the booking is pending, so it holds its own dates and the
    re-check finds it.
   */
  lemma AcceptAsWrittenRefusesEveryRequest(s: Store, bookingId: Id, vendorId: Id, now: Instant)
    requires bookingId < |s.bookings| && s.bookings[bookingId].startDate <= s.bookings[bookingId].endDate
    ensures AcceptBookingAsWritten(s, bookingId, vendorId, now).Failure?
  {
    var b := s.bookings[bookingId];
    if CheckResponder(s, bookingId, vendorId).Success? {
      assert HoldsOverlapping(s.bookings[bookingId], b.listingId, b.startDate, b.endDate);
    }
  }

  /**
    Accepting a request, with the re-check leaving the request itself out:
    it fails if a day of the range is blocked or another pending or
    confirmed booking overlaps it. Only the status and the response time
    change.
   */
  function AcceptBooking(s: Store, bookingId: Id, vendorId: Id, now: Instant): (r: Result<(Store, Booking), Error>)
    ensures CheckResponder(s, bookingId, vendorId).Failure? ==>
      r == Failure(CheckResponder(s, bookingId, vendorId).error)
    ensures r.Success? <==>
      && CheckResponder(s, bookingId, vendorId).Success?
      && var b := s.bookings[bookingId];
      && !BlockedDayIn(s.days, b.listingId, b.startDate, b.endDate)
      && !OtherHeldOverlapIn(s.bookings, bookingId, b.listingId, b.startDate, b.endDate)
    ensures r.Success? ==>
      var (s', b') := r.value;
      && s' == s.(bookings := s.bookings[bookingId := b'])
      && b' == s.bookings[bookingId].(status := BookingStatus.Confirmed, respondedAt := Some(now))
  {
    var b :- CheckResponder(s, bookingId, vendorId);
    if BlockedDayIn(s.days, b.listingId, b.startDate, b.endDate)
       || OtherHeldOverlapIn(s.bookings, bookingId, b.listingId, b.startDate, b.endDate)
    then Failure(DatesNoLongerAvailable)
    else
      var b' := b.(status := BookingStatus.Confirmed, respondedAt := Some(now));
      Success((s.(bookings := s.bookings[bookingId := b']), b'))
  }

  /** A freshly created pending request can be accepted by its listing's vendor. */
  lemma CreatedRequestCanBeAccepted(s: Store, customerId: Id, req: BookingRequest, now: Instant, later: Instant)
    requires CreateBooking(s, customerId, req, now).Success?
    requires !s.listings[req.listingId].instantBooking
    ensures var (s', id) := CreateBooking(s, customerId, req, now).value;
      AcceptBooking(s', id, s.listings[req.listingId].vendorId, later).Success?
  {
    var (s', id) := CreateBooking(s, customerId, req, now).value;
    var b := s'.bookings[id];
    assert CheckResponder(s', id, s.listings[req.listingId].vendorId).Success?;
  }

  /** Declining a request records the reason and the response time, nothing else. */
  function DeclineBooking(s: Store, bookingId: Id, vendorId: Id, reason: string, now: Instant): (r: Result<(Store, Booking), Error>)
    ensures CheckResponder(s, bookingId, vendorId).Failure? ==>
      r == Failure(CheckResponder(s, bookingId, vendorId).error)
    ensures r.Success? <==> CheckResponder(s, bookingId, vendorId).Success?
    ensures r.Success? ==>
      var (s', b') := r.value;
      && s' == s.(bookings := s.bookings[bookingId := b'])
      && b' == s.bookings[bookingId].(status := BookingStatus.Declined, declineReason := Some(reason),
                                      respondedAt := Some(now))
  {
    var b :- CheckResponder(s, bookingId, vendorId);
    var b' := b.(status := BookingStatus.Declined, declineReason := Some(reason), respondedAt := Some(now));
    Success((s.(bookings := s.bookings[bookingId := b']), b'))
  }

  // ----------------------------------------------------------- cancelling

  /**
    A customer cancels their own pending or confirmed booking, strictly
    before the day it starts; the status is checked before the date.
   */
  function CancelBooking(s: Store, bookingId: Id, customerId: Id, reason: string, now: Instant): (r: Result<(Store, Booking), Error>)
    ensures bookingId >= |s.bookings| ==> r == Failure(NotFound(BookingKind))
    ensures bookingId < |s.bookings| && s.bookings[bookingId].customerId != customerId ==> r == Failure(Unauthorized)
    ensures (bookingId < |s.bookings| && s.bookings[bookingId].customerId == customerId &&
             !HoldsDates(s.bookings[bookingId].status)) ==>
      r == Failure(WrongBookingStatus(s.bookings[bookingId].status))
    ensures (bookingId < |s.bookings| && s.bookings[bookingId].customerId == customerId &&
             HoldsDates(s.bookings[bookingId].status) && DayStart(s.bookings[bookingId].startDate) <= now) ==>
      r == Failure(AlreadyStarted)
    ensures r.Success? <==>
      && bookingId < |s.bookings|
      && s.bookings[bookingId].customerId == customerId
      && HoldsDates(s.bookings[bookingId].status)
      && now < DayStart(s.bookings[bookingId].startDate)
    ensures r.Success? ==>
      var (s', b') := r.value;
      && s' == s.(bookings := s.bookings[bookingId := b'])
      && b' == s.bookings[bookingId].(status := BookingStatus.Cancelled, cancellationReason := Some(reason))
  {
    if bookingId >= |s.bookings| then Failure(NotFound(BookingKind))
    else
      var b := s.bookings[bookingId];
      if b.customerId != customerId then Failure(Unauthorized)
      else if !HoldsDates(b.status) then Failure(WrongBookingStatus(b.status))
      else if DayStart(b.startDate) <= now then Failure(AlreadyStarted)
      else
        var b' := b.(status := BookingStatus.Cancelled, cancellationReason := Some(reason));
        Success((s.(bookings := s.bookings[bookingId := b']), b'))
  }

  // ------------------------------------------------------------ completing

  /** The last instant the service treats as part of day `d`: 23:59:59 on it. */
  function EndOfDay(d: Day): (t: Instant)
    ensures DayStart(d) < t < DayStart(d + 1)
    ensures DayStart(d + 1) - t == SecondMs
  {
    DayStart(d) + 23 * HourMs + 59 * 60 * SecondMs + 59 * SecondMs
  }

  /** The listing's completed-bookings counter, raised by one if the listing exists. */
  function CountCompletion(listings: seq<Listing>, l: Id): (r: seq<Listing>)
    ensures |r| == |listings|
    ensures l < |listings| ==> r == listings[l := listings[l].(bookingsCount := listings[l].bookingsCount + 1)]
    ensures l >= |listings| ==> r == listings
  {
    if l < |listings| then listings[l := listings[l].(bookingsCount := listings[l].bookingsCount + 1)] else listings
  }

  /** The store after a booking completes, before the payout is attempted. */
  function Completed(s: Store, bookingId: Id, now: Instant): Store
    requires bookingId < |s.bookings|
  {
    var b := s.bookings[bookingId];
    s.(bookings := s.bookings[bookingId := b.(status := BookingStatus.Completed, completedAt := Some(now))],
       listings := CountCompletion(s.listings, b.listingId))
  }

  /**
    Marks a confirmed booking completed once its last day is over, counts it
    on its listing, and then tries to create its payout; a payout that cannot
    be created does not undo the completion.
   */
  function CompleteBooking(s: Store, bookingId: Id, now: Instant): (r: Result<(Store, Booking), Error>)
    ensures bookingId >= |s.bookings| ==> r == Failure(NotFound(BookingKind))
    ensures bookingId < |s.bookings| && s.bookings[bookingId].status != BookingStatus.Confirmed ==>
      r == Failure(BookingNotConfirmed)
    ensures (bookingId < |s.bookings| && s.bookings[bookingId].status == BookingStatus.Confirmed &&
             now < EndOfDay(s.bookings[bookingId].endDate)) ==> r == Failure(NotYetEnded)
    ensures r.Success? <==>
      bookingId < |s.bookings| && s.bookings[bookingId].status == BookingStatus.Confirmed &&
      now >= EndOfDay(s.bookings[bookingId].endDate)
    ensures r.Success? ==>
      var (s', b') := r.value;
      var b := s.bookings[bookingId];
      && b' == b.(status := BookingStatus.Completed, completedAt := Some(now))
      && s'.bookings == s.bookings[bookingId := b']
      && s'.listings == CountCompletion(s.listings, b.listingId)
      && s' == s.(bookings := s'.bookings, listings := s'.listings, payouts := s'.payouts)
      && (s'.payouts == s.payouts ||
          (|s'.payouts| == |s.payouts| + 1 && s'.payouts[..|s.payouts|] == s.payouts &&
           s'.payouts[|s.payouts|].bookingId == bookingId))
      && (Payouts.CanCreatePayout(Completed(s, bookingId, now), bookingId) <==> s'.payouts != s.payouts)
  {
    if bookingId >= |s.bookings| then Failure(NotFound(BookingKind))
    else
      var b := s.bookings[bookingId];
      if b.status != BookingStatus.Confirmed then Failure(BookingNotConfirmed)
      else if now < EndOfDay(b.endDate) then Failure(NotYetEnded)
      else
        var s1 := Completed(s, bookingId, now);
        var s2 := match Payouts.CreatePayoutForBooking(s1, bookingId, now)
                  case Success((s', _)) => s'
                  case Failure(_) => s1;
        Success((s2, s1.bookings[bookingId]))
  }

  /** A completed booking with a configured vendor gets exactly its one payout. */
  lemma CompletionCreatesThePayout(s: Store, bookingId: Id, now: Instant)
    requires CompleteBooking(s, bookingId, now).Success?
    requires !Payouts.HasPayout(s.payouts, bookingId)
    requires var l := s.bookings[bookingId].listingId;
      l < |s.listings| && s.listings[l].vendorId < |s.vendors| &&
      Truthy(Payouts.AccountDetails(s.vendors[s.listings[l].vendorId]))
    ensures var s' := CompleteBooking(s, bookingId, now).value.0;
      |s'.payouts| == |s.payouts| + 1 && s'.payouts[|s.payouts|].bookingId == bookingId
  {
    var s1 := Completed(s, bookingId, now);
    assert s1.payouts == s.payouts && s1.vendors == s.vendors;
    assert s1.listings[s.bookings[bookingId].listingId].vendorId == s.listings[s.bookings[bookingId].listingId].vendorId;
    assert Payouts.CanCreatePayout(s1, bookingId);
  }

  // -------------------------------------------------------- the invariant

  /** No two bookings holding their dates on the same listing overlap. */
  predicate NoOverlap(bookings: seq<Booking>) {
    forall i, j ::
      (0 <= i < |bookings| && 0 <= j < |bookings| && i != j &&
       bookings[i].listingId == bookings[j].listingId &&
       HoldsDates(bookings[i].status) && HoldsDates(bookings[j].status)) ==>
      !Overlaps(bookings[i].startDate, bookings[i].endDate, bookings[j].startDate, bookings[j].endDate)
  }

  /**
    Changing one booking's status keeps the invariant when its listing and
    dates stay the same and it holds its dates afterwards only if it held
    them before.
   */
  lemma {:induction false} StatusChangeKeepsNoOverlap(bookings: seq<Booking>, i: nat, b': Booking)
    requires NoOverlap(bookings) && i < |bookings|
    requires b'.listingId == bookings[i].listingId
    requires b'.startDate == bookings[i].startDate && b'.endDate == bookings[i].endDate
    requires HoldsDates(b'.status) ==> HoldsDates(bookings[i].status)
    ensures NoOverlap(bookings[i := b'])
  {
    var bs := bookings[i := b'];
    forall j, k | 0 <= j < |bs| && 0 <= k < |bs| && j != k && bs[j].listingId == bs[k].listingId &&
                  HoldsDates(bs[j].status) && HoldsDates(bs[k].status)
      ensures !Overlaps(bs[j].startDate, bs[j].endDate, bs[k].startDate, bs[k].endDate)
    {
      assert HoldsDates(bookings[j].status) && HoldsDates(bookings[k].status);
    }
  }

  lemma CreateBookingKeepsNoOverlap(s: Store, customerId: Id, req: BookingRequest, now: Instant)
    requires NoOverlap(s.bookings)
    requires CreateBooking(s, customerId, req, now).Success?
    ensures NoOverlap(CreateBooking(s, customerId, req, now).value.0.bookings)
  {
    var (s', id) := CreateBooking(s, customerId, req, now).value;
    var bs := s'.bookings;
    forall j, k | 0 <= j < |bs| && 0 <= k < |bs| && j != k && bs[j].listingId == bs[k].listingId &&
                  HoldsDates(bs[j].status) && HoldsDates(bs[k].status)
      ensures !Overlaps(bs[j].startDate, bs[j].endDate, bs[k].startDate, bs[k].endDate)
    {
      if j == id {
        assert bs[k] == s.bookings[k];
        assert !HoldsOverlapping(s.bookings[k], req.listingId, req.startDate, req.endDate);
      } else if k == id {
        assert bs[j] == s.bookings[j];
        assert !HoldsOverlapping(s.bookings[j], req.listingId, req.startDate, req.endDate);
      } else {
        assert bs[j] == s.bookings[j] && bs[k] == s.bookings[k];
      }
    }
  }

  lemma AcceptBookingKeepsNoOverlap(s: Store, bookingId: Id, vendorId: Id, now: Instant)
    requires NoOverlap(s.bookings)
    requires AcceptBooking(s, bookingId, vendorId, now).Success?
    ensures NoOverlap(AcceptBooking(s, bookingId, vendorId, now).value.0.bookings)
  {
    var (_, b') := AcceptBooking(s, bookingId, vendorId, now).value;
    StatusChangeKeepsNoOverlap(s.bookings, bookingId, b');
  }

  lemma DeclineBookingKeepsNoOverlap(s: Store, bookingId: Id, vendorId: Id, reason: string, now: Instant)
    requires NoOverlap(s.bookings)
    requires DeclineBooking(s, bookingId, vendorId, reason, now).Success?
    ensures NoOverlap(DeclineBooking(s, bookingId, vendorId, reason, now).value.0.bookings)
  {
    var (_, b') := DeclineBooking(s, bookingId, vendorId, reason, now).value;
    StatusChangeKeepsNoOverlap(s.bookings, bookingId, b');
  }

  lemma CancelBookingKeepsNoOverlap(s: Store, bookingId: Id, customerId: Id, reason: string, now: Instant)
    requires NoOverlap(s.bookings)
    requires CancelBooking(s, bookingId, customerId, reason, now).Success?
    ensures NoOverlap(CancelBooking(s, bookingId, customerId, reason, now).value.0.bookings)
  {
    var (_, b') := CancelBooking(s, bookingId, customerId, reason, now).value;
    StatusChangeKeepsNoOverlap(s.bookings, bookingId, b');
  }

  lemma CompleteBookingKeepsNoOverlap(s: Store, bookingId: Id, now: Instant)
    requires NoOverlap(s.bookings)
    requires CompleteBooking(s, bookingId, now).Success?
    ensures NoOverlap(CompleteBooking(s, bookingId, now).value.0.bookings)
  {
    var (_, b') := CompleteBooking(s, bookingId, now).value;
    StatusChangeKeepsNoOverlap(s.bookings, bookingId, b');
  }

  // ----------------------------------------------------- call sequences

  /** One call into the booking, availability or payout services. */
  datatype Call =
    | Create(customerId: Id, req: BookingRequest)
    | Accept(bookingId: Id, vendorId: Id)
    | Decline(bookingId: Id, vendorId: Id, why: string)
    | Cancel(bookingId: Id, customerId: Id, why: string)
    | Complete(bookingId: Id)
    | Block(listingId: Id, vendorId: Id, dates: seq<Day>, blockReason: Option<string>)
    | Unblock(listingId: Id, vendorId: Id, dates: seq<Day>)
    | Settle(payoutId: Id, reply: Payouts.GatewayReply)

  /** The store after one call at `now`; a call that throws leaves the store as the call leaves it. */
  function Apply(s: Store, call: Call, now: Instant): Store {
    match call
    case Create(c, req) => (match CreateBooking(s, c, req, now) case Success((s', _)) => s' case Failure(_) => s)
    case Accept(b, v) => (match AcceptBooking(s, b, v, now) case Success((s', _)) => s' case Failure(_) => s)
    case Decline(b, v, why) => (match DeclineBooking(s, b, v, why, now) case Success((s', _)) => s' case Failure(_) => s)
    case Cancel(b, c, why) => (match CancelBooking(s, b, c, why, now) case Success((s', _)) => s' case Failure(_) => s)
    case Complete(b) => (match CompleteBooking(s, b, now) case Success((s', _)) => s' case Failure(_) => s)
    case Block(l, v, ds, why) => (match BlockDates(s, l, v, ds, why) case Success((s', _)) => s' case Failure(_) => s)
    case Unblock(l, v, ds) => (match UnblockDates(s, l, v, ds) case Success((s', _)) => s' case Failure(_) => s)
    case Settle(p, reply) => Payouts.ProcessPayout(s, p, now, reply).store
  }

  /** The store after a sequence of calls, each at its own instant. */
  function Run(s: Store, calls: seq<(Call, Instant)>): Store
    decreases |calls|
  {
    if |calls| == 0 then s else Run(Apply(s, calls[0].0, calls[0].1), calls[1..])
  }

  lemma ApplyKeepsNoOverlap(s: Store, call: Call, now: Instant)
    requires NoOverlap(s.bookings)
    ensures NoOverlap(Apply(s, call, now).bookings)
  {
    match call
    case Create(c, req) =>
      if CreateBooking(s, c, req, now).Success? { CreateBookingKeepsNoOverlap(s, c, req, now); }
    case Accept(b, v) =>
      if AcceptBooking(s, b, v, now).Success? { AcceptBookingKeepsNoOverlap(s, b, v, now); }
    case Decline(b, v, why) =>
      if DeclineBooking(s, b, v, why, now).Success? { DeclineBookingKeepsNoOverlap(s, b, v, why, now); }
    case Cancel(b, c, why) =>
      if CancelBooking(s, b, c, why, now).Success? { CancelBookingKeepsNoOverlap(s, b, c, why, now); }
    case Complete(b) =>
      if CompleteBooking(s, b, now).Success? { CompleteBookingKeepsNoOverlap(s, b, now); }
    case Block(l, v, ds, why) =>
    case Unblock(l, v, ds) =>
    case Settle(p, reply) =>
  }

  /**
    Any sequence of calls, made one at a time, keeps the invariant: no two
    pending or confirmed bookings of a listing ever overlap.
   */
  lemma {:induction false} RunKeepsNoOverlap(s: Store, calls: seq<(Call, Instant)>)
    requires NoOverlap(s.bookings)
    ensures NoOverlap(Run(s, calls).bookings)
    decreases |calls|
  {
    if |calls| > 0 {
      ApplyKeepsNoOverlap(s, calls[0].0, calls[0].1);
      RunKeepsNoOverlap(Apply(s, calls[0].0, calls[0].1), calls[1..]);
    }
  }
}

=== FILE: domain.dfy ===
/**
  Records, statuses and the store of the marketplace backend.

  Every table is a sequence of rows and a row's id is its position: inserting
  appends (the new id is the old length) and rows are never removed, only
  updated (listings are soft-deleted). A lookup by a column other than the id
  takes the first matching row, as the services' `findFirst` does. The
  availability ledger is keyed by (listing, day), the pair the database keeps
  unique, and vendor documents by (vendor, document type).
 */
module Domain {
  import opened Wrappers

  /** Row ids. */
  type Id = nat

  /** Calendar days, counted from 1970-01-01 (UTC). */
  type Day = int

  /** Points in time, in milliseconds since 1970-01-01T00:00:00Z. */
  type Instant = int

  const SecondMs: int := 1000
  const HourMs: int := 3_600_000
  const DayMs: int := 86_400_000

  /** The instant a day begins: what `new Date("YYYY-MM-DD")` gives. */
  function DayStart(d: Day): Instant {
    d * DayMs
  }

  // ---------------------------------------------------------------- users

  datatype Role = CustomerRole | VendorRole | AdminRole

  datatype User = User(role: Role)

  // -------------------------------------------------------------- vendors

  /** Business types and listing categories share one enumeration. */
  datatype Category = EventVenue | Catering | Accommodation | OtherCategory

  datatype VendorStatus = Pending | Approved | Rejected | Suspended

  datatype PayoutMethod = Mpesa | Bank

  datatype Vendor = Vendor(
    userId: Id,
    businessName: string,
    businessType: Category,
    businessRegistration: Option<string>,
    taxPin: Option<string>,
    phoneNumber: string,
    location: string,
    description: string,
    payoutMethod: Option<PayoutMethod>,
    mpesaNumber: Option<string>,
    bankAccountName: Option<string>,
    bankAccountNumber: Option<string>,
    bankName: Option<string>,
    status: VendorStatus,
    rejectionReason: Option<string>,
    approvedBy: Option<Id>,
    approvedAt: Option<Instant>)

  datatype Document = Document(documentUrl: string, fileName: string, fileSize: string, uploadedAt: Instant)

  // ------------------------------------------------------------- listings

  datatype ListingStatus = Draft | Active | Paused | Deleted

  datatype Listing = Listing(
    vendorId: Id,
    title: string,
    slug: string,
    description: string,
    category: Category,
    location: string,
    address: string,
    county: Option<string>,
    city: Option<string>,
    capacity: Option<int>,
    basePrice: real,
    photos: seq<string>,
    coverPhoto: Option<string>,
    amenities: seq<string>,
    instantBooking: bool,
    minBookingDuration: int,
    maxBookingDuration: int,
    leadTime: Option<int>,
    status: ListingStatus,
    views: nat,
    bookingsCount: nat,
    createdAt: Instant,
    updatedAt: Instant)

  /** One row of the availability ledger; a day without a row is open. */
  datatype DayRow = DayRow(available: bool, blockedReason: Option<string>)

  type Ledger = map<(Id, Day), DayRow>

  // ------------------------------------------------------------- bookings

  /** The booking statuses of the service's type (the database enum lacks `Declined`). */
  datatype BookingStatus = Pending | Confirmed | Completed | Cancelled | Declined | Disputed

  datatype Booking = Booking(
    listingId: Id,
    customerId: Id,
    startDate: Day,
    endDate: Day,
    guests: int,
    baseAmount: real,
    platformFee: real,
    vat: real,
    totalAmount: real,
    status: BookingStatus,
    specialRequests: Option<string>,
    cancellationReason: Option<string>,
    declineReason: Option<string>,
    respondedAt: Option<Instant>,
    completedAt: Option<Instant>)

  /** The statuses in which a booking holds its dates. */
  predicate HoldsDates(st: BookingStatus) {
    st == BookingStatus.Pending || st == BookingStatus.Confirmed
  }

  /** Inclusive overlap of two day ranges, as the services' SQL writes it. */
  predicate Overlaps(s1: Day, e1: Day, s2: Day, e2: Day) {
    s1 <= e2 && e1 >= s2
  }

  /** Booking `b` holds a day range of listing `l` that meets [start, end]. */
  predicate HoldsOverlapping(b: Booking, l: Id, start: Day, end: Day) {
    b.listingId == l && HoldsDates(b.status) && Overlaps(b.startDate, b.endDate, start, end)
  }

  // ------------------------------------------------------------- payments

  datatype PaymentStatus = Pending | Processing | Completed | Failed | Refunded

  /** A payment attempt; the method is always M-Pesa and the currency KES. */
  datatype Payment = Payment(
    bookingId: Id,
    amount: real,
    status: PaymentStatus,
    transactionId: string,
    phoneNumber: string,
    gatewayReference: Option<string>,
    failureReason: Option<string>,
    paidAt: Option<Instant>)

  // -------------------------------------------------------------- payouts

  datatype PayoutStatus = Pending | Processing | Completed | Failed | Cancelled

  datatype Payout = Payout(
    vendorId: Id,
    bookingId: Id,
    grossAmount: real,
    platformFee: real,
    vat: real,
    withholdingTax: real,
    netAmount: real,
    status: PayoutStatus,
    payoutMethod: PayoutMethod,
    accountDetails: string,
    gatewayReference: Option<string>,
    failureReason: Option<string>,
    retryCount: nat,
    scheduledAt: Instant,
    processedAt: Option<Instant>,
    completedAt: Option<Instant>)

  // ---------------------------------------------------------------- store

  datatype Store = Store(
    users: seq<User>,
    vendors: seq<Vendor>,
    listings: seq<Listing>,
    days: Ledger,
    bookings: seq<Booking>,
    payments: seq<Payment>,
    payouts: seq<Payout>,
    documents: map<(Id, string), Document>)

  // --------------------------------------------------------------- errors

  datatype Kind = UserKind | VendorKind | ListingKind | BookingKind | PaymentKind | PayoutKind

  /** The errors the services throw, one constructor per distinct message. */
  datatype Error =
    | NotFound(kind: Kind)
    | Unauthorized
    | ListingNotBookable
    | LeadTimeNotMet(leadTime: Option<int>)
    | DatesUnavailable
    | DatesNoLongerAvailable
    | OverCapacity(capacity: int)
    | WrongBookingStatus(bookingStatus: BookingStatus)
    | BookingNotConfirmed
    | AlreadyStarted
    | NotYetEnded
    | BookingNotCompleted
    | PayoutExists
    | PayoutDetailsMissing
    | WrongPayoutStatus(payoutStatus: PayoutStatus)
    | PayoutFailed(reason: string)
    | BookingNotPayable
    | AlreadyPaid
    | PaymentInitiationFailed(reason: string)
    | InvalidSignature
    | VerificationFailed(reason: string)
    | VendorNotApproved
    | NoPhotos
    | InvalidPrice
    | NumericOverflow
    | ApplicationExists
    | AlreadyReviewed

  /** A service call that may change the store even when it throws. */
  datatype Step<T> = Step(store: Store, result: Result<T, Error>)

  // --------------------------------------------------------------- lookup

  /** The first row at or after `from` that satisfies `p`. */
  function FindFrom<T>(rows: seq<T>, p: T -> bool, from: nat): (r: Option<Id>)
    requires from <= |rows|
    ensures r.Some? ==> from <= r.value < |rows| && p(rows[r.value])
    ensures r.Some? ==> forall j :: from <= j < r.value ==> !p(rows[j])
    ensures r.None? ==> forall j :: from <= j < |rows| ==> !p(rows[j])
    decreases |rows| - from
  {
    if from == |rows| then None
    else if p(rows[from]) then Some(from)
    else FindFrom(rows, p, from + 1)
  }

  /** The first row satisfying `p`: the services' `findFirst` on a column other than the id. */
  function FindFirst<T>(rows: seq<T>, p: T -> bool): (r: Option<Id>)
    ensures r.Some? ==> r.value < |rows| && p(rows[r.value])
    ensures r.Some? ==> forall j :: 0 <= j < r.value ==> !p(rows[j])
    ensures r.None? ==> forall j :: 0 <= j < |rows| ==> !p(rows[j])
  {
    FindFrom(rows, p, 0)
  }

  /** The vendor profile of a user, if any. */
  function VendorOfUser(s: Store, userId: Id): (r: Option<Id>)
    ensures r.Some? ==> r.value < |s.vendors| && s.vendors[r.value].userId == userId
    ensures r.None? ==> forall j :: 0 <= j < |s.vendors| ==> s.vendors[j].userId != userId
  {
    FindFirst(s.vendors, (v: Vendor) => v.userId == userId)
  }

  /** JavaScript truthiness of an optional string: absent and empty are both false. */
  predicate Truthy(o: Option<string>) {
    o.Some? && o.value != ""
  }

  /** Replace a field by a patch value when one is given (the ORM skips undefined values). */
  function Patch<T>(current: T, update: Option<T>): T {
    update.GetOr(current)
  }
}

=== FILE: listing_schema.dfy ===
/**
  The validators of the listing endpoints: the create form with its
  defaults, the partial update form, the publish form and the search form
  with its paging. A valid form is turned into the input the listing
  operations take.
 */
module ListingSchema {
  import opened Wrappers
  import opened Domain
  import opened Validation
  import Listings
  import Money

  /** A raw create form: optional fields may be absent, numbers are JSON numbers. */
  datatype CreateListingForm = CreateListingForm(
    title: string,
    description: string,
    category: Category,
    location: string,
    address: string,
    county: Option<string>,
    city: Option<string>,
    latitude: Option<real>,
    longitude: Option<real>,
    capacity: Option<real>,
    basePrice: real,
    photos: seq<string>,
    coverPhoto: Option<string>,
    amenities: Option<seq<string>>,
    instantBooking: Option<bool>,
    minBookingDuration: Option<real>,
    maxBookingDuration: Option<real>,
    leadTime: Option<real>)

  /** An optional whole positive number: absent, or whole and above zero. */
  predicate OptionalPositiveWhole(x: Option<real>) {
    x.Some? ==> PositiveWhole(x.value)
  }

  predicate ValidCreateListing(f: CreateListingForm) {
    && LengthIn(f.title, 5, 255)
    && LengthIn(f.description, 50, 5000)
    && |f.location| >= 3
    && |f.address| >= 10
    && OptionalPositiveWhole(f.capacity)
    && f.basePrice > 0.0
    && 1 <= |f.photos| <= 20
    && OptionalPositiveWhole(f.minBookingDuration)
    && OptionalPositiveWhole(f.maxBookingDuration)
    && OptionalPositiveWhole(f.leadTime)
  }

  /** An optional whole number, as an integer. */
  function Whole(x: Option<real>): (r: Option<int>)
    ensures r.Some? <==> x.Some?
    ensures r.Some? && IsWhole(x.value) ==> r.value as real == x.value
  {
    if x.Some? then Some(x.value.Floor) else None
  }

  /** A present whole number, or the default. */
  function WholeOr(x: Option<real>, default: int): (n: int)
    ensures x.None? ==> n == default
    ensures x.Some? && IsWhole(x.value) ==> n as real == x.value
  {
    if x.Some? then x.value.Floor else default
  }

  /**
    Validates a create form and fills in its defaults: no amenities, no
    instant booking, stays of 1 to 30 days, a lead time of 1 day. The two
    duration bounds are not compared with each other.
   */
  function ParseCreateListing(f: CreateListingForm): (r: Option<Listings.ListingInput>)
    ensures r.Some? <==> ValidCreateListing(f)
    ensures r.Some? ==>
      var d := r.value;
      && d.title == f.title && d.description == f.description && d.category == f.category
      && d.location == f.location && d.address == f.address
      && d.county == f.county && d.city == f.city
      && d.basePrice == f.basePrice && d.photos == f.photos && d.coverPhoto == f.coverPhoto
      && (d.capacity.Some? <==> f.capacity.Some?)
      && (d.capacity.Some? ==> d.capacity.value > 0 && d.capacity.value as real == f.capacity.value)
      && d.amenities == f.amenities.GetOr([])
      && d.instantBooking == f.instantBooking.GetOr(false)
      && d.minBookingDuration as real == f.minBookingDuration.GetOr(1.0)
      && d.maxBookingDuration as real == f.maxBookingDuration.GetOr(30.0)
      && d.leadTime as real == f.leadTime.GetOr(1.0)
      && d.minBookingDuration >= 1 && d.maxBookingDuration >= 1 && d.leadTime >= 1
  {
    if !ValidCreateListing(f) then None
    else
      Some(Listings.ListingInput(
        f.title, f.description, f.category, f.location, f.address, f.county, f.city,
        Whole(f.capacity), f.basePrice, f.photos, f.coverPhoto, f.amenities.GetOr([]),
        f.instantBooking.GetOr(false),
        WholeOr(f.minBookingDuration, 1), WholeOr(f.maxBookingDuration, 30), WholeOr(f.leadTime, 1)))
  }

  /**
    A listing created from a valid form meets the publish guards from the start
    exactly when its price reaches half a cent: the schema accepts any positive
    price, but the column keeps whole cents, so a smaller one is stored as zero.
   */
  lemma ValidFormMakesPublishableListing(s: Store, vendorId: Id, f: CreateListingForm, now: Instant)
    requires ParseCreateListing(f).Some?
    requires Listings.CreateListing(s, vendorId, ParseCreateListing(f).value, now).Success?
    ensures var (s', id) := Listings.CreateListing(s, vendorId, ParseCreateListing(f).value, now).value;
      Listings.Publishable(s'.listings[id]) <==> f.basePrice >= 0.005
  {
    Money.RoundCentsPositive(f.basePrice);
  }

  /** A valid form priced under half a cent gives a listing its owner cannot publish. */
  lemma SubCentPriceCannotBePublished(s: Store, vendorId: Id, f: CreateListingForm, now: Instant, later: Instant)
    requires ParseCreateListing(f).Some? && f.basePrice < 0.005
    requires Listings.CreateListing(s, vendorId, ParseCreateListing(f).value, now).Success?
    ensures var (s', id) := Listings.CreateListing(s, vendorId, ParseCreateListing(f).value, now).value;
      Listings.UpdateListingStatus(s', id, vendorId, Listings.Publish, later) == Failure(InvalidPrice)
  {
    Money.RoundCentsPositive(f.basePrice);
  }

  /** Stay bounds in either order are accepted: the schema never compares them. */
  lemma DurationBoundsAreNotCompared(f: CreateListingForm, lo: nat, hi: nat)
    requires ValidCreateListing(f)
    requires 0 < hi < lo
    ensures var g := f.(minBookingDuration := Some(lo as real), maxBookingDuration := Some(hi as real));
      && ParseCreateListing(g).Some?
      && ParseCreateListing(g).value.minBookingDuration > ParseCreateListing(g).value.maxBookingDuration
  {
    assert (lo as real).Floor == lo && (hi as real).Floor == hi;
  }

  /** The update form: every create field optional, with the same bounds, and no defaults. */
  datatype UpdateListingForm = UpdateListingForm(
    title: Option<string>,
    description: Option<string>,
    category: Option<Category>,
    location: Option<string>,
    address: Option<string>,
    county: Option<string>,
    city: Option<string>,
    latitude: Option<real>,
    longitude: Option<real>,
    capacity: Option<real>,
    basePrice: Option<real>,
    photos: Option<seq<string>>,
    coverPhoto: Option<string>,
    amenities: Option<seq<string>>,
    instantBooking: Option<bool>,
    minBookingDuration: Option<real>,
    maxBookingDuration: Option<real>,
    leadTime: Option<real>)

  predicate ValidUpdateListing(f: UpdateListingForm) {
    && (f.title.Some? ==> LengthIn(f.title.value, 5, 255))
    && (f.description.Some? ==> LengthIn(f.description.value, 50, 5000))
    && (f.location.Some? ==> |f.location.value| >= 3)
    && (f.address.Some? ==> |f.address.value| >= 10)
    && OptionalPositiveWhole(f.capacity)
    && (f.basePrice.Some? ==> f.basePrice.value > 0.0)
    && (f.photos.Some? ==> 1 <= |f.photos.value| <= 20)
    && OptionalPositiveWhole(f.minBookingDuration)
    && OptionalPositiveWhole(f.maxBookingDuration)
    && OptionalPositiveWhole(f.leadTime)
  }

  /** Validates an update form into a patch; an absent field stays absent. */
  function ParseUpdateListing(f: UpdateListingForm): (r: Option<Listings.ListingPatch>)
    ensures r.Some? <==> ValidUpdateListing(f)
    ensures r.Some? ==>
      var p := r.value;
      && p.title == f.title && p.description == f.description && p.category == f.category
      && p.location == f.location && p.address == f.address && p.county == f.county && p.city == f.city
      && p.basePrice == f.basePrice && p.photos == f.photos && p.coverPhoto == f.coverPhoto
      && p.amenities == f.amenities && p.instantBooking == f.instantBooking
      && (p.capacity.Some? <==> f.capacity.Some?) && (p.leadTime.Some? <==> f.leadTime.Some?)
      && (p.minBookingDuration.Some? <==> f.minBookingDuration.Some?)
      && (p.maxBookingDuration.Some? <==> f.maxBookingDuration.Some?)
      && (p.capacity.Some? ==> p.capacity.value as real == f.capacity.value)
      && (p.leadTime.Some? ==> p.leadTime.value as real == f.leadTime.value)
      && (p.minBookingDuration.Some? ==> p.minBookingDuration.value as real == f.minBookingDuration.value)
      && (p.maxBookingDuration.Some? ==> p.maxBookingDuration.value as real == f.maxBookingDuration.value)
  {
    if !ValidUpdateListing(f) then None
    else
      Some(Listings.ListingPatch(
        f.title, f.description, f.category, f.location, f.address, f.county, f.city,
        Whole(f.capacity), f.basePrice, f.photos, f.coverPhoto, f.amenities, f.instantBooking,
        Whole(f.minBookingDuration), Whole(f.maxBookingDuration), Whole(f.leadTime)))
  }

  /** The empty update form is valid and changes nothing. */
  lemma EmptyUpdateFormIsNoChange()
    ensures ParseUpdateListing(UpdateListingForm(None, None, None, None, None, None, None, None, None,
                                                 None, None, None, None, None, None, None, None, None))
            == Some(Listings.NoChange)
  {
  }

  /** The same fields as an update: every field present. */
  function AsUpdate(f: CreateListingForm): (u: UpdateListingForm)
    ensures u.title == Some(f.title) && u.basePrice == Some(f.basePrice) && u.photos == Some(f.photos)
  {
    UpdateListingForm(
      Some(f.title), Some(f.description), Some(f.category), Some(f.location), Some(f.address),
      f.county, f.city, f.latitude, f.longitude, f.capacity, Some(f.basePrice), Some(f.photos),
      f.coverPhoto, f.amenities, f.instantBooking, f.minBookingDuration, f.maxBookingDuration, f.leadTime)
  }

  /** The update schema is the create schema made partial: a valid create form is a valid update. */
  lemma ValidCreateIsValidUpdate(f: CreateListingForm)
    requires ValidCreateListing(f)
    ensures ValidUpdateListing(AsUpdate(f))
  {
  }

  /** `z.enum(['active', 'paused'])`: the only statuses a vendor may set. */
  function ParsePublication(status: string): (r: Option<Listings.Publication>)
    ensures r.Some? <==> status == "active" || status == "paused"
    ensures r.Some? ==> r.value.Status() == (if status == "active" then ListingStatus.Active else ListingStatus.Paused)
  {
    if status == "active" then Some(Listings.Publish)
    else if status == "paused" then Some(Listings.Pause)
    else None
  }

  /** The raw search form. */
  datatype SearchForm = SearchForm(
    category: Option<Category>,
    location: Option<string>,
    minPrice: Option<real>,
    maxPrice: Option<real>,
    minCapacity: Option<real>,
    search: Option<string>,
    limit: Option<real>,
    offset: Option<real>)

  predicate ValidSearch(f: SearchForm) {
    && (f.minPrice.Some? ==> f.minPrice.value > 0.0)
    && (f.maxPrice.Some? ==> f.maxPrice.value > 0.0)
    && OptionalPositiveWhole(f.minCapacity)
    && ParsePage(f.limit, f.offset).Some?
  }

  /**
    Validates a search form into the filters the search takes, with the
    paging defaults filled in. Minimum and maximum price are not compared.
   */
  function ParseSearch(f: SearchForm): (r: Option<Listings.SearchFilters>)
    ensures r.Some? <==> ValidSearch(f)
    ensures r.Some? ==>
      var page := ParsePage(f.limit, f.offset).value;
      && r.value.criteria.category == f.category && r.value.criteria.location == f.location
      && r.value.criteria.minPrice == f.minPrice && r.value.criteria.maxPrice == f.maxPrice
      && r.value.criteria.search == f.search
      && (r.value.criteria.minCapacity.Some? <==> f.minCapacity.Some?)
      && (f.minCapacity.Some? ==> r.value.criteria.minCapacity.value as real == f.minCapacity.value)
      && r.value.limit == Some(page.limit) && r.value.offset == Some(page.offset)
  {
    if !ValidSearch(f) then None
    else
      var page := ParsePage(f.limit, f.offset).value;
      Some(Listings.SearchFilters(
        Listings.Criteria(f.category, f.location, f.minPrice, f.maxPrice, Whole(f.minCapacity), f.search),
        Some(page.limit), Some(page.offset)))
  }

  /**
    The schema's paging defaults and the search's own fallbacks agree: a
    search from a parsed form returns at most the requested limit, 20 when
    none is given, and never more than 100.
   */
  lemma ParsedSearchPaging(f: SearchForm)
    requires ParseSearch(f).Some?
    ensures var filters := ParseSearch(f).value;
      && Listings.Limit(filters) as real == f.limit.GetOr(20.0)
      && Listings.Limit(filters) <= 100
      && Listings.Offset(filters) as real == f.offset.GetOr(0.0)
  {
  }

  /** A price range given backwards passes validation and then matches no listing. */
  lemma BackwardsPriceRangeFindsNothing(s: Store, f: SearchForm)
    requires ParseSearch(f).Some?
    requires f.minPrice.Some? && f.maxPrice.Some? && f.minPrice.value > f.maxPrice.value
    ensures Listings.SearchListings(s, ParseSearch(f).value) == []
  {
    var filters := ParseSearch(f).value;
    forall x | 0 <= x < |s.listings|
      ensures !Listings.SearchMatches(s.listings[x], filters.criteria)
    {
    }
    Listings.NothingMatchingFindsNothing(s, filters);
  }
}

=== FILE: listings.dfy ===
/**
  The listing lifecycle of a vendor

    draft --publish--> active <--pause/publish--> paused
    any   --delete-->  deleted   (soft: the row stays)

  with its ownership checks and publish guards, URL slugs built from titles,
  lookups by id and by slug, and the public search with its filters, order
  and paging.
 */
module Listings {
  import opened Wrappers
  import opened Domain
  import opened Patterns
  import opened Money
  import Bookings

  // ----------------------------------------------------------------- slugs

  /** ASCII lower case; other characters are left alone. */
  function Lower(c: char): (d: char)
    ensures IsUpper(c) ==> d as int == c as int + 32
    ensures !IsUpper(c) ==> d == c
  {
    if IsUpper(c) then (c as int + 32) as char else c
  }

  /** `[a-z0-9]`: the characters a slug keeps. */
  predicate IsSlugChar(c: char) {
    IsDigit(c) || 'a' <= c <= 'z'
  }

  /** Only slug characters and dashes, and never two dashes in a row. */
  ghost predicate Tidy(r: string) {
    && (forall i :: 0 <= i < |r| ==> IsSlugChar(r[i]) || r[i] == '-')
    && (forall i, j :: 0 <= i < j < |r| && j == i + 1 ==> r[i] != '-' || r[j] != '-')
  }

  /** Tidy, and no dash at either end. */
  ghost predicate Trimmed(r: string) {
    Tidy(r) && (|r| > 0 ==> r[0] != '-' && r[|r| - 1] != '-')
  }

  /**
    `toLowerCase()` then `replace(/[^a-z0-9]+/g, '-')`: every maximal run of
    characters outside `[a-z0-9]` becomes a single dash.
   */
  function Dashed(s: string): (r: string)
    ensures Tidy(r)
    ensures |r| > 0 && r[|r| - 1] == '-' <==> |s| > 0 && !IsSlugChar(Lower(s[|s| - 1]))
    ensures |r| > 0 && r[0] == '-' <==> |s| > 0 && !IsSlugChar(Lower(s[0]))
    decreases |s|
  {
    if |s| == 0 then ""
    else
      var p := Dashed(s[..|s| - 1]);
      var c := Lower(s[|s| - 1]);
      if IsSlugChar(c) then p + [c]
      else if |p| > 0 && p[|p| - 1] == '-' then p
      else p + "-"
  }

  /** `replace(/^-|-$/g, '')`: one leading and one trailing dash removed. */
  function TrimDashes(r: string): (t: string)
    requires Tidy(r)
    ensures Trimmed(t)
  {
    var a := if |r| > 0 && r[0] == '-' then r[1..] else r;
    if |a| > 0 && a[|a| - 1] == '-' then a[..|a| - 1] else a
  }

  /** The part of a slug made from the title. */
  function SlugBase(title: string): (r: string)
    ensures Trimmed(r)
  {
    TrimDashes(Dashed(title))
  }

  /** The decimal form of an instant, with a minus sign before a negative one. */
  function InstantString(t: Instant): (r: string)
    ensures |r| >= 1
  {
    if t < 0 then "-" + Decimal(-t) else Decimal(t)
  }

  /** A listing's URL slug: the title's slug base, a dash, the creation instant. */
  function GenerateSlug(title: string, now: Instant): (r: string)
    ensures |r| > |SlugBase(title)|
    ensures r[..|SlugBase(title)|] == SlugBase(title) && r[|SlugBase(title)|] == '-'
    ensures now >= 0 ==>
      var digits := r[|SlugBase(title)| + 1..];
      AllDigits(digits) && DigitsValue(digits) == now
  {
    var base := SlugBase(title);
    var digits := InstantString(now);
    JoinedParts(base, digits);
    assert now >= 0 ==> DigitsValue(digits) == now by {
      if now >= 0 {
        DecimalRoundTrip(now);
      }
    }
    base + "-" + digits
  }

  /** Where the parts of `base-tail` sit. */
  lemma JoinedParts(base: string, tail: string)
    ensures var r := base + "-" + tail;
      |r| == |base| + 1 + |tail| && r[..|base|] == base && r[|base|] == '-' && r[|base| + 1..] == tail
  {
    var r := base + "-" + tail;
    assert r[..|base|] == base;
    assert r[|base| + 1..] == tail;
  }

  lemma InstantStringInjective(m: Instant, n: Instant)
    ensures InstantString(m) == InstantString(n) <==> m == n
  {
    if InstantString(m) == InstantString(n) {
      if m < 0 && n < 0 {
        assert Decimal(-m) == InstantString(m)[1..];
        assert Decimal(-n) == InstantString(n)[1..];
        DecimalInjective(-m, -n);
      } else if m >= 0 && n >= 0 {
        DecimalInjective(m, n);
      }
    }
  }

  /** Two slugs of one title made at different instants differ. */
  lemma SlugsOfDifferentInstantsDiffer(title: string, m: Instant, n: Instant)
    ensures GenerateSlug(title, m) == GenerateSlug(title, n) <==> m == n
  {
    var base := SlugBase(title);
    if GenerateSlug(title, m) == GenerateSlug(title, n) {
      var a, b := GenerateSlug(title, m), GenerateSlug(title, n);
      assert a == base + "-" + InstantString(m);
      assert b == base + "-" + InstantString(n);
      assert a[|base| + 1..] == InstantString(m);
      assert b[|base| + 1..] == InstantString(n);
      InstantStringInjective(m, n);
    }
  }

  /** The letters and digits of a string, lowered, in order: what a slug keeps of a title. */
  function Kept(s: string): (r: string)
    ensures forall i :: 0 <= i < |r| ==> IsSlugChar(r[i])
    decreases |s|
  {
    if |s| == 0 then ""
    else
      var c := Lower(s[|s| - 1]);
      Kept(s[..|s| - 1]) + (if IsSlugChar(c) then [c] else "")
  }

  lemma {:induction false} KeptConcat(a: string, b: string)
    ensures Kept(a + b) == Kept(a) + Kept(b)
    decreases |b|
  {
    if |b| > 0 {
      KeptConcat(a, b[..|b| - 1]);
      assert (a + b)[..|a + b| - 1] == a + b[..|b| - 1];
      assert (a + b)[|a + b| - 1] == b[|b| - 1];
      var c := Lower(b[|b| - 1]);
      var last := if IsSlugChar(c) then [c] else "";
      assert Kept(a + b) == Kept(a + b[..|b| - 1]) + last;
      assert Kept(b) == Kept(b[..|b| - 1]) + last;
    } else {
      assert a + b == a;
    }
  }

  lemma {:induction false} KeptOfDashed(s: string)
    ensures Kept(Dashed(s)) == Kept(s)
    decreases |s|
  {
    if |s| > 0 {
      var p := Dashed(s[..|s| - 1]);
      var c := Lower(s[|s| - 1]);
      KeptOfDashed(s[..|s| - 1]);
      if IsSlugChar(c) {
        KeptConcat(p, [c]);
        assert Kept([c]) == [c] by { assert [c][..0] == ""; }
      } else if !(|p| > 0 && p[|p| - 1] == '-') {
        KeptConcat(p, "-");
        assert Kept("-") == "" by { assert "-"[..0] == ""; }
      }
    }
  }

  lemma KeptOfDash()
    ensures Kept("-") == ""
  {
    assert "-"[..0] == "";
  }

  lemma KeptDropsLeadingDash(r: string)
    requires |r| > 0 && r[0] == '-'
    ensures Kept(r[1..]) == Kept(r)
  {
    assert r == "-" + r[1..];
    KeptConcat("-", r[1..]);
    KeptOfDash();
  }

  lemma KeptDropsTrailingDash(a: string)
    requires |a| > 0 && a[|a| - 1] == '-'
    ensures Kept(a[..|a| - 1]) == Kept(a)
  {
    assert a == a[..|a| - 1] + "-";
    KeptConcat(a[..|a| - 1], "-");
    KeptOfDash();
  }

  lemma KeptOfTrimDashes(r: string)
    requires Tidy(r)
    ensures Kept(TrimDashes(r)) == Kept(r)
  {
    var a := if |r| > 0 && r[0] == '-' then r[1..] else r;
    if |r| > 0 && r[0] == '-' {
      KeptDropsLeadingDash(r);
    }
    assert Kept(a) == Kept(r);
    if |a| > 0 && a[|a| - 1] == '-' {
      KeptDropsTrailingDash(a);
      assert TrimDashes(r) == a[..|a| - 1];
    } else {
      assert TrimDashes(r) == a;
    }
  }

  /** A slug base keeps every letter and digit of the title, lowered and in order, and nothing else. */
  lemma SlugBaseKeepsLettersAndDigits(title: string)
    ensures Kept(SlugBase(title)) == Kept(title)
  {
    KeptOfDashed(title);
    KeptOfTrimDashes(Dashed(title));
  }

  lemma {:induction false} DashedKeepsTidy(r: string)
    requires Tidy(r)
    ensures Dashed(r) == r
    decreases |r|
  {
    if |r| > 0 {
      var init := r[..|r| - 1];
      assert Tidy(init);
      DashedKeepsTidy(init);
      if r[|r| - 1] == '-' && |init| > 0 {
        assert init[|init| - 1] != '-';
      }
      assert init + [r[|r| - 1]] == r;
    }
  }

  /** Slugging a slug base changes nothing. */
  lemma SlugBaseIdempotent(title: string)
    ensures SlugBase(SlugBase(title)) == SlugBase(title)
  {
    DashedKeepsTidy(SlugBase(title));
  }

  // ------------------------------------------------------------- ownership

  /** The guards shared by update, status change and delete: the listing exists and is the vendor's. */
  function CheckOwner(s: Store, listingId: Id, vendorId: Id): (r: Result<Listing, Error>)
    ensures listingId >= |s.listings| ==> r == Failure(NotFound(ListingKind))
    ensures listingId < |s.listings| && s.listings[listingId].vendorId != vendorId ==> r == Failure(Unauthorized)
    ensures r.Success? <==> listingId < |s.listings| && s.listings[listingId].vendorId == vendorId
    ensures r.Success? ==> r.value == s.listings[listingId]
  {
    if listingId >= |s.listings| then Failure(NotFound(ListingKind))
    else if s.listings[listingId].vendorId != vendorId then Failure(Unauthorized)
    else Success(s.listings[listingId])
  }

  // -------------------------------------------------------------- creation

  /** A listing as the create form gives it, defaults filled in. */
  datatype ListingInput = ListingInput(
    title: string,
    description: string,
    category: Category,
    location: string,
    address: string,
    county: Option<string>,
    city: Option<string>,
    capacity: Option<int>,
    basePrice: real,
    photos: seq<string>,
    coverPhoto: Option<string>,
    amenities: seq<string>,
    instantBooking: bool,
    minBookingDuration: int,
    maxBookingDuration: int,
    leadTime: int)

  /** `coverPhoto || photos[0]`: the given cover photo, else the first photo, if any. */
  function CoverPhoto(data: ListingInput): (r: Option<string>)
    ensures Truthy(data.coverPhoto) ==> r == data.coverPhoto
    ensures !Truthy(data.coverPhoto) && |data.photos| > 0 ==> r == Some(data.photos[0])
    ensures !Truthy(data.coverPhoto) && |data.photos| == 0 ==> r.None?
  {
    if Truthy(data.coverPhoto) then data.coverPhoto
    else if |data.photos| > 0 then Some(data.photos[0])
    else None
  }

  /** The form's fields, copied into a listing; the price as its `decimal(10, 2)` column stores it. */
  predicate Describes(l: Listing, data: ListingInput) {
    && l.title == data.title && l.description == data.description
    && l.category == data.category && l.location == data.location
    && l.address == data.address && l.county == data.county && l.city == data.city
    && l.capacity == data.capacity && StoredDecimal(data.basePrice) == Some(l.basePrice)
    && l.photos == data.photos && l.amenities == data.amenities
    && l.instantBooking == data.instantBooking
    && l.minBookingDuration == data.minBookingDuration
    && l.maxBookingDuration == data.maxBookingDuration
    && l.leadTime == Some(data.leadTime)
  }

  /**
    Creates a draft listing for an approved vendor and returns its id. The
    slug comes from the title and the creation instant.
   */
  function CreateListing(s: Store, vendorId: Id, data: ListingInput, now: Instant): (r: Result<(Store, Id), Error>)
    ensures vendorId >= |s.vendors| ==> r == Failure(NotFound(VendorKind))
    ensures vendorId < |s.vendors| && s.vendors[vendorId].status != VendorStatus.Approved ==>
      r == Failure(VendorNotApproved)
    ensures vendorId < |s.vendors| && s.vendors[vendorId].status == VendorStatus.Approved &&
            StoredDecimal(data.basePrice).None? ==>
      r == Failure(NumericOverflow)
    ensures r.Success? <==>
      && vendorId < |s.vendors| && s.vendors[vendorId].status == VendorStatus.Approved
      && -99999999.995 < data.basePrice < 99999999.995
    ensures r.Success? ==>
      var (s', id) := r.value;
      && id == |s.listings|
      && |s'.listings| == id + 1 && s'.listings[..id] == s.listings
      && s' == s.(listings := s'.listings)
      && var l := s'.listings[id];
      && l.vendorId == vendorId && Describes(l, data)
      && l.status == ListingStatus.Draft
      && l.slug == GenerateSlug(data.title, now)
      && l.coverPhoto == CoverPhoto(data)
      && l.views == 0 && l.bookingsCount == 0
      && l.createdAt == now && l.updatedAt == now
  {
    if vendorId >= |s.vendors| then Failure(NotFound(VendorKind))
    else if s.vendors[vendorId].status != VendorStatus.Approved then Failure(VendorNotApproved)
    else if StoredDecimal(data.basePrice).None? then Failure(NumericOverflow)
    else
      var l := Listing(
        vendorId, data.title, GenerateSlug(data.title, now), data.description, data.category,
        data.location, data.address, data.county, data.city, data.capacity, StoredDecimal(data.basePrice).value,
        data.photos, CoverPhoto(data), data.amenities, data.instantBooking,
        data.minBookingDuration, data.maxBookingDuration, Some(data.leadTime),
        ListingStatus.Draft, 0, 0, now, now);
      Success((s.(listings := s.listings + [l]), |s.listings|))
  }

  /** A new listing takes no bookings until it is published. */
  lemma NewListingIsNotBookable(s: Store, vendorId: Id, data: ListingInput, now: Instant,
                                customerId: Id, req: Bookings.BookingRequest, later: Instant)
    requires CreateListing(s, vendorId, data, now).Success?
    requires req.listingId == CreateListing(s, vendorId, data, now).value.1
    ensures Bookings.CreateBooking(CreateListing(s, vendorId, data, now).value.0, customerId, req, later)
            == Failure(ListingNotBookable)
  {
  }

  /**
    A booking of a new listing is charged the price its column keeps: the
    form's price rounded to the cent, whatever finer price the form gave.
   */
  lemma BookingsChargeTheStoredPrice(s: Store, vendorId: Id, data: ListingInput, now: Instant)
    requires CreateListing(s, vendorId, data, now).Success?
    ensures var (s', id) := CreateListing(s, vendorId, data, now).value;
      && s'.listings[id].basePrice == RoundCents(data.basePrice)
      && Bookings.CalculatePricing(s'.listings[id].basePrice).baseAmount == RoundCents(data.basePrice)
  {
    var (s', id) := CreateListing(s, vendorId, data, now).value;
    var price := s'.listings[id].basePrice;
    NearestCentIsRoundCents(data.basePrice, price);
    NearestCentIsRoundCents(price, Bookings.CalculatePricing(price).baseAmount);
    RoundCentsKeepsCents(price);
  }

  // ---------------------------------------------------------------- update

  /** The fields an update may carry; an absent field is left as it is. */
  datatype ListingPatch = ListingPatch(
    title: Option<string>,
    description: Option<string>,
    category: Option<Category>,
    location: Option<string>,
    address: Option<string>,
    county: Option<string>,
    city: Option<string>,
    capacity: Option<int>,
    basePrice: Option<real>,
    photos: Option<seq<string>>,
    coverPhoto: Option<string>,
    amenities: Option<seq<string>>,
    instantBooking: Option<bool>,
    minBookingDuration: Option<int>,
    maxBookingDuration: Option<int>,
    leadTime: Option<int>)

  /** The patch that changes no field. */
  const NoChange: ListingPatch :=
    ListingPatch(None, None, None, None, None, None, None, None, None, None, None, None, None, None, None, None)

  /**
    Every field the patch carries has its value in `l'` (a price as its
    `decimal(10, 2)` column stores it), every other one its value in `l`.
   */
  predicate Patched(l': Listing, l: Listing, p: ListingPatch) {
    && l'.title == p.title.GetOr(l.title)
    && l'.description == p.description.GetOr(l.description)
    && l'.category == p.category.GetOr(l.category)
    && l'.location == p.location.GetOr(l.location)
    && l'.address == p.address.GetOr(l.address)
    && l'.county == (if p.county.Some? then p.county else l.county)
    && l'.city == (if p.city.Some? then p.city else l.city)
    && l'.capacity == (if p.capacity.Some? then p.capacity else l.capacity)
    && (p.basePrice.Some? ==> NearestCent(p.basePrice.value, l'.basePrice))
    && (p.basePrice.None? ==> l'.basePrice == l.basePrice)
    && l'.photos == p.photos.GetOr(l.photos)
    && l'.coverPhoto == (if p.coverPhoto.Some? then p.coverPhoto else l.coverPhoto)
    && l'.amenities == p.amenities.GetOr(l.amenities)
    && l'.instantBooking == p.instantBooking.GetOr(l.instantBooking)
    && l'.minBookingDuration == p.minBookingDuration.GetOr(l.minBookingDuration)
    && l'.maxBookingDuration == p.maxBookingDuration.GetOr(l.maxBookingDuration)
    && l'.leadTime == (if p.leadTime.Some? then p.leadTime else l.leadTime)
  }

  /** The price after an update: a given price to the nearest cent, else the stored one. */
  function PatchedPrice(l: Listing, p: ListingPatch): (price: real)
    ensures p.basePrice.Some? ==> NearestCent(p.basePrice.value, price)
    ensures p.basePrice.None? ==> price == l.basePrice
  {
    if p.basePrice.Some? then RoundCents(p.basePrice.value) else l.basePrice
  }

  /** The slug after an update: regenerated from a non-empty new title, else kept. */
  function PatchedSlug(l: Listing, p: ListingPatch, now: Instant): (slug: string)
    ensures Truthy(p.title) ==> slug == GenerateSlug(p.title.value, now)
    ensures !Truthy(p.title) ==> slug == l.slug
  {
    if Truthy(p.title) then GenerateSlug(p.title.value, now) else l.slug
  }

  /**
    A listing with a patch applied at instant `now`. A non-empty title also
    gives the listing a new slug; the status, owner, counters and creation
    time never change.
   */
  function ApplyPatch(l: Listing, p: ListingPatch, now: Instant): (l': Listing)
    ensures Patched(l', l, p)
    ensures Truthy(p.title) ==> l'.slug == GenerateSlug(p.title.value, now)
    ensures !Truthy(p.title) ==> l'.slug == l.slug
    ensures l'.vendorId == l.vendorId && l'.status == l.status
    ensures l'.views == l.views && l'.bookingsCount == l.bookingsCount
    ensures l'.createdAt == l.createdAt && l'.updatedAt == now
  {
    Listing(
      l.vendorId, Patch(l.title, p.title), PatchedSlug(l, p, now), Patch(l.description, p.description),
      Patch(l.category, p.category), Patch(l.location, p.location), Patch(l.address, p.address),
      if p.county.Some? then p.county else l.county,
      if p.city.Some? then p.city else l.city,
      if p.capacity.Some? then p.capacity else l.capacity,
      PatchedPrice(l, p), Patch(l.photos, p.photos),
      if p.coverPhoto.Some? then p.coverPhoto else l.coverPhoto,
      Patch(l.amenities, p.amenities), Patch(l.instantBooking, p.instantBooking),
      Patch(l.minBookingDuration, p.minBookingDuration), Patch(l.maxBookingDuration, p.maxBookingDuration),
      if p.leadTime.Some? then p.leadTime else l.leadTime,
      l.status, l.views, l.bookingsCount, l.createdAt, now)
  }

  /**
    Updates the fields a patch carries on the vendor's own listing; no other
    row changes. A price too large for its column fails the write, and nothing
    changes.
   */
  function UpdateListing(s: Store, listingId: Id, vendorId: Id, p: ListingPatch, now: Instant): (r: Result<(Store, Listing), Error>)
    ensures CheckOwner(s, listingId, vendorId).Failure? ==> r == Failure(CheckOwner(s, listingId, vendorId).error)
    ensures CheckOwner(s, listingId, vendorId).Success? && p.basePrice.Some? && StoredDecimal(p.basePrice.value).None? ==>
      r == Failure(NumericOverflow)
    ensures r.Success? <==>
      CheckOwner(s, listingId, vendorId).Success? && (p.basePrice.Some? ==> -99999999.995 < p.basePrice.value < 99999999.995)
    ensures r.Success? ==>
      && |r.value.0.listings| == |s.listings|
      && r.value.0 == s.(listings := s.listings[listingId := r.value.1])
      && r.value.1 == ApplyPatch(s.listings[listingId], p, now)
  {
    var l :- CheckOwner(s, listingId, vendorId);
    if p.basePrice.Some? && StoredDecimal(p.basePrice.value).None? then Failure(NumericOverflow)
    else
      var l' := ApplyPatch(l, p, now);
      Success((s.(listings := s.listings[listingId := l']), l'))
  }

  /** An update that carries no field only moves the update time. */
  lemma EmptyUpdateOnlyTouchesUpdatedAt(s: Store, listingId: Id, vendorId: Id, now: Instant)
    requires UpdateListing(s, listingId, vendorId, NoChange, now).Success?
    ensures UpdateListing(s, listingId, vendorId, NoChange, now).value.1
            == s.listings[listingId].(updatedAt := now)
  {
  }

  /** Applying one update twice at the same instant is applying it once. */
  lemma UpdateListingIdempotent(s: Store, listingId: Id, vendorId: Id, p: ListingPatch, now: Instant)
    requires UpdateListing(s, listingId, vendorId, p, now).Success?
    ensures var s' := UpdateListing(s, listingId, vendorId, p, now).value.0;
      UpdateListing(s', listingId, vendorId, p, now) == UpdateListing(s, listingId, vendorId, p, now)
  {
    var l := s.listings[listingId];
    var l' := ApplyPatch(l, p, now);
    var l'' := ApplyPatch(l', p, now);
    assert l'' == l';
    var s' := UpdateListing(s, listingId, vendorId, p, now).value.0;
    assert s'.listings[listingId] == l';
    assert s'.listings[listingId := l''] == s'.listings;
  }

  // ---------------------------------------------------------------- status

  /** The two statuses a vendor may set directly. */
  datatype Publication = Publish | Pause {
    function Status(): (st: ListingStatus)
      ensures st == ListingStatus.Active || st == ListingStatus.Paused
      ensures st == ListingStatus.Active <==> this == Publish
    {
      match this
      case Publish => ListingStatus.Active
      case Pause => ListingStatus.Paused
    }
  }

  /** A listing that may be published: it has a photo and a positive price. */
  predicate Publishable(l: Listing) {
    |l.photos| > 0 && l.basePrice > 0.0
  }

  /**
    Publishes or pauses the vendor's own listing. Publishing needs at least
    one photo and a positive base price; pausing needs nothing. The current
    status is not consulted.
   */
  function UpdateListingStatus(s: Store, listingId: Id, vendorId: Id, to: Publication, now: Instant): (r: Result<(Store, Listing), Error>)
    ensures CheckOwner(s, listingId, vendorId).Failure? ==> r == Failure(CheckOwner(s, listingId, vendorId).error)
    ensures CheckOwner(s, listingId, vendorId).Success? && to == Publish && |s.listings[listingId].photos| == 0 ==>
      r == Failure(NoPhotos)
    ensures CheckOwner(s, listingId, vendorId).Success? && to == Publish && |s.listings[listingId].photos| > 0 &&
            s.listings[listingId].basePrice <= 0.0 ==>
      r == Failure(InvalidPrice)
    ensures r.Success? <==> CheckOwner(s, listingId, vendorId).Success? && (to == Publish ==> Publishable(s.listings[listingId]))
    ensures r.Success? ==>
      var (s', l') := r.value;
      && l' == s.listings[listingId].(status := to.Status(), updatedAt := now)
      && s' == s.(listings := s.listings[listingId := l'])
  {
    var l :- CheckOwner(s, listingId, vendorId);
    if to == Publish && |l.photos| == 0 then Failure(NoPhotos)
    else if to == Publish && l.basePrice <= 0.0 then Failure(InvalidPrice)
    else
      var l' := l.(status := to.Status(), updatedAt := now);
      Success((s.(listings := s.listings[listingId := l']), l'))
  }

  /** Soft-deletes the vendor's own listing: it stays in the table with status `deleted`. */
  function DeleteListing(s: Store, listingId: Id, vendorId: Id, now: Instant): (r: Result<(Store, Listing), Error>)
    ensures CheckOwner(s, listingId, vendorId).Failure? ==> r == Failure(CheckOwner(s, listingId, vendorId).error)
    ensures r.Success? <==> CheckOwner(s, listingId, vendorId).Success?
    ensures r.Success? ==>
      var (s', l') := r.value;
      && |s'.listings| == |s.listings|
      && l' == s.listings[listingId].(status := ListingStatus.Deleted, updatedAt := now)
      && s' == s.(listings := s.listings[listingId := l'])
  {
    var l :- CheckOwner(s, listingId, vendorId);
    var l' := l.(status := ListingStatus.Deleted, updatedAt := now);
    Success((s.(listings := s.listings[listingId := l']), l'))
  }

  /**
    Nothing stops a deleted listing from being published again: with a photo
    and a positive price, its owner makes it active.
   */
  lemma DeletedListingCanBeRepublished(s: Store, listingId: Id, vendorId: Id, now: Instant, later: Instant)
    requires DeleteListing(s, listingId, vendorId, now).Success?
    requires Publishable(s.listings[listingId])
    ensures var s' := DeleteListing(s, listingId, vendorId, now).value.0;
      && UpdateListingStatus(s', listingId, vendorId, Publish, later).Success?
      && UpdateListingStatus(s', listingId, vendorId, Publish, later).value.1.status == ListingStatus.Active
  {
  }

  // --------------------------------------------------------------- lookups

  /** Counts one view of a listing. */
  function Viewed(s: Store, listingId: Id): (s': Store)
    requires listingId < |s.listings|
    ensures |s'.listings| == |s.listings|
    ensures s'.listings[listingId].views == s.listings[listingId].views + 1
    ensures s'.listings[listingId] == s.listings[listingId].(views := s'.listings[listingId].views)
    ensures forall j :: 0 <= j < |s.listings| && j != listingId ==> s'.listings[j] == s.listings[j]
    ensures s' == s.(listings := s'.listings)
  {
    var l := s.listings[listingId];
    s.(listings := s.listings[listingId := l.(views := l.views + 1)])
  }

  /** Reads a listing by id, whatever its status, and counts the view. */
  function GetListingById(s: Store, listingId: Id): (r: Result<(Store, Listing), Error>)
    ensures r.Failure? <==> listingId >= |s.listings|
    ensures r.Failure? ==> r.error == NotFound(ListingKind)
    ensures r.Success? ==> r.value == (Viewed(s, listingId), s.listings[listingId])
  {
    if listingId >= |s.listings| then Failure(NotFound(ListingKind))
    else Success((Viewed(s, listingId), s.listings[listingId]))
  }

  /** The first listing with a slug. */
  function WithSlug(s: Store, slug: string): (r: Option<Id>)
    ensures r.Some? ==> r.value < |s.listings| && s.listings[r.value].slug == slug
    ensures r.Some? ==> forall j :: 0 <= j < r.value ==> s.listings[j].slug != slug
    ensures r.None? ==> forall j :: 0 <= j < |s.listings| ==> s.listings[j].slug != slug
  {
    FindFirst(s.listings, (l: Listing) => l.slug == slug)
  }

  /** Reads the listing behind a public URL and counts the view; a deleted listing is not found. */
  function GetListingBySlug(s: Store, slug: string): (r: Result<(Store, Listing), Error>)
    ensures r.Failure? <==> WithSlug(s, slug).None? || s.listings[WithSlug(s, slug).value].status == ListingStatus.Deleted
    ensures r.Failure? ==> r.error == NotFound(ListingKind)
    ensures r.Success? ==>
      var i := WithSlug(s, slug).value;
      && r.value.1 == s.listings[i] && r.value.1.slug == slug
      && r.value.0 == Viewed(s, i)
  {
    match WithSlug(s, slug)
    case None => Failure(NotFound(ListingKind))
    case Some(i) =>
      if s.listings[i].status == ListingStatus.Deleted then Failure(NotFound(ListingKind))
      else Success((Viewed(s, i), s.listings[i]))
  }

  /**
    After a delete, the listing's public URL finds nothing, while a read by
    id still returns the row, now with status `deleted`.
   */
  lemma DeleteHidesSlugButNotId(s: Store, listingId: Id, vendorId: Id, now: Instant)
    requires DeleteListing(s, listingId, vendorId, now).Success?
    requires WithSlug(s, s.listings[listingId].slug) == Some(listingId)
    ensures var s' := DeleteListing(s, listingId, vendorId, now).value.0;
      && GetListingBySlug(s', s.listings[listingId].slug) == Failure(NotFound(ListingKind))
      && GetListingById(s', listingId).Success?
      && GetListingById(s', listingId).value.1.status == ListingStatus.Deleted
  {
    var s' := DeleteListing(s, listingId, vendorId, now).value.0;
    var slug := s.listings[listingId].slug;
    assert s'.listings[listingId].slug == slug;
    assert forall j :: 0 <= j < listingId ==> s'.listings[j] == s.listings[j];
    assert WithSlug(s', slug) == Some(listingId);
  }

  // -------------------------------------------------------------- ordering

  /** The ids of the rows satisfying `p`, in table order. */
  function FilterIds(rows: seq<Listing>, p: Listing -> bool, from: nat): (r: seq<Id>)
    requires from <= |rows|
    ensures forall x :: x in r <==> from <= x < |rows| && p(rows[x])
    ensures forall x :: multiset(r)[x] <= 1
    ensures |r| <= |rows| - from
    decreases |rows| - from
  {
    if from == |rows| then []
    else if p(rows[from]) then
      var rest := FilterIds(rows, p, from + 1);
      assert from !in rest;
      assert multiset(rest)[from] == 0;
      [from] + rest
    else FilterIds(rows, p, from + 1)
  }

  /** Newest first by `key`. */
  predicate Descending(r: seq<Id>, key: Id -> Instant) {
    forall i, j :: 0 <= i < j < |r| ==> key(r[i]) >= key(r[j])
  }

  /** Putting the head of `r` in front of an ordered insertion into its tail keeps the order. */
  lemma HeadBeforeInsertion(x: Id, r: seq<Id>, t: seq<Id>, key: Id -> Instant)
    requires Descending(r, key) && |r| > 0 && key(x) < key(r[0])
    requires forall y :: y in t ==> y == x || y in r[1..]
    requires Descending(t, key)
    ensures Descending([r[0]] + t, key)
  {
    var u := [r[0]] + t;
    forall i, j | 0 <= i < j < |u| ensures key(u[i]) >= key(u[j]) {
      if i == 0 {
        var y := t[j - 1];
        assert y in t;
        if y != x {
          var m :| 0 <= m < |r[1..]| && r[1..][m] == y;
          assert r[m + 1] == y;
        }
      } else {
        assert u[i] == t[i - 1] && u[j] == t[j - 1];
      }
    }
  }

  function InsertByKey(x: Id, r: seq<Id>, key: Id -> Instant): (r': seq<Id>)
    requires Descending(r, key)
    ensures multiset(r') == multiset(r) + multiset{x}
    ensures forall y :: y in r' <==> y == x || y in r
    ensures Descending(r', key)
  {
    if |r| == 0 then [x]
    else if key(x) >= key(r[0]) then [x] + r
    else
      assert r == [r[0]] + r[1..];
      var t := InsertByKey(x, r[1..], key);
      HeadBeforeInsertion(x, r, t, key);
      [r[0]] + t
  }

  /** `ORDER BY key DESC`: a rearrangement of the ids, newest first (ties in input order reversed). */
  function NewestFirst(ids: seq<Id>, key: Id -> Instant): (r: seq<Id>)
    ensures multiset(r) == multiset(ids) && |r| == |ids|
    ensures forall y :: y in r <==> y in ids
    ensures Descending(r, key)
  {
    if |ids| == 0 then []
    else
      assert ids == [ids[0]] + ids[1..];
      InsertByKey(ids[0], NewestFirst(ids[1..], key), key)
  }

  /** Creation instants of the listings, by id. */
  function CreatedKey(s: Store): Id -> Instant {
    (i: Id) => if i < |s.listings| then s.listings[i].createdAt else 0
  }

  /** Update instants of the listings, by id. */
  function UpdatedKey(s: Store): Id -> Instant {
    (i: Id) => if i < |s.listings| then s.listings[i].updatedAt else 0
  }

  /** No id twice. */
  ghost predicate Distinct(r: seq<Id>) {
    forall x :: multiset(r)[x] <= 1
  }

  // ---------------------------------------------------------------- search

  /** `column LIKE '%needle%'` with the needle taken literally. */
  predicate Contains(hay: string, needle: string) {
    exists i :: 0 <= i <= |hay| && needle <= hay[i..]
  }

  /** A nullable column matches a LIKE only when it holds a value. */
  predicate ContainsIn(hay: Option<string>, needle: string) {
    hay.Some? && Contains(hay.value, needle)
  }

  /** The search filters other than paging. */
  datatype Criteria = Criteria(
    category: Option<Category>,
    location: Option<string>,
    minPrice: Option<real>,
    maxPrice: Option<real>,
    minCapacity: Option<int>,
    search: Option<string>)

  datatype SearchFilters = SearchFilters(criteria: Criteria, limit: Option<nat>, offset: Option<nat>)

  /** A numeric filter applies when it is given and is not zero. */
  predicate Given<T(==)>(o: Option<T>, zero: T) {
    o.Some? && o.value != zero
  }

  /** An active listing meeting every filter that is given. */
  predicate SearchMatches(l: Listing, c: Criteria) {
    && l.status == ListingStatus.Active
    && (c.category.Some? ==> l.category == c.category.value)
    && (Truthy(c.location) ==>
          Contains(l.location, c.location.value) || ContainsIn(l.county, c.location.value)
          || ContainsIn(l.city, c.location.value))
    && (Given(c.minPrice, 0.0) ==> l.basePrice >= c.minPrice.value)
    && (Given(c.maxPrice, 0.0) ==> l.basePrice <= c.maxPrice.value)
    && (Given(c.minCapacity, 0) ==> l.capacity.Some? && l.capacity.value >= c.minCapacity.value)
    && (Truthy(c.search) ==> Contains(l.title, c.search.value) || Contains(l.description, c.search.value))
  }

  const DefaultLimit: nat := 20

  /** `limit || 20`. */
  function Limit(f: SearchFilters): (n: nat)
    ensures n > 0
    ensures Given(f.limit, 0) ==> n == f.limit.value
  {
    if Given(f.limit, 0) then f.limit.value else DefaultLimit
  }

  /** `offset || 0`. */
  function Offset(f: SearchFilters): nat {
    f.offset.GetOr(0)
  }

  /** The page of `r` that skips `offset` entries and takes at most `limit`. */
  function Window(r: seq<Id>, offset: nat, limit: nat): (w: seq<Id>)
    ensures |w| <= limit
    ensures |w| == if offset >= |r| then 0 else if offset + limit <= |r| then limit else |r| - offset
    ensures forall k :: 0 <= k < |w| ==> w[k] == r[offset + k]
  {
    var a := if offset < |r| then offset else |r|;
    var b := if offset + limit < |r| then offset + limit else |r|;
    r[a..b]
  }

  lemma WindowKeepsOrderAndDistinct(r: seq<Id>, offset: nat, limit: nat, key: Id -> Instant)
    requires Descending(r, key) && Distinct(r)
    ensures Descending(Window(r, offset, limit), key)
    ensures Distinct(Window(r, offset, limit))
    ensures forall x :: x in Window(r, offset, limit) ==> x in r
  {
    var a := if offset < |r| then offset else |r|;
    var b := if offset + limit < |r| then offset + limit else |r|;
    assert Window(r, offset, limit) == r[a..b];
    SliceKeepsDistinct(r, a, b);
  }

  /** A slice of a sequence without repeats has no repeats. */
  lemma SliceKeepsDistinct(r: seq<Id>, a: nat, b: nat)
    requires a <= b <= |r| && Distinct(r)
    ensures Distinct(r[a..b])
  {
    assert r == r[..a] + r[a..b] + r[b..];
    assert multiset(r) == multiset(r[..a]) + multiset(r[a..b]) + multiset(r[b..]);
    forall x ensures multiset(r[a..b])[x] <= 1 {
      assert multiset(r)[x] <= 1;
    }
  }

  /** A non-empty sequence holds its first element. */
  lemma FirstIsMember(r: seq<Id>)
    ensures |r| > 0 ==> r[0] in r
  {
  }

  /** All active listings meeting the criteria, newest first. */
  function AllMatches(s: Store, c: Criteria): (r: seq<Id>)
    ensures forall x :: x in r <==> 0 <= x < |s.listings| && SearchMatches(s.listings[x], c)
    ensures |r| <= |s.listings|
    ensures Descending(r, CreatedKey(s)) && Distinct(r)
  {
    NewestFirst(FilterIds(s.listings, (l: Listing) => SearchMatches(l, c), 0), CreatedKey(s))
  }

  /**
    The public search: active listings meeting every given filter, newest
    first, skipping `offset` of them and returning at most `limit`.
   */
  function SearchListings(s: Store, f: SearchFilters): (r: seq<Id>)
    ensures forall x :: x in r ==> 0 <= x < |s.listings| && SearchMatches(s.listings[x], f.criteria)
    ensures Descending(r, CreatedKey(s)) && Distinct(r)
    ensures |r| <= Limit(f)
  {
    var all := AllMatches(s, f.criteria);
    WindowKeepsOrderAndDistinct(all, Offset(f), Limit(f), CreatedKey(s));
    Window(all, Offset(f), Limit(f))
  }

  /** A search whose filters no listing meets returns nothing, on every page. */
  lemma NothingMatchingFindsNothing(s: Store, f: SearchFilters)
    requires forall x :: 0 <= x < |s.listings| ==> !SearchMatches(s.listings[x], f.criteria)
    ensures SearchListings(s, f) == []
  {
    FirstIsMember(SearchListings(s, f));
  }

  /** A first page at least as long as the table holds every match. */
  lemma LargeFirstPageFindsEveryMatch(s: Store, f: SearchFilters)
    requires Offset(f) == 0 && Limit(f) >= |s.listings|
    ensures forall x :: 0 <= x < |s.listings| && SearchMatches(s.listings[x], f.criteria) ==> x in SearchListings(s, f)
  {
    var all := AllMatches(s, f.criteria);
    assert Window(all, 0, Limit(f)) == all;
  }

  lemma WindowsConcatenate(r: seq<Id>, offset: nat, a: nat, b: nat)
    ensures Window(r, offset, a) + Window(r, offset + a, b) == Window(r, offset, a + b)
  {
  }

  /** A search is the page of all matches its paging selects. */
  lemma SearchIsWindow(s: Store, f: SearchFilters)
    ensures SearchListings(s, f) == Window(AllMatches(s, f.criteria), Offset(f), Limit(f))
  {
  }

  /** Parts equal to the pieces of a join join to the same whole. */
  lemma JoinEqualParts(p: seq<Id>, q: seq<Id>, whole: seq<Id>, p': seq<Id>, q': seq<Id>, whole': seq<Id>)
    requires p == p' && q == q' && whole == whole' && p' + q' == whole'
    ensures p + q == whole
  {
  }

  /** A page asked for with an explicit positive limit and an offset is that window of all matches. */
  lemma PageIsWindow(s: Store, c: Criteria, limit: nat, offset: nat)
    requires limit > 0
    ensures SearchListings(s, SearchFilters(c, Some(limit), Some(offset))) == Window(AllMatches(s, c), offset, limit)
  {
    var f := SearchFilters(c, Some(limit), Some(offset));
    assert Limit(f) == limit && Offset(f) == offset;
    SearchIsWindow(s, f);
  }

  /** Two consecutive pages together are the page as long as both. */
  lemma SearchPagesAreConsecutive(s: Store, c: Criteria, offset: nat, a: nat, b: nat)
    requires a > 0 && b > 0
    ensures SearchListings(s, SearchFilters(c, Some(a), Some(offset)))
            + SearchListings(s, SearchFilters(c, Some(b), Some(offset + a)))
            == SearchListings(s, SearchFilters(c, Some(a + b), Some(offset)))
  {
    var all := AllMatches(s, c);
    PageIsWindow(s, c, a, offset);
    PageIsWindow(s, c, b, offset + a);
    PageIsWindow(s, c, a + b, offset);
    WindowsConcatenate(all, offset, a, b);
    JoinEqualParts(SearchListings(s, SearchFilters(c, Some(a), Some(offset))),
                   SearchListings(s, SearchFilters(c, Some(b), Some(offset + a))),
                   SearchListings(s, SearchFilters(c, Some(a + b), Some(offset))),
                   Window(all, offset, a), Window(all, offset + a, b), Window(all, offset, a + b));
  }

  // ------------------------------------------------------- vendor listings

  /** A vendor's listings for the public: active ones only, unless `includeAll`; newest first. */
  function GetVendorListings(s: Store, vendorId: Id, includeAll: bool): (r: seq<Id>)
    ensures forall x :: x in r <==>
      0 <= x < |s.listings| && s.listings[x].vendorId == vendorId
      && (includeAll || s.listings[x].status == ListingStatus.Active)
    ensures Descending(r, CreatedKey(s)) && Distinct(r)
  {
    NewestFirst(
      FilterIds(s.listings, (l: Listing) => l.vendorId == vendorId && (includeAll || l.status == ListingStatus.Active), 0),
      CreatedKey(s))
  }

  /** The signed-in vendor's own listings: all but the deleted ones, most recently updated first. */
  function GetMyListings(s: Store, vendorId: Id): (r: seq<Id>)
    ensures forall x :: x in r <==>
      0 <= x < |s.listings| && s.listings[x].vendorId == vendorId && s.listings[x].status != ListingStatus.Deleted
    ensures Descending(r, UpdatedKey(s)) && Distinct(r)
  {
    NewestFirst(
      FilterIds(s.listings, (l: Listing) => l.vendorId == vendorId && l.status != ListingStatus.Deleted, 0),
      UpdatedKey(s))
  }

  /** Deleting a listing takes it out of its vendor's own list and leaves the rest of the list alone. */
  lemma DeleteLeavesMyListings(s: Store, listingId: Id, vendorId: Id, now: Instant)
    requires DeleteListing(s, listingId, vendorId, now).Success?
    ensures var s' := DeleteListing(s, listingId, vendorId, now).value.0;
      && listingId !in GetMyListings(s', vendorId)
      && forall x :: x != listingId ==> (x in GetMyListings(s', vendorId) <==> x in GetMyListings(s, vendorId))
  {
  }

  /** Publishing a listing makes it part of its vendor's public list. */
  lemma PublishShowsListing(s: Store, listingId: Id, vendorId: Id, now: Instant)
    requires UpdateListingStatus(s, listingId, vendorId, Publish, now).Success?
    ensures listingId in GetVendorListings(UpdateListingStatus(s, listingId, vendorId, Publish, now).value.0, vendorId, false)
  {
  }
}

=== FILE: money.dfy ===
/**
  Exact money arithmetic. The services compute amounts in floating point and
  round each one with `toFixed(2)`; the model computes in exact reals and rounds
  with `RoundCents`, the same nearest-cent rule without binary rounding error.
 */
module Money {
  import opened Wrappers

  /** A whole number of cents. */
  predicate IsCents(x: real) {
    (x * 100.0).Floor as real == x * 100.0
  }

  /** The whole number of cents a cents amount stands for. */
  function Cents(x: real): int {
    (x * 100.0).Floor
  }

  /** A whole number of cents, written as an amount. */
  lemma CentsAmountIsCents(n: int)
    ensures IsCents(n as real / 100.0)
  {
    assert (n as real / 100.0) * 100.0 == n as real;
    assert (n as real).Floor == n;
  }

  /** The number of cents nearest to a non-negative amount, a tie going up. */
  function NearestCents(y: real): (n: int)
    requires y >= 0.0
    ensures n >= 0
    ensures n as real <= y * 100.0 + 0.5 < n as real + 1.0
  {
    (y * 100.0 + 0.5).Floor
  }

  /**
    `toFixed(2)`: the nearest cent, a tie going away from zero (so upwards for
    the non-negative amounts the services handle).
   */
  function RoundCents(x: real): (r: real)
    ensures IsCents(r)
    ensures x >= 0.0 ==> x - 0.005 < r <= x + 0.005 && r >= 0.0
    ensures x < 0.0 ==> x - 0.005 <= r < x + 0.005
  {
    if x >= 0.0 then
      var n := NearestCents(x);
      CentsAmountIsCents(n);
      n as real / 100.0
    else
      var n := NearestCents(-x);
      CentsAmountIsCents(-n);
      -n as real / 100.0
  }

  /**
    `r` is the cent amount nearest to `x`, a tie going away from zero: the
    rounding rule stated without computing it.
   */
  predicate NearestCent(x: real, r: real) {
    && IsCents(r)
    && (x >= 0.0 ==> x - 0.005 < r <= x + 0.005)
    && (x < 0.0 ==> x - 0.005 <= r < x + 0.005)
  }

  /** The rounding rule has exactly one answer, and `RoundCents` computes it. */
  lemma NearestCentIsRoundCents(x: real, r: real)
    ensures NearestCent(x, r) <==> r == RoundCents(x)
  {
    if NearestCent(x, r) {
      CentsCloserThanACentAreEqual(r, RoundCents(x));
    }
  }

  /** Two cent amounts closer than a cent are equal. */
  lemma CentsCloserThanACentAreEqual(a: real, b: real)
    requires IsCents(a) && IsCents(b)
    requires a - b < 0.01 && b - a < 0.01
    ensures a == b
  {
    var m, n := Cents(a), Cents(b);
    assert m as real == a * 100.0 && n as real == b * 100.0;
    assert m - n < 1 && n - m < 1;
  }

  /** Rounding leaves a cents amount as it is. */
  lemma RoundCentsKeepsCents(x: real)
    requires IsCents(x)
    ensures RoundCents(x) == x
  {
    CentsCloserThanACentAreEqual(RoundCents(x), x);
  }

  /** Rounding twice is rounding once. */
  lemma RoundCentsIdempotent(x: real)
    ensures RoundCents(RoundCents(x)) == RoundCents(x)
  {
    RoundCentsKeepsCents(RoundCents(x));
  }

  /** Rounding never reverses the order of two amounts. */
  lemma RoundCentsMonotone(x: real, y: real)
    requires 0.0 <= x <= y
    ensures RoundCents(x) <= RoundCents(y)
  {
    var m, n := NearestCents(x), NearestCents(y);
    assert m as real < n as real + 1.0;
    assert m <= n;
    assert RoundCents(x) == m as real / 100.0 && RoundCents(y) == n as real / 100.0;
  }

  /** Two cent amounts in order differ by at least a cent. */
  lemma CentsStepByCents(a: real, b: real)
    requires IsCents(a) && IsCents(b) && a < b
    ensures a + 0.01 <= b
  {
    var m, n := Cents(a), Cents(b);
    assert m as real == a * 100.0 && n as real == b * 100.0;
    assert m < n;
  }

  /** An amount rounds to eight digits or more before the point exactly when it lies half a cent short of the bound or beyond. */
  lemma RoundsPastLimit(x: real)
    ensures RoundCents(x) >= DecimalLimit <==> x >= 99999999.995
    ensures RoundCents(x) <= -DecimalLimit <==> x <= -99999999.995
  {
    var c := RoundCents(x);
    CentsAmountIsCents(9999999999);
    CentsAmountIsCents(-9999999999);
    if x >= 99999999.995 {
      CentsStepByCents(99999999.99, c);
    }
    if x <= -99999999.995 {
      CentsStepByCents(c, -99999999.99);
    }
  }

  /** A non-negative amount rounds to more than nothing exactly when it reaches half a cent. */
  lemma RoundCentsPositive(x: real)
    requires x >= 0.0
    ensures RoundCents(x) > 0.0 <==> x >= 0.005
  {
    if x < 0.005 && RoundCents(x) > 0.0 {
      CentsAmountIsCents(0);
      CentsStepByCents(0.0, RoundCents(x));
    }
  }

  /** A `decimal(10, 2)` column holds amounts below this bound in size: eight digits before the point. */
  const DecimalLimit: real := 100000000.0

  /**
    What a `decimal(10, 2)` column stores when given `x`: the nearest cent, a
    tie going away from zero, or nothing when that amount needs more than eight
    digits before the point (the write then fails with a numeric overflow).
   */
  function StoredDecimal(x: real): (r: Option<real>)
    ensures r.Some? <==> -99999999.995 < x < 99999999.995
    ensures r.Some? ==> NearestCent(x, r.value) && -DecimalLimit < r.value < DecimalLimit
  {
    var c := RoundCents(x);
    RoundsPastLimit(x);
    if -DecimalLimit < c < DecimalLimit then Some(c) else None
  }
}

=== FILE: patterns.dfy ===
/**
  The character-level patterns the input validators share, each written out
  as a predicate: digits, calendar-date strings, Kenyan phone numbers and KRA
  PINs.
 */
module Patterns {

  predicate IsDigit(c: char) {
    '0' <= c <= '9'
  }

  predicate IsUpper(c: char) {
    'A' <= c <= 'Z'
  }

  predicate AllDigits(s: string) {
    forall i :: 0 <= i < |s| ==> IsDigit(s[i])
  }

  /** `[17]\d{8}`: a Kenyan mobile subscriber number. */
  predicate Subscriber(s: string) {
    |s| == 9 && (s[0] == '1' || s[0] == '7') && AllDigits(s[1..])
  }

  /** `^(\+254|0)[17]\d{8}$`: the phone pattern of registration and vendor profiles. */
  predicate LocalPhone(s: string) {
    || (|s| >= 4 && s[..4] == "+254" && Subscriber(s[4..]))
    || (|s| >= 1 && s[0] == '0' && Subscriber(s[1..]))
  }

  /** `^(\+254|254|0)[17]\d{8}$`: the phone pattern of payment initiation. */
  predicate PaymentPhone(s: string) {
    || LocalPhone(s)
    || (|s| >= 3 && s[..3] == "254" && Subscriber(s[3..]))
  }

  /** Every phone number a profile accepts, a payment accepts too. */
  lemma LocalPhoneIsPaymentPhone(s: string)
    requires LocalPhone(s)
    ensures PaymentPhone(s)
  {
  }

  /** A bare country code is accepted for payments only. */
  lemma BareCountryCodeIsPaymentOnly()
    ensures PaymentPhone("254712345678") && !LocalPhone("254712345678")
  {
    assert "254712345678"[..3] == "254";
    assert "254712345678"[3..] == "712345678";
  }

  /** The length of every accepted payment phone, by prefix. */
  lemma PaymentPhoneLength(s: string)
    requires PaymentPhone(s)
    ensures |s| == 10 || |s| == 12 || |s| == 13
    ensures |s| == 10 <==> s[0] == '0'
    ensures |s| == 13 <==> s[0] == '+'
  {
  }

  /** `^[A-Z]\d{9}[A-Z]$`: a KRA personal identification number. */
  predicate KraPin(s: string) {
    |s| == 11 && IsUpper(s[0]) && AllDigits(s[1..10]) && IsUpper(s[10])
  }

  /** `\d{4}-\d{2}-\d{2}`: a calendar-date string (the shape only). */
  predicate DateShaped(s: string) {
    && |s| == 10
    && AllDigits(s[..4]) && s[4] == '-'
    && AllDigits(s[5..7]) && s[7] == '-'
    && AllDigits(s[8..])
  }

  /** The value of a string of decimal digits. */
  function DigitsValue(s: string): (n: nat)
    requires AllDigits(s)
    decreases |s|
  {
    if |s| == 0 then 0
    else DigitsValue(s[..|s| - 1]) * 10 + (s[|s| - 1] - '0') as nat
  }

  /** `n` written with exactly `width` digits, with leading zeros. */
  function PadDigits(n: nat, width: nat): (s: string)
    requires n < Pow10(width)
    ensures |s| == width && AllDigits(s)
    decreases width
  {
    if width == 0 then ""
    else PadDigits(n / 10, width - 1) + [('0' as int + n % 10) as char]
  }

  function Pow10(k: nat): (p: nat)
    ensures p >= 1
  {
    if k == 0 then 1 else 10 * Pow10(k - 1)
  }

  /** Reading back a padded number gives the number. */
  lemma {:induction false} PadDigitsRoundTrip(n: nat, width: nat)
    requires n < Pow10(width)
    ensures DigitsValue(PadDigits(n, width)) == n
    decreases width
  {
    if width > 0 {
      PadDigitsRoundTrip(n / 10, width - 1);
      var s := PadDigits(n, width);
      assert s[..|s| - 1] == PadDigits(n / 10, width - 1);
    }
  }

  /** Appending a digit multiplies by ten and adds the digit. */
  lemma AppendDigit(v: nat, c: nat, k: nat)
    requires c < 10 && v < Pow10(k)
    ensures (v * 10 + c) / 10 == v && (v * 10 + c) % 10 == c
    ensures v * 10 + c < Pow10(k + 1)
  {
  }

  /** Padding the value of a digit string gives the string back. */
  lemma {:induction false} DigitsValueRoundTrip(s: string)
    requires AllDigits(s)
    ensures DigitsValue(s) < Pow10(|s|)
    ensures PadDigits(DigitsValue(s), |s|) == s
    decreases |s|
  {
    if |s| > 0 {
      var init, last := s[..|s| - 1], s[|s| - 1];
      DigitsValueRoundTrip(init);
      var v, c := DigitsValue(init), (last - '0') as nat;
      assert DigitsValue(s) == v * 10 + c;
      AppendDigit(v, c, |init|);
      assert PadDigits(DigitsValue(s), |s|) == PadDigits(v, |init|) + [('0' as int + c) as char];
      assert s == init + [last];
    }
  }

  /** Where the parts of a written date sit in it. */
  lemma DateParts(y: string, m: string, d: string)
    requires |y| == 4 && |m| == 2 && |d| == 2
    ensures var s := y + "-" + m + "-" + d;
      |s| == 10 && s[..4] == y && s[4] == '-' && s[5..7] == m && s[7] == '-' && s[8..] == d
  {
    var s := y + "-" + m + "-" + d;
    assert s[..4] == y;
    assert s[5..7] == m;
    assert s[8..] == d;
  }

  /** A date written the way the validators accept it. */
  function FormatDate(year: nat, month: nat, day: nat): (s: string)
    requires year < 10000 && month < 100 && day < 100
    ensures DateShaped(s)
  {
    assert Pow10(4) == 10000 && Pow10(2) == 100;
    var y, m, d := PadDigits(year, 4), PadDigits(month, 2), PadDigits(day, 2);
    DateParts(y, m, d);
    y + "-" + m + "-" + d
  }

  /** The year, month and day a date-shaped string spells. */
  function ParseDate(s: string): (ymd: (nat, nat, nat))
    requires DateShaped(s)
    ensures ymd.0 < 10000 && ymd.1 < 100 && ymd.2 < 100
  {
    DigitsValueRoundTrip(s[..4]);
    DigitsValueRoundTrip(s[5..7]);
    DigitsValueRoundTrip(s[8..]);
    assert Pow10(4) == 10000 && Pow10(2) == 100;
    (DigitsValue(s[..4]), DigitsValue(s[5..7]), DigitsValue(s[8..]))
  }

  /** Formatting then parsing a date gives the same year, month and day. */
  lemma ParseFormatRoundTrip(year: nat, month: nat, day: nat)
    requires year < 10000 && month < 100 && day < 100
    ensures ParseDate(FormatDate(year, month, day)) == (year, month, day)
  {
    assert Pow10(4) == 10000 && Pow10(2) == 100;
    var y, m, d := PadDigits(year, 4), PadDigits(month, 2), PadDigits(day, 2);
    DateParts(y, m, d);
    PadDigitsRoundTrip(year, 4);
    PadDigitsRoundTrip(month, 2);
    PadDigitsRoundTrip(day, 2);
  }

  /** Parsing then formatting a date-shaped string gives the string back. */
  lemma FormatParseRoundTrip(s: string)
    requires DateShaped(s)
    ensures var (y, m, d) := ParseDate(s); FormatDate(y, m, d) == s
  {
    DigitsValueRoundTrip(s[..4]);
    DigitsValueRoundTrip(s[5..7]);
    DigitsValueRoundTrip(s[8..]);
    assert s == s[..4] + "-" + s[5..7] + "-" + s[8..];
  }

  /** `n` in decimal without leading zeros, as `String(n)` writes a whole number. */
  function Decimal(n: nat): (s: string)
    ensures |s| >= 1 && AllDigits(s)
    ensures s[0] == '0' ==> n == 0
    decreases n
  {
    if n < 10 then [('0' as int + n) as char]
    else Decimal(n / 10) + [('0' as int + n % 10) as char]
  }

  /** Reading back the decimal form of a number gives the number. */
  lemma {:induction false} DecimalRoundTrip(n: nat)
    ensures DigitsValue(Decimal(n)) == n
    decreases n
  {
    if n >= 10 {
      DecimalRoundTrip(n / 10);
      var s := Decimal(n);
      assert s[..|s| - 1] == Decimal(n / 10);
    }
  }

  /** Different numbers are written differently. */
  lemma DecimalInjective(m: nat, n: nat)
    ensures Decimal(m) == Decimal(n) <==> m == n
  {
    if Decimal(m) == Decimal(n) {
      DecimalRoundTrip(m);
      DecimalRoundTrip(n);
    }
  }
}

=== FILE: payment_schema.dfy ===
/**
  The validators of the payment endpoints: M-Pesa initiation and
  verification by transaction reference.
 */
module PaymentSchema {
  import opened Patterns
  import opened Validation
  import Payments

  datatype InitiateForm = InitiateForm(bookingId: string, phoneNumber: string)

  /** A UUID booking id and a phone with prefix `+254`, `254` or `0`. */
  predicate ValidInitiate(f: InitiateForm) {
    UuidShaped(f.bookingId) && PaymentPhone(f.phoneNumber)
  }

  /**
    Every phone the form accepts reaches the gateway as `254` and a
    subscriber number, and every phone a profile accepts is accepted here.
   */
  lemma AcceptedPhonesReachGatewayFormatted(f: InitiateForm, profilePhone: string)
    requires ValidInitiate(f)
    requires LocalPhone(profilePhone)
    ensures var r := Payments.FormatPhoneNumber(f.phoneNumber);
      |r| == 12 && r[..3] == "254" && Subscriber(r[3..])
    ensures PaymentPhone(profilePhone)
  {
    Payments.PaymentPhoneFormatsToCountryCode(f.phoneNumber);
    LocalPhoneIsPaymentPhone(profilePhone);
  }
}

=== FILE: payments.dfy ===
/**
  Customer payments through M-Pesa: normalising the phone number, starting a
  charge, and settling it from the gateway's webhook or from a manual
  verification.

  The gateway is an oracle: each call is given the reply it would send, and
  the webhook's HMAC signature check is given as a boolean.
 */
module Payments {
  import opened Wrappers
  import opened Domain
  import opened Patterns
  import Bookings

  // ---------------------------------------------------------- phone numbers

  /** The characters JavaScript's `\s` matches. */
  predicate IsJsSpace(c: char) {
    || c == '\t' || c == '\n' || c == '\U{000B}' || c == '\U{000C}' || c == '\r' || c == ' '
    || c == '\U{00A0}' || c == '\U{1680}' || '\U{2000}' <= c <= '\U{200A}'
    || c == '\U{2028}' || c == '\U{2029}' || c == '\U{202F}' || c == '\U{205F}'
    || c == '\U{3000}' || c == '\U{FEFF}'
  }

  /** The characters a phone number is cleaned of: white space, '-', '(' and ')'. */
  predicate Stripped(c: char) {
    IsJsSpace(c) || c == '-' || c == '(' || c == ')'
  }

  predicate Clean(s: string) {
    forall i :: 0 <= i < |s| ==> !Stripped(s[i])
  }

  /** The phone number with every separator character removed. */
  function Strip(s: string): (r: string)
    ensures Clean(r)
    ensures |r| <= |s|
    decreases |s|
  {
    if |s| == 0 then ""
    else
      var rest := Strip(s[1..]);
      if Stripped(s[0]) then rest else [s[0]] + rest
  }

  /** Stripping removes every separator and keeps every other character as often as it occurs. */
  lemma {:induction false} StripCounts(s: string)
    ensures forall c :: !Stripped(c) ==> multiset(Strip(s))[c] == multiset(s)[c]
    ensures forall c :: Stripped(c) ==> multiset(Strip(s))[c] == 0
    decreases |s|
  {
    if |s| > 0 {
      StripCounts(s[1..]);
      assert s == [s[0]] + s[1..];
    }
  }

  /** Stripping keeps the order of what it keeps: it distributes over concatenation. */
  lemma {:induction false} StripDistributes(a: string, b: string)
    ensures Strip(a + b) == Strip(a) + Strip(b)
    decreases |a|
  {
    if |a| > 0 {
      assert (a + b)[1..] == a[1..] + b;
      StripDistributes(a[1..], b);
    } else {
      assert a + b == b;
    }
  }

  /** A string without separators is left as it is. */
  lemma {:induction false} StripKeepsClean(s: string)
    requires Clean(s)
    ensures Strip(s) == s
    decreases |s|
  {
    if |s| > 0 {
      StripKeepsClean(s[1..]);
    }
  }

  /** The number starts with "+254". */
  predicate PlusCountryCode(t: string) {
    |t| >= 4 && t[0] == '+' && t[1] == '2' && t[2] == '5' && t[3] == '4'
  }

  /**
    The gateway's phone format: separators removed, then a leading '0'
    replaced by the country code 254 and a leading "+254" stripped of its
    '+'; anything else, a number already starting with 254 included, is
    passed on as it is.
   */
  function FormatPhoneNumber(phone: string): (r: string)
    ensures Clean(r)
    ensures var t := Strip(phone);
      && (|t| >= 1 && t[0] == '0' ==> r == "254" + t[1..])
      && (PlusCountryCode(t) ==> r == t[1..])
      && (!(|t| >= 1 && t[0] == '0') && !PlusCountryCode(t) ==> r == t)
  {
    var t := Strip(phone);
    if |t| >= 1 && t[0] == '0' then
      assert Clean(t[1..]);
      "254" + t[1..]
    else if PlusCountryCode(t) then
      t[1..]
    else
      t
  }

  /** Formatting an already formatted number changes nothing. */
  lemma FormatPhoneNumberIsIdempotent(phone: string)
    ensures FormatPhoneNumber(FormatPhoneNumber(phone)) == FormatPhoneNumber(phone)
  {
    var t, r := Strip(phone), FormatPhoneNumber(phone);
    StripKeepsClean(r);
    if |t| >= 1 && t[0] == '0' {
      assert r[0] == '2';
    } else if PlusCountryCode(t) {
      assert r[0] == '2';
    }
  }

  lemma CleanConcat(a: string, b: string)
    requires Clean(a) && Clean(b)
    ensures Clean(a + b)
  {
  }

  /** A subscriber number has no separators. */
  lemma SubscriberIsClean(s: string)
    requires Subscriber(s)
    ensures Clean(s)
  {
    forall i | 0 <= i < |s| ensures !Stripped(s[i]) {
      if i > 0 {
        assert s[i] == s[1..][i - 1];
      }
    }
  }

  /**
    Every number the payment validator accepts comes out as the country
    code 254 followed by the nine-digit subscriber number.
   */
  lemma PaymentPhoneFormatsToCountryCode(phone: string)
    requires PaymentPhone(phone)
    ensures var r := FormatPhoneNumber(phone);
      |r| == 12 && r[..3] == "254" && Subscriber(r[3..])
  {
    var r := FormatPhoneNumber(phone);
    if |phone| >= 4 && phone[..4] == "+254" && Subscriber(phone[4..]) {
      SubscriberIsClean(phone[4..]);
      CleanConcat("+254", phone[4..]);
      assert phone == "+254" + phone[4..];
      StripKeepsClean(phone);
      assert r == phone[1..];
      assert r[3..] == phone[4..];
    } else if |phone| >= 1 && phone[0] == '0' && Subscriber(phone[1..]) {
      SubscriberIsClean(phone[1..]);
      CleanConcat("0", phone[1..]);
      assert phone == "0" + phone[1..];
      StripKeepsClean(phone);
      assert r == "254" + phone[1..];
      assert r[3..] == phone[1..];
    } else {
      assert |phone| >= 3 && phone[..3] == "254" && Subscriber(phone[3..]);
      SubscriberIsClean(phone[3..]);
      CleanConcat("254", phone[3..]);
      assert phone == "254" + phone[3..];
      StripKeepsClean(phone);
      assert phone[0] == '2';
      assert r == phone;
    }
  }

  // ---------------------------------------------------------- initiation

  /** What the gateway answers to a charge request. */
  datatype ChargeReply = ChargeStarted(chargeId: Option<string>) | ChargeRefused(message: string)

  predicate HasCompletedPayment(payments: seq<Payment>, bookingId: Id) {
    exists i :: 0 <= i < |payments| && payments[i].bookingId == bookingId && payments[i].status == PaymentStatus.Completed
  }

  /** The checks before a charge is started. */
  predicate Payable(s: Store, customerId: Id, bookingId: Id) {
    && bookingId < |s.bookings|
    && s.bookings[bookingId].customerId == customerId
    && HoldsDates(s.bookings[bookingId].status)
    && !HasCompletedPayment(s.payments, bookingId)
  }

  /**
    Starts an M-Pesa charge for the full total of the caller's pending or
    confirmed booking, unless it is already paid. The payment row is written
    before the gateway is called, so a refused charge leaves a failed row
    behind and still raises an error. Returns the new payment's id.
   */
  function InitiateMpesaPayment(s: Store, customerId: Id, bookingId: Id, phone: string, txRef: string,
                                reply: ChargeReply): (st: Step<Id>)
    ensures bookingId >= |s.bookings| ==> st == Step(s, Failure(NotFound(BookingKind)))
    ensures bookingId < |s.bookings| && s.bookings[bookingId].customerId != customerId ==>
      st == Step(s, Failure(Unauthorized))
    ensures (bookingId < |s.bookings| && s.bookings[bookingId].customerId == customerId &&
             !HoldsDates(s.bookings[bookingId].status)) ==> st == Step(s, Failure(BookingNotPayable))
    ensures (bookingId < |s.bookings| && s.bookings[bookingId].customerId == customerId &&
             HoldsDates(s.bookings[bookingId].status) && HasCompletedPayment(s.payments, bookingId)) ==>
      st == Step(s, Failure(AlreadyPaid))
    ensures Payable(s, customerId, bookingId) ==>
      var n := |s.payments|;
      && st.store == s.(payments := st.store.payments)
      && |st.store.payments| == n + 1 && st.store.payments[..n] == s.payments
      && var p := st.store.payments[n];
      && p.bookingId == bookingId && p.amount == s.bookings[bookingId].totalAmount
      && p.transactionId == txRef && p.phoneNumber == FormatPhoneNumber(phone)
      && p.paidAt.None?
      && (st.result.Success? <==> reply.ChargeStarted?)
      && (reply.ChargeStarted? ==>
            st.result == Success(n) && p.status == PaymentStatus.Processing &&
            p.gatewayReference == reply.chargeId && p.failureReason.None?)
      && (reply.ChargeRefused? ==>
            st.result == Failure(PaymentInitiationFailed(reply.message)) && p.status == PaymentStatus.Failed &&
            p.failureReason == Some(reply.message) && p.gatewayReference.None?)
  {
    if bookingId >= |s.bookings| then Step(s, Failure(NotFound(BookingKind)))
    else
      var b := s.bookings[bookingId];
      if b.customerId != customerId then Step(s, Failure(Unauthorized))
      else if !HoldsDates(b.status) then Step(s, Failure(BookingNotPayable))
      else if HasCompletedPayment(s.payments, bookingId) then Step(s, Failure(AlreadyPaid))
      else
        var p := Payment(bookingId, b.totalAmount, PaymentStatus.Pending, txRef, FormatPhoneNumber(phone), None, None, None);
        var n := |s.payments|;
        match reply
        case ChargeStarted(ref) =>
          Step(s.(payments := s.payments + [p.(status := PaymentStatus.Processing, gatewayReference := ref)]), Success(n))
        case ChargeRefused(why) =>
          Step(s.(payments := s.payments + [p.(status := PaymentStatus.Failed, failureReason := Some(why))]),
               Failure(PaymentInitiationFailed(why)))
  }

  /** Starting a charge writes at most the payments table: bookings, and so their dates, stay as they were. */
  lemma InitiationTouchesOnlyPayments(s: Store, customerId: Id, bookingId: Id, phone: string, txRef: string,
                                      reply: ChargeReply)
    ensures var st := InitiateMpesaPayment(s, customerId, bookingId, phone, txRef, reply);
      && st.store == s.(payments := st.store.payments)
      && (Bookings.NoOverlap(s.bookings) ==> Bookings.NoOverlap(st.store.bookings))
  {
  }

  /**
    The payment row a charge request writes can be read back by the customer
    who started it, whether or not the gateway accepted the charge, and by
    no other user.
   */
  lemma NewPaymentIsVisibleToItsCustomerOnly(s: Store, customerId: Id, bookingId: Id, phone: string, txRef: string,
                                             reply: ChargeReply, userId: Id)
    requires Payable(s, customerId, bookingId)
    ensures var st := InitiateMpesaPayment(s, customerId, bookingId, phone, txRef, reply);
      var n := |s.payments|;
      && n < |st.store.payments|
      && GetPaymentById(st.store, n, customerId) == Success(st.store.payments[n])
      && (userId != customerId ==> GetPaymentById(st.store, n, userId) == Failure(Unauthorized))
  {
    var st := InitiateMpesaPayment(s, customerId, bookingId, phone, txRef, reply);
    assert st.store.bookings == s.bookings;
    assert st.store.payments[|s.payments|].bookingId == bookingId;
  }

  // ------------------------------------------------------------ settlement

  /** The payment a transaction reference names: the first one carrying it. */
  function PaymentByReference(s: Store, txRef: string): (r: Option<Id>)
    ensures r.Some? ==> r.value < |s.payments| && s.payments[r.value].transactionId == txRef
    ensures r.None? ==> forall i :: 0 <= i < |s.payments| ==> s.payments[i].transactionId != txRef
  {
    FindFirst(s.payments, (p: Payment) => p.transactionId == txRef)
  }

  /** The fields of a webhook notification the service reads. */
  datatype WebhookEvent = WebhookEvent(event: string, txRef: string, status: Option<string>, amount: real, flwRef: Option<string>)

  datatype WebhookOutcome = Ignored | Paid(paymentId: Id) | NotPaid(paymentId: Id)

  const ChargeCompleted: string := "charge.completed"
  const Successful: string := "successful"

  /** A notification that settles the payment: a successful charge of at least the amount due. */
  predicate Settles(ev: WebhookEvent, p: Payment) {
    ev.status == Some(Successful) && ev.amount >= p.amount
  }

  /** The payment row once its charge has failed; an absent gateway status keeps the old reason. */
  function FailedRow(p: Payment, status: Option<string>): (q: Payment)
    ensures q.status == PaymentStatus.Failed
    ensures status.Some? ==> q.failureReason == status
    ensures status.None? ==> q.failureReason == p.failureReason
    ensures q == p.(status := q.status, failureReason := q.failureReason)
  {
    p.(status := PaymentStatus.Failed, failureReason := if status.Some? then status else p.failureReason)
  }

  /** The payment row once its charge has succeeded; an absent gateway reference keeps the old one. */
  function PaidRow(p: Payment, flwRef: Option<string>, now: Instant): Payment {
    p.(status := PaymentStatus.Completed, gatewayReference := if flwRef.Some? then flwRef else p.gatewayReference, paidAt := Some(now))
  }

  /** Booking `bookingId` set to confirmed whatever its status, as the service does. */
  function ConfirmBooking(bookings: seq<Booking>, bookingId: Id): (r: seq<Booking>)
    ensures |r| == |bookings|
    ensures bookingId < |bookings| ==> r == bookings[bookingId := bookings[bookingId].(status := BookingStatus.Confirmed)]
    ensures bookingId >= |bookings| ==> r == bookings
  {
    if bookingId < |bookings| then bookings[bookingId := bookings[bookingId].(status := BookingStatus.Confirmed)]
    else bookings
  }

  /** Booking `bookingId` set to confirmed only if it still holds its dates. */
  function ConfirmBookingIfHeld(bookings: seq<Booking>, bookingId: Id): (r: seq<Booking>)
    ensures |r| == |bookings|
    ensures bookingId < |bookings| && HoldsDates(bookings[bookingId].status) ==>
      r == bookings[bookingId := bookings[bookingId].(status := BookingStatus.Confirmed)]
    ensures !(bookingId < |bookings| && HoldsDates(bookings[bookingId].status)) ==> r == bookings
  {
    if bookingId < |bookings| && HoldsDates(bookings[bookingId].status) then
      bookings[bookingId := bookings[bookingId].(status := BookingStatus.Confirmed)]
    else bookings
  }

  /**
    The payment webhook as the service is written. A bad signature is an
    error and any event but a completed charge is ignored; otherwise the
    payment named by the reference is completed, and its booking confirmed
    whatever its status, when the charge succeeded for at least the amount
    due, and is marked failed with the gateway's status otherwise (a
    notification without a status leaves the old failure reason).
   */
  function HandleWebhook(s: Store, signatureValid: bool, ev: WebhookEvent, now: Instant): (r: Result<(Store, WebhookOutcome), Error>)
    ensures !signatureValid ==> r == Failure(InvalidSignature)
    ensures signatureValid && ev.event != ChargeCompleted ==> r == Success((s, Ignored))
    ensures signatureValid && ev.event == ChargeCompleted && PaymentByReference(s, ev.txRef).None? ==>
      r == Failure(NotFound(PaymentKind))
    ensures signatureValid && ev.event == ChargeCompleted && PaymentByReference(s, ev.txRef).Some? ==>
      var i := PaymentByReference(s, ev.txRef).value;
      var p := s.payments[i];
      && r.Success?
      && (Settles(ev, p) ==>
            r.value == (s.(payments := s.payments[i := PaidRow(p, ev.flwRef, now)],
                           bookings := ConfirmBooking(s.bookings, p.bookingId)), Paid(i)))
      && (!Settles(ev, p) ==>
            r.value == (s.(payments := s.payments[i := FailedRow(p, ev.status)]),
                        NotPaid(i)))
  {
    if !signatureValid then Failure(InvalidSignature)
    else if ev.event != ChargeCompleted then Success((s, Ignored))
    else
      match PaymentByReference(s, ev.txRef)
      case None => Failure(NotFound(PaymentKind))
      case Some(i) =>
        var p := s.payments[i];
        if Settles(ev, p) then
          Success((s.(payments := s.payments[i := PaidRow(p, ev.flwRef, now)],
                      bookings := ConfirmBooking(s.bookings, p.bookingId)), Paid(i)))
        else
          Success((s.(payments := s.payments[i := FailedRow(p, ev.status)]),
                   NotPaid(i)))
  }

  /** A failed notification that carries no status marks the payment failed and keeps its old reason. */
  lemma FailureWithoutStatusKeepsReason(s: Store, ev: WebhookEvent, now: Instant)
    requires ev.event == ChargeCompleted && ev.status.None?
    requires PaymentByReference(s, ev.txRef).Some?
    ensures var i := PaymentByReference(s, ev.txRef).value;
      HandleWebhook(s, true, ev, now)
      == Success((s.(payments := s.payments[i := s.payments[i].(status := PaymentStatus.Failed)]), NotPaid(i)))
  {
  }

  /**
    After a notification has settled a payment, its booking is confirmed and
    paid, so the customer's next charge request for it is refused as already
    paid and writes nothing.
   */
  lemma SettledBookingIsNotChargedAgain(s: Store, signatureValid: bool, ev: WebhookEvent, now: Instant, b: Id,
                                        phone: string, txRef: string, reply: ChargeReply)
    requires HandleWebhook(s, signatureValid, ev, now).Success?
    requires HandleWebhook(s, signatureValid, ev, now).value.1.Paid?
    requires HandleWebhook(s, signatureValid, ev, now).value.1.paymentId < |s.payments|
    requires s.payments[HandleWebhook(s, signatureValid, ev, now).value.1.paymentId].bookingId == b
    requires b < |s.bookings|
    ensures var s' := HandleWebhook(s, signatureValid, ev, now).value.0;
      InitiateMpesaPayment(s', s.bookings[b].customerId, b, phone, txRef, reply) == Step(s', Failure(AlreadyPaid))
  {
    var i := PaymentByReference(s, ev.txRef).value;
    var s' := HandleWebhook(s, signatureValid, ev, now).value.0;
    assert Settles(ev, s.payments[i]);
    assert s'.payments[i].bookingId == b && s'.payments[i].status == PaymentStatus.Completed;
    assert HasCompletedPayment(s'.payments, b);
    assert s'.bookings[b].status == BookingStatus.Confirmed;
  }

  /**
    The webhook as evidently intended: a late payment for a booking that was
    cancelled, declined or completed meanwhile is still recorded, but the
    booking keeps its status. Everything else is as in `HandleWebhook`.
   */
  function HandleWebhookGuarded(s: Store, signatureValid: bool, ev: WebhookEvent, now: Instant): (r: Result<(Store, WebhookOutcome), Error>)
    ensures r.Failure? <==> HandleWebhook(s, signatureValid, ev, now).Failure?
    ensures r.Failure? ==> r == HandleWebhook(s, signatureValid, ev, now)
    ensures r.Success? ==>
      var (s', out) := r.value;
      var (w, wout) := HandleWebhook(s, signatureValid, ev, now).value;
      && out == wout && s'.payments == w.payments
      && s' == w.(bookings := s'.bookings)
      && |s'.bookings| == |s.bookings|
      && forall j :: 0 <= j < |s.bookings| ==>
           s'.bookings[j] == (if HoldsDates(s.bookings[j].status) then w.bookings[j] else s.bookings[j])
  {
    if !signatureValid then Failure(InvalidSignature)
    else if ev.event != ChargeCompleted then Success((s, Ignored))
    else
      match PaymentByReference(s, ev.txRef)
      case None => Failure(NotFound(PaymentKind))
      case Some(i) =>
        var p := s.payments[i];
        if Settles(ev, p) then
          Success((s.(payments := s.payments[i := PaidRow(p, ev.flwRef, now)],
                      bookings := ConfirmBookingIfHeld(s.bookings, p.bookingId)), Paid(i)))
        else
          Success((s.(payments := s.payments[i := FailedRow(p, ev.status)]),
                   NotPaid(i)))
  }

  /** The guarded webhook never makes two holding bookings overlap. */
  lemma HandleWebhookGuardedKeepsNoOverlap(s: Store, signatureValid: bool, ev: WebhookEvent, now: Instant)
    requires Bookings.NoOverlap(s.bookings)
    requires HandleWebhookGuarded(s, signatureValid, ev, now).Success?
    ensures Bookings.NoOverlap(HandleWebhookGuarded(s, signatureValid, ev, now).value.0.bookings)
  {
    if signatureValid && ev.event == ChargeCompleted {
      var i := PaymentByReference(s, ev.txRef).value;
      var p := s.payments[i];
      if Settles(ev, p) && p.bookingId < |s.bookings| && HoldsDates(s.bookings[p.bookingId].status) {
        var b := s.bookings[p.bookingId];
        Bookings.StatusChangeKeepsNoOverlap(s.bookings, p.bookingId, b.(status := BookingStatus.Confirmed));
      }
    }
  }

  /**
    The webhook as written breaks the invariant: a paid-up booking that was
    cancelled and whose dates were then booked by someone else comes back
    as confirmed, on top of the other booking.
   */
  lemma HandleWebhookRevivesCancelledBooking()
    ensures var cancelled := Booking(0, 0, 10, 12, 2, 100.0, 15.0, 18.4, 133.4, BookingStatus.Cancelled,
                                     None, Some("change of plans"), None, None, None);
      var rebooked := cancelled.(customerId := 1, status := BookingStatus.Confirmed, cancellationReason := None);
      var pay := Payment(0, 133.4, PaymentStatus.Processing, "HOSP-1", "254712345678", None, None, None);
      var s := Store([], [], [], map[], [cancelled, rebooked], [pay], [], map[]);
      var ev := WebhookEvent(ChargeCompleted, "HOSP-1", Some(Successful), 133.4, Some("FLW-1"));
      && Bookings.NoOverlap(s.bookings)
      && HandleWebhook(s, true, ev, 0).Success?
      && !Bookings.NoOverlap(HandleWebhook(s, true, ev, 0).value.0.bookings)
  {
    var cancelled := Booking(0, 0, 10, 12, 2, 100.0, 15.0, 18.4, 133.4, BookingStatus.Cancelled,
                             None, Some("change of plans"), None, None, None);
    var rebooked := cancelled.(customerId := 1, status := BookingStatus.Confirmed, cancellationReason := None);
    var pay := Payment(0, 133.4, PaymentStatus.Processing, "HOSP-1", "254712345678", None, None, None);
    var s := Store([], [], [], map[], [cancelled, rebooked], [pay], [], map[]);
    var ev := WebhookEvent(ChargeCompleted, "HOSP-1", Some(Successful), 133.4, Some("FLW-1"));
    assert PaymentByReference(s, "HOSP-1") == Some(0);
    var s' := HandleWebhook(s, true, ev, 0).value.0;
    assert s'.bookings[0].status == BookingStatus.Confirmed && s'.bookings[1] == rebooked;
  }

  /** What the gateway answers when asked for a charge's status. */
  datatype VerifyReply = Verified(status: string, amount: real, currency: string) | VerifyError(message: string)

  datatype Verification = Verification(transactionId: string, status: string, amount: real, currency: string)

  const PaymentNotFoundMessage: string := "Payment not found"

  /**
    The manual status check as the service is written: any failure, the
    payment lookup included, becomes a verification error; a successful
    charge completes the payment, whatever the amount, and confirms its
    booking whatever its status.
   */
  function VerifyPaymentStatus(s: Store, transactionId: string, reply: VerifyReply, now: Instant): (r: Result<(Store, Verification), Error>)
    ensures reply.VerifyError? ==> r == Failure(VerificationFailed(reply.message))
    ensures reply.Verified? && PaymentByReference(s, transactionId).None? ==>
      r == Failure(VerificationFailed(PaymentNotFoundMessage))
    ensures reply.Verified? && PaymentByReference(s, transactionId).Some? ==>
      var i := PaymentByReference(s, transactionId).value;
      var p := s.payments[i];
      && r.Success?
      && r.value.1 == Verification(transactionId, reply.status, reply.amount, reply.currency)
      && (reply.status == Successful ==>
            r.value.0 == s.(payments := s.payments[i := p.(status := PaymentStatus.Completed, paidAt := Some(now))],
                            bookings := ConfirmBooking(s.bookings, p.bookingId)))
      && (reply.status != Successful ==> r.value.0 == s)
  {
    match reply
    case VerifyError(why) => Failure(VerificationFailed(why))
    case Verified(status, amount, currency) =>
      match PaymentByReference(s, transactionId)
      case None => Failure(VerificationFailed(PaymentNotFoundMessage))
      case Some(i) =>
        var p := s.payments[i];
        var s' := if status == Successful then
                    s.(payments := s.payments[i := p.(status := PaymentStatus.Completed, paidAt := Some(now))],
                       bookings := ConfirmBooking(s.bookings, p.bookingId))
                  else s;
        Success((s', Verification(transactionId, status, amount, currency)))
  }

  /** The manual status check as evidently intended: only a booking still holding its dates is confirmed. */
  function VerifyPaymentStatusGuarded(s: Store, transactionId: string, reply: VerifyReply, now: Instant): (r: Result<(Store, Verification), Error>)
    ensures r.Failure? <==> VerifyPaymentStatus(s, transactionId, reply, now).Failure?
    ensures r.Failure? ==> r == VerifyPaymentStatus(s, transactionId, reply, now)
    ensures r.Success? ==>
      var (s', v) := r.value;
      var (w, wv) := VerifyPaymentStatus(s, transactionId, reply, now).value;
      && v == wv && s'.payments == w.payments
      && s' == w.(bookings := s'.bookings)
      && |s'.bookings| == |s.bookings|
      && forall j :: 0 <= j < |s.bookings| ==>
           s'.bookings[j] == (if HoldsDates(s.bookings[j].status) then w.bookings[j] else s.bookings[j])
  {
    match reply
    case VerifyError(why) => Failure(VerificationFailed(why))
    case Verified(status, amount, currency) =>
      match PaymentByReference(s, transactionId)
      case None => Failure(VerificationFailed(PaymentNotFoundMessage))
      case Some(i) =>
        var p := s.payments[i];
        var s' := if status == Successful then
                    s.(payments := s.payments[i := p.(status := PaymentStatus.Completed, paidAt := Some(now))],
                       bookings := ConfirmBookingIfHeld(s.bookings, p.bookingId))
                  else s;
        Success((s', Verification(transactionId, status, amount, currency)))
  }

  /** The guarded status check never makes two holding bookings overlap. */
  lemma VerifyPaymentStatusGuardedKeepsNoOverlap(s: Store, transactionId: string, reply: VerifyReply, now: Instant)
    requires Bookings.NoOverlap(s.bookings)
    requires VerifyPaymentStatusGuarded(s, transactionId, reply, now).Success?
    ensures Bookings.NoOverlap(VerifyPaymentStatusGuarded(s, transactionId, reply, now).value.0.bookings)
  {
    var i := PaymentByReference(s, transactionId).value;
    var p := s.payments[i];
    if reply.status == Successful && p.bookingId < |s.bookings| && HoldsDates(s.bookings[p.bookingId].status) {
      var b := s.bookings[p.bookingId];
      Bookings.StatusChangeKeepsNoOverlap(s.bookings, p.bookingId, b.(status := BookingStatus.Confirmed));
    }
  }

  // ---------------------------------------------------------------- reading

  /** Reads a payment on behalf of the customer of its booking, and no one else. */
  function GetPaymentById(s: Store, paymentId: Id, userId: Id): (r: Result<Payment, Error>)
    ensures paymentId >= |s.payments| ==> r == Failure(NotFound(PaymentKind))
    ensures r.Success? <==>
      paymentId < |s.payments| && s.payments[paymentId].bookingId < |s.bookings| &&
      s.bookings[s.payments[paymentId].bookingId].customerId == userId
    ensures r.Success? ==> r.value == s.payments[paymentId]
    ensures (paymentId < |s.payments| && s.payments[paymentId].bookingId < |s.bookings| &&
             s.bookings[s.payments[paymentId].bookingId].customerId != userId) ==> r == Failure(Unauthorized)
  {
    if paymentId >= |s.payments| then Failure(NotFound(PaymentKind))
    else
      var p := s.payments[paymentId];
      if p.bookingId >= |s.bookings| then Failure(NotFound(BookingKind))
      else if s.bookings[p.bookingId].customerId != userId then Failure(Unauthorized)
      else Success(p)
  }
}

=== FILE: payout_schema.dfy ===
/**
  The validators of the payout endpoints: the manual trigger and the list
  filter with its paging.
 */
module PayoutSchema {
  import opened Wrappers
  import opened Domain
  import opened Validation

  /** The manual trigger names a booking by UUID. */
  predicate ValidTrigger(bookingId: string) {
    UuidShaped(bookingId)
  }

  /** The name of a payout status on the wire. */
  function StatusName(st: PayoutStatus): string {
    match st
    case Pending => "pending"
    case Processing => "processing"
    case Completed => "completed"
    case Failed => "failed"
    case Cancelled => "cancelled"
  }

  /** The list filter's status enum: every status but `cancelled`. */
  function ParseStatusFilter(name: string): (r: Option<PayoutStatus>)
    ensures r.Some? ==> StatusName(r.value) == name && r.value != PayoutStatus.Cancelled
  {
    if name == "pending" then Some(PayoutStatus.Pending)
    else if name == "processing" then Some(PayoutStatus.Processing)
    else if name == "completed" then Some(PayoutStatus.Completed)
    else if name == "failed" then Some(PayoutStatus.Failed)
    else None
  }

  /** Every status but `cancelled` can be filtered on by its name; `cancelled` cannot. */
  lemma StatusFilterNames(st: PayoutStatus)
    ensures st != PayoutStatus.Cancelled <==> ParseStatusFilter(StatusName(st)) == Some(st)
  {
  }

  /**
    The list query accepts exactly the statuses the filter names, and
    the one status left out of the enum, `cancelled`, makes it invalid.
   */
  lemma ListFilterRefusesCancelled(f: ListForm, st: PayoutStatus)
    requires f.status == Some(StatusName(st)) && ParsePage(f.limit, f.offset).Some?
    ensures ParseListForm(f, ParseStatusFilter).Some? <==> st != PayoutStatus.Cancelled
    ensures ParseListForm(f, ParseStatusFilter).Some? ==> ParseListForm(f, ParseStatusFilter).value.0 == Some(st)
  {
    StatusFilterNames(st);
  }
}

=== FILE: payouts.dfy ===
/**
  Vendor settlement: the payout breakdown of a completed booking, payout
  creation, one processing attempt against the transfer gateway, the scheduled
  sweep over due payouts, and the vendor's earnings summary.

  The transfer gateway is an oracle: each attempt is given the reply the
  gateway would send (`GatewayReply`), and the sweep is given one reply per
  payout id.
 */
module Payouts {
  import opened Wrappers
  import opened Domain
  import opened Money

  const PlatformFeeRate: real := 0.15
  const PayoutVatRate: real := 0.16
  const WithholdingRate: real := 0.05

  /** A new payout is scheduled this long after the booking completes. */
  const SettlementDelay: int := 48 * HourMs

  /** A payout fails for good on its third failed attempt. */
  const MaxAttempts: nat := 3

  /** The sweep processes at most this many payouts per run. */
  const SweepBatch: nat := 10

  const BankUnsupported: string := "Bank transfers not yet supported"

  // ------------------------------------------------------------ breakdown

  datatype Breakdown = Breakdown(grossAmount: real, platformFee: real, vat: real, withholdingTax: real, netAmount: real)

  /**
    The vendor's breakdown of a booking's base amount. Each component is
    computed unrounded from the base and then rounded on its own; the VAT is
    charged on the platform fee and is not taken out of the vendor's net.
   */
  function CalculatePayout(baseAmount: real): (c: Breakdown)
    ensures NearestCent(baseAmount, c.grossAmount)
    ensures NearestCent(baseAmount * PlatformFeeRate, c.platformFee)
    ensures NearestCent(baseAmount * PlatformFeeRate * PayoutVatRate, c.vat)
    ensures NearestCent(baseAmount * WithholdingRate, c.withholdingTax)
    ensures NearestCent(baseAmount - baseAmount * PlatformFeeRate - baseAmount * WithholdingRate, c.netAmount)
  {
    var fee := baseAmount * PlatformFeeRate;
    var withholding := baseAmount * WithholdingRate;
    Breakdown(
      RoundCents(baseAmount),
      RoundCents(fee),
      RoundCents(fee * PayoutVatRate),
      RoundCents(withholding),
      RoundCents(baseAmount - fee - withholding))
  }

  /** A base of 1000 pays out 800 net, with fee 150, VAT 24 and withholding 50. */
  lemma PayoutOfThousand()
    ensures CalculatePayout(1000.0) == Breakdown(1000.0, 150.0, 24.0, 50.0, 800.0)
  {
    var c := CalculatePayout(1000.0);
    CentsAmountIsCents(100000);
    CentsAmountIsCents(15000);
    CentsAmountIsCents(2400);
    CentsAmountIsCents(5000);
    CentsAmountIsCents(80000);
    NearestCentIsRoundCents(1000.0, 1000.0);
    NearestCentIsRoundCents(150.0, 150.0);
    NearestCentIsRoundCents(24.0, 24.0);
    NearestCentIsRoundCents(50.0, 50.0);
    NearestCentIsRoundCents(800.0, 800.0);
  }

  /**
    For a cents base the fee, the withholding and the net add back up to the
    gross within rounding, so the VAT is carried by the platform and not by
    the vendor; and the net never exceeds the gross.
   */
  lemma NetExcludesVat(baseAmount: real)
    requires baseAmount >= 0.0 && IsCents(baseAmount)
    ensures var c := CalculatePayout(baseAmount);
      -0.015 <= c.grossAmount - c.platformFee - c.withholdingTax - c.netAmount <= 0.015
    ensures CalculatePayout(baseAmount).netAmount <= CalculatePayout(baseAmount).grossAmount
  {
    var c := CalculatePayout(baseAmount);
    NearestCentIsRoundCents(baseAmount, c.grossAmount);
    RoundCentsKeepsCents(baseAmount);
    NearestCentIsRoundCents(baseAmount * 0.8, c.netAmount);
    RoundCentsMonotone(baseAmount * 0.8, baseAmount);
  }

  // ------------------------------------------------------------- creation

  /** A nullable column inside a template string: null prints as "null". */
  function Show(o: Option<string>): string {
    match o
    case Some(v) => v
    case None => "null"
  }

  /** A vendor without a chosen method is paid through M-Pesa. */
  function PayoutMethodOf(v: Vendor): PayoutMethod {
    v.payoutMethod.GetOr(Mpesa)
  }

  /** The account a payout is sent to, snapshotted into the payout row. */
  function AccountDetails(v: Vendor): Option<string> {
    if PayoutMethodOf(v) == Mpesa then v.mpesaNumber
    else Some(Show(v.bankName) + " - " + Show(v.bankAccountNumber))
  }

  /**
    Bank details are never missing: even a vendor with no bank fields at all
    gets the account string "null - null", so only an M-Pesa vendor without
    a number is refused a payout.
   */
  lemma BankDetailsAreNeverMissing(v: Vendor)
    requires PayoutMethodOf(v) == Bank
    ensures Truthy(AccountDetails(v))
    ensures v.bankName.None? && v.bankAccountNumber.None? ==> AccountDetails(v) == Some("null - null")
  {
    if v.bankName.None? && v.bankAccountNumber.None? {
      assert "null" + " - " + "null" == "null - null";
    }
  }

  /** The vendor a booking is paid out to: the owner of its listing. */
  function VendorOfBooking(s: Store, b: Booking): (r: Option<Id>)
    ensures r.Some? ==> r.value < |s.vendors|
  {
    if b.listingId < |s.listings| && s.listings[b.listingId].vendorId < |s.vendors| then
      Some(s.listings[b.listingId].vendorId)
    else
      None
  }

  predicate HasPayout(payouts: seq<Payout>, bookingId: Id) {
    exists i :: 0 <= i < |payouts| && payouts[i].bookingId == bookingId
  }

  /** Whether payout row `p` is the one created for booking `b` of vendor `vendorId` at `now`. */
  predicate CreatedFor(p: Payout, bookingId: Id, b: Booking, vendorId: Id, v: Vendor, now: Instant) {
    && p.vendorId == vendorId
    && p.bookingId == bookingId
    && Breakdown(p.grossAmount, p.platformFee, p.vat, p.withholdingTax, p.netAmount) == CalculatePayout(b.baseAmount)
    && p.status == PayoutStatus.Pending
    && p.payoutMethod == PayoutMethodOf(v)
    && AccountDetails(v) == Some(p.accountDetails)
    && p.gatewayReference.None? && p.failureReason.None?
    && p.retryCount == 0
    && p.scheduledAt == now + SettlementDelay
    && p.processedAt.None? && p.completedAt.None?
  }

  /** The conditions under which a payout can be created for a booking. */
  predicate CanCreatePayout(s: Store, bookingId: Id) {
    && bookingId < |s.bookings|
    && s.bookings[bookingId].status == BookingStatus.Completed
    && !HasPayout(s.payouts, bookingId)
    && VendorOfBooking(s, s.bookings[bookingId]).Some?
    && Truthy(AccountDetails(s.vendors[VendorOfBooking(s, s.bookings[bookingId]).value]))
  }

  /**
    Creates the single payout of a completed booking, from its base amount
    (not its total), scheduled 48 hours ahead; returns the new payout's id.
   */
  function CreatePayoutForBooking(s: Store, bookingId: Id, now: Instant): (r: Result<(Store, Id), Error>)
    ensures bookingId >= |s.bookings| ==> r == Failure(NotFound(BookingKind))
    ensures bookingId < |s.bookings| && s.bookings[bookingId].status != BookingStatus.Completed ==>
      r == Failure(BookingNotCompleted)
    ensures (bookingId < |s.bookings| && s.bookings[bookingId].status == BookingStatus.Completed &&
             HasPayout(s.payouts, bookingId)) ==> r == Failure(PayoutExists)
    ensures r.Success? <==> CanCreatePayout(s, bookingId)
    ensures r.Success? ==>
      var (s', id) := r.value;
      && id == |s.payouts|
      && |s'.payouts| == id + 1
      && s'.payouts[..id] == s.payouts
      && s' == s.(payouts := s'.payouts)
      && var b := s.bookings[bookingId];
      && var vendorId := VendorOfBooking(s, b).value;
      && CreatedFor(s'.payouts[id], bookingId, b, vendorId, s.vendors[vendorId], now)
  {
    if bookingId >= |s.bookings| then Failure(NotFound(BookingKind))
    else
      var b := s.bookings[bookingId];
      if b.status != BookingStatus.Completed then Failure(BookingNotCompleted)
      else if HasPayout(s.payouts, bookingId) then Failure(PayoutExists)
      else
        match VendorOfBooking(s, b)
        case None => Failure(NotFound(VendorKind))
        case Some(vendorId) =>
          var v := s.vendors[vendorId];
          var details := AccountDetails(v);
          if !Truthy(details) then Failure(PayoutDetailsMissing)
          else
            var c := CalculatePayout(b.baseAmount);
            var p := Payout(
              vendorId, bookingId,
              c.grossAmount, c.platformFee, c.vat, c.withholdingTax, c.netAmount,
              PayoutStatus.Pending, PayoutMethodOf(v), details.value,
              None, None, 0, now + SettlementDelay, None, None);
            Success((s.(payouts := s.payouts + [p]), |s.payouts|))
  }

  /** No booking has two payouts. */
  predicate OnePayoutPerBooking(payouts: seq<Payout>) {
    forall i, j :: 0 <= i < j < |payouts| ==> payouts[i].bookingId != payouts[j].bookingId
  }

  /** Creating payouts one call at a time never gives a booking a second payout. */
  lemma CreatePayoutKeepsOnePerBooking(s: Store, bookingId: Id, now: Instant)
    requires OnePayoutPerBooking(s.payouts)
    requires CreatePayoutForBooking(s, bookingId, now).Success?
    ensures OnePayoutPerBooking(CreatePayoutForBooking(s, bookingId, now).value.0.payouts)
  {
    var (s', id) := CreatePayoutForBooking(s, bookingId, now).value;
    forall i, j | 0 <= i < j < |s'.payouts|
      ensures s'.payouts[i].bookingId != s'.payouts[j].bookingId
    {
      if j == id {
        assert s'.payouts[i] == s.payouts[i];
        assert !HasPayout(s.payouts, bookingId);
      } else {
        assert s'.payouts[i] == s.payouts[i] && s'.payouts[j] == s.payouts[j];
      }
    }
  }

  /** Asking again for the same booking is refused. */
  lemma SecondPayoutIsRefused(s: Store, bookingId: Id, now: Instant, later: Instant)
    requires CreatePayoutForBooking(s, bookingId, now).Success?
    ensures CreatePayoutForBooking(CreatePayoutForBooking(s, bookingId, now).value.0, bookingId, later)
      == Failure(PayoutExists)
  {
    var (s', id) := CreatePayoutForBooking(s, bookingId, now).value;
    assert s'.payouts[id].bookingId == bookingId;
  }

  // ----------------------------------------------------------- processing

  /** What the transfer gateway answers to one M-Pesa transfer request. */
  datatype GatewayReply = Transferred(reference: string) | Refused(message: string)

  /** The fields of a payout that processing never changes. */
  predicate SameTerms(p: Payout, q: Payout) {
    && p.vendorId == q.vendorId && p.bookingId == q.bookingId
    && p.grossAmount == q.grossAmount && p.platformFee == q.platformFee && p.vat == q.vat
    && p.withholdingTax == q.withholdingTax && p.netAmount == q.netAmount
    && p.payoutMethod == q.payoutMethod && p.accountDetails == q.accountDetails
    && p.scheduledAt == q.scheduledAt
  }

  /**
    One processing attempt on payout `id` at `now`. A bank payout always
    fails; an M-Pesa payout succeeds exactly when the gateway transfers. A
    failed attempt is still recorded, and the payout goes back to pending
    until its third failure.
   */
  function ProcessPayout(s: Store, id: Id, now: Instant, reply: GatewayReply): (st: Step<Payout>)
    ensures |st.store.payouts| == |s.payouts|
    ensures st.store == s.(payouts := st.store.payouts)
    ensures forall j :: 0 <= j < |s.payouts| && j != id ==> st.store.payouts[j] == s.payouts[j]
    ensures id >= |s.payouts| ==> st == Step(s, Failure(NotFound(PayoutKind)))
    ensures id < |s.payouts| && s.payouts[id].status != PayoutStatus.Pending ==>
      st == Step(s, Failure(WrongPayoutStatus(s.payouts[id].status)))
    ensures id < |s.payouts| && s.payouts[id].status == PayoutStatus.Pending ==>
      var p, q := s.payouts[id], st.store.payouts[id];
      && SameTerms(p, q)
      && q.processedAt == Some(now)
      && (st.result.Success? <==> p.payoutMethod == Mpesa && reply.Transferred?)
      && (p.payoutMethod == Bank ==> st.result == Failure(PayoutFailed(BankUnsupported)))
      && (st.result.Success? ==>
            && st.result.value == q
            && q.status == PayoutStatus.Completed
            && q.gatewayReference == Some(reply.reference)
            && q.completedAt == Some(now)
            && q.retryCount == p.retryCount)
      && (st.result.Failure? ==>
            && st.result.error.PayoutFailed?
            && q.failureReason == Some(st.result.error.reason)
            && (p.payoutMethod == Mpesa ==> reply.Refused? && q.failureReason == Some(reply.message))
            && q.retryCount == p.retryCount + 1
            && (q.status == PayoutStatus.Failed <==> q.retryCount >= MaxAttempts)
            && (q.status == PayoutStatus.Pending <==> q.retryCount < MaxAttempts)
            && q.completedAt == p.completedAt)
  {
    if id >= |s.payouts| then Step(s, Failure(NotFound(PayoutKind)))
    else
      var p := s.payouts[id];
      if p.status != PayoutStatus.Pending then Step(s, Failure(WrongPayoutStatus(p.status)))
      else if p.payoutMethod == Mpesa && reply.Transferred? then
        var q := p.(status := PayoutStatus.Completed, gatewayReference := Some(reply.reference),
                    processedAt := Some(now), completedAt := Some(now));
        Step(s.(payouts := s.payouts[id := q]), Success(q))
      else
        var reason := if p.payoutMethod == Mpesa then reply.message else BankUnsupported;
        var tries := p.retryCount + 1;
        var q := p.(status := if tries >= MaxAttempts then PayoutStatus.Failed else PayoutStatus.Pending,
                    failureReason := Some(reason), retryCount := tries, processedAt := Some(now));
        Step(s.(payouts := s.payouts[id := q]), Failure(PayoutFailed(reason)))
  }

  /**
    Three refused attempts on a fresh payout leave it failed with three
    retries, after which it is never due again and cannot be processed.
   */
  lemma ThreeRejectionsExhaustRetries(s: Store, id: Id, t1: Instant, t2: Instant, t3: Instant,
                                      m1: string, m2: string, m3: string)
    requires id < |s.payouts| && s.payouts[id].status == PayoutStatus.Pending && s.payouts[id].retryCount == 0
    ensures var s1 := ProcessPayout(s, id, t1, Refused(m1)).store;
      var s2 := ProcessPayout(s1, id, t2, Refused(m2)).store;
      var s3 := ProcessPayout(s2, id, t3, Refused(m3)).store;
      && s1.payouts[id].status == PayoutStatus.Pending
      && s2.payouts[id].status == PayoutStatus.Pending
      && s3.payouts[id].status == PayoutStatus.Failed
      && s3.payouts[id].retryCount == MaxAttempts
      && (forall t :: id !in SelectDue(s3.payouts, t))
      && (forall t, r :: ProcessPayout(s3, id, t, r).result == Failure(WrongPayoutStatus(PayoutStatus.Failed)))
  {
  }

  /** A processing attempt on one payout depends on that payout's row alone. */
  lemma ProcessPayoutIsLocal(s: Store, t: Store, id: Id, now: Instant, reply: GatewayReply)
    requires id < |s.payouts| == |t.payouts| && s.payouts[id] == t.payouts[id]
    ensures ProcessPayout(s, id, now, reply).result == ProcessPayout(t, id, now, reply).result
    ensures ProcessPayout(s, id, now, reply).store.payouts[id] == ProcessPayout(t, id, now, reply).store.payouts[id]
  {
  }

  // ---------------------------------------------------------------- sweep

  predicate Due(p: Payout, now: Instant) {
    p.status == PayoutStatus.Pending && p.scheduledAt <= now
  }

  /** The ids of the due payouts at or after `from`, in increasing order. */
  function DueFrom(payouts: seq<Payout>, now: Instant, from: nat): (ids: seq<Id>)
    requires from <= |payouts|
    ensures forall k :: 0 <= k < |ids| ==> from <= ids[k] < |payouts| && Due(payouts[ids[k]], now)
    ensures forall i :: from <= i < |payouts| && Due(payouts[i], now) ==> i in ids
    ensures forall k, m :: 0 <= k < m < |ids| ==> ids[k] < ids[m]
    decreases |payouts| - from
  {
    if from == |payouts| then []
    else if Due(payouts[from], now) then [from] + DueFrom(payouts, now, from + 1)
    else DueFrom(payouts, now, from + 1)
  }

  /**
    The payouts one sweep processes: the due ones, at most a batch of them,
    lowest ids first. A due payout is left for a later sweep only when the
    batch is full, and then only behind every selected one.
   */
  function SelectDue(payouts: seq<Payout>, now: Instant): (ids: seq<Id>)
    ensures |ids| <= SweepBatch
    ensures forall k :: 0 <= k < |ids| ==> ids[k] < |payouts| && Due(payouts[ids[k]], now)
    ensures forall k, m :: 0 <= k < m < |ids| ==> ids[k] < ids[m]
    ensures forall i :: 0 <= i < |payouts| && Due(payouts[i], now) && i !in ids ==>
      |ids| == SweepBatch && ids[SweepBatch - 1] < i
  {
    var all := DueFrom(payouts, now, 0);
    if |all| == 0 then all
    else
      var n := if |all| <= SweepBatch then |all| else SweepBatch;
      TakePrefix(all, n);
      all[..n]
  }

  /** A prefix of an increasing sequence: its elements, its order, and what it leaves out. */
  lemma TakePrefix(all: seq<Id>, n: nat)
    requires 0 < n <= |all|
    requires forall k, m :: 0 <= k < m < |all| ==> all[k] < all[m]
    ensures forall k :: 0 <= k < n ==> all[..n][k] == all[k]
    ensures forall k, m :: 0 <= k < m < n ==> all[..n][k] < all[..n][m]
    ensures forall i :: i in all && i !in all[..n] ==> all[n - 1] < i
  {
    forall i | i in all && i !in all[..n] ensures all[n - 1] < i {
      var k :| 0 <= k < |all| && all[k] == i;
      assert forall j :: 0 <= j < n ==> all[..n][j] == all[j];
      assert n <= k;
    }
  }

  /** The outcome of one payout in a sweep. */
  datatype SweepItem = SweepItem(payoutId: Id, outcome: Result<Payout, Error>)

  predicate Increasing(ids: seq<Id>) {
    forall k, m :: 0 <= k < m < |ids| ==> ids[k] < ids[m]
  }

  /**
    Store `t` is store `s` after the sweep has processed the first `k` ids of
    `due`: each of those rows is what processing it alone on `s` gives, and
    every other row is untouched.
   */
  predicate SweptUpTo(s: Store, t: Store, due: seq<Id>, k: nat, now: Instant, gateway: Id -> GatewayReply)
    requires k <= |due|
    requires forall j :: 0 <= j < |due| ==> due[j] < |s.payouts|
  {
    && |t.payouts| == |s.payouts| && t == s.(payouts := t.payouts)
    && (forall j :: 0 <= j < k ==>
          t.payouts[due[j]] == ProcessPayout(s, due[j], now, gateway(due[j])).store.payouts[due[j]])
    && (forall j :: k <= j < |due| ==> t.payouts[due[j]] == s.payouts[due[j]])
    && (forall i :: 0 <= i < |s.payouts| && i !in due ==> t.payouts[i] == s.payouts[i])
  }

  /** Processing the next selected payout extends the swept prefix by one. */
  lemma SweepStep(s: Store, t: Store, due: seq<Id>, k: nat, now: Instant, gateway: Id -> GatewayReply)
    requires k < |due| && Increasing(due)
    requires forall j :: 0 <= j < |due| ==> due[j] < |s.payouts|
    requires SweptUpTo(s, t, due, k, now, gateway)
    ensures ProcessPayout(t, due[k], now, gateway(due[k])).result == ProcessPayout(s, due[k], now, gateway(due[k])).result
    ensures SweptUpTo(s, ProcessPayout(t, due[k], now, gateway(due[k])).store, due, k + 1, now, gateway)
  {
    var id := due[k];
    ProcessPayoutIsLocal(t, s, id, now, gateway(id));
    var t' := ProcessPayout(t, id, now, gateway(id)).store;
    forall j | 0 <= j < |due| && j != k
      ensures t'.payouts[due[j]] == t.payouts[due[j]]
    {
      assert due[j] != id;
    }
  }

  /**
    The scheduled sweep. Every selected payout is processed, and each one's
    outcome and final row are exactly those of processing it alone against
    the store the sweep started from: one failure stops nothing. Every other
    payout is left as it was.
   */
  method ProcessScheduledPayouts(s: Store, now: Instant, gateway: Id -> GatewayReply)
    returns (s': Store, results: seq<SweepItem>)
    ensures |results| == |SelectDue(s.payouts, now)|
    ensures forall k :: 0 <= k < |results| ==>
      var id := SelectDue(s.payouts, now)[k];
      results[k] == SweepItem(id, ProcessPayout(s, id, now, gateway(id)).result)
    ensures |s'.payouts| == |s.payouts| && s' == s.(payouts := s'.payouts)
    ensures forall k :: 0 <= k < |results| ==>
      var id := SelectDue(s.payouts, now)[k];
      s'.payouts[id] == ProcessPayout(s, id, now, gateway(id)).store.payouts[id]
    ensures forall i :: 0 <= i < |s.payouts| && i !in SelectDue(s.payouts, now) ==> s'.payouts[i] == s.payouts[i]
  {
    var due := SelectDue(s.payouts, now);
    s', results := s, [];
    var k := 0;
    while k < |due|
      invariant 0 <= k <= |due|
      invariant SweptUpTo(s, s', due, k, now, gateway)
      invariant |results| == k
      invariant forall j :: 0 <= j < k ==>
        results[j] == SweepItem(due[j], ProcessPayout(s, due[j], now, gateway(due[j])).result)
    {
      SweepStep(s, s', due, k, now, gateway);
      var st := ProcessPayout(s', due[k], now, gateway(due[k]));
      s' := st.store;
      results := results + [SweepItem(due[k], st.result)];
      k := k + 1;
    }
  }

  // ------------------------------------------------------------- earnings

  datatype Earnings = Earnings(totalEarnings: real, completedPayouts: nat, pendingPayouts: nat, pendingAmount: real)

  /** One step of the summary loop over a vendor's payouts. */
  function Tally(e: Earnings, p: Payout): Earnings {
    if p.status == PayoutStatus.Completed then
      e.(totalEarnings := e.totalEarnings + p.netAmount, completedPayouts := e.completedPayouts + 1)
    else if p.status == PayoutStatus.Pending then
      e.(pendingAmount := e.pendingAmount + p.netAmount, pendingPayouts := e.pendingPayouts + 1)
    else
      e
  }

  /** The summary loop: a left fold over the payouts of `vendorId`, in row order. */
  function FoldEarnings(payouts: seq<Payout>, vendorId: Id, e: Earnings): Earnings
    decreases |payouts|
  {
    if |payouts| == 0 then e
    else FoldEarnings(payouts[1..], vendorId, if payouts[0].vendorId == vendorId then Tally(e, payouts[0]) else e)
  }

  /** What payout `p` adds to the amount of vendor `vendorId` in status `st`. */
  function Share(p: Payout, vendorId: Id, st: PayoutStatus): real {
    if p.vendorId == vendorId && p.status == st then p.netAmount else 0.0
  }

  /** Whether payout `p` is counted for vendor `vendorId` in status `st`. */
  function Counted(p: Payout, vendorId: Id, st: PayoutStatus): nat {
    if p.vendorId == vendorId && p.status == st then 1 else 0
  }

  /** Reference definition: the net amounts of a vendor's payouts in one status. */
  function NetSum(payouts: seq<Payout>, vendorId: Id, st: PayoutStatus): real
    decreases |payouts|
  {
    if |payouts| == 0 then 0.0 else Share(payouts[0], vendorId, st) + NetSum(payouts[1..], vendorId, st)
  }

  /** Reference definition: the number of a vendor's payouts in one status. */
  function CountIn(payouts: seq<Payout>, vendorId: Id, st: PayoutStatus): nat
    decreases |payouts|
  {
    if |payouts| == 0 then 0 else Counted(payouts[0], vendorId, st) + CountIn(payouts[1..], vendorId, st)
  }

  /** The fold adds the reference sums and counts to whatever it starts from. */
  lemma {:induction false} FoldIsSum(payouts: seq<Payout>, vendorId: Id, e: Earnings)
    ensures FoldEarnings(payouts, vendorId, e) == Earnings(
      e.totalEarnings + NetSum(payouts, vendorId, PayoutStatus.Completed),
      e.completedPayouts + CountIn(payouts, vendorId, PayoutStatus.Completed),
      e.pendingPayouts + CountIn(payouts, vendorId, PayoutStatus.Pending),
      e.pendingAmount + NetSum(payouts, vendorId, PayoutStatus.Pending))
    decreases |payouts|
  {
    if |payouts| > 0 {
      var e' := if payouts[0].vendorId == vendorId then Tally(e, payouts[0]) else e;
      FoldIsSum(payouts[1..], vendorId, e');
    }
  }

  /**
    The earnings summary: completed payouts make up the earnings, pending ones
    the amount still to come, and payouts in any other status are ignored.
   */
  function GetVendorEarnings(s: Store, vendorId: Id): (e: Earnings)
    ensures e.totalEarnings == NetSum(s.payouts, vendorId, PayoutStatus.Completed)
    ensures e.completedPayouts == CountIn(s.payouts, vendorId, PayoutStatus.Completed)
    ensures e.pendingPayouts == CountIn(s.payouts, vendorId, PayoutStatus.Pending)
    ensures e.pendingAmount == NetSum(s.payouts, vendorId, PayoutStatus.Pending)
  {
    FoldIsSum(s.payouts, vendorId, Earnings(0.0, 0, 0, 0.0));
    FoldEarnings(s.payouts, vendorId, Earnings(0.0, 0, 0, 0.0))
  }

  /** Replacing one row changes a sum by that row's shares alone. */
  lemma {:induction false} NetSumUpdate(payouts: seq<Payout>, i: nat, q: Payout, vendorId: Id, st: PayoutStatus)
    requires i < |payouts|
    ensures NetSum(payouts[i := q], vendorId, st)
      == NetSum(payouts, vendorId, st) - Share(payouts[i], vendorId, st) + Share(q, vendorId, st)
    ensures CountIn(payouts[i := q], vendorId, st) as int
      == CountIn(payouts, vendorId, st) as int - Counted(payouts[i], vendorId, st) + Counted(q, vendorId, st)
    decreases i
  {
    if i == 0 {
      assert payouts[i := q][1..] == payouts[1..];
    } else {
      NetSumUpdate(payouts[1..], i - 1, q, vendorId, st);
      assert payouts[i := q][1..] == payouts[1..][i - 1 := q];
    }
  }

  /**
    A successful transfer moves the payout's net from the vendor's pending
    amount to its earnings, and leaves every other vendor's summary alone.
   */
  lemma SettlementMovesPendingToEarnings(s: Store, id: Id, now: Instant, reply: GatewayReply)
    requires id < |s.payouts| && s.payouts[id].status == PayoutStatus.Pending
    requires ProcessPayout(s, id, now, reply).result.Success?
    ensures var p, s' := s.payouts[id], ProcessPayout(s, id, now, reply).store;
      var e, e' := GetVendorEarnings(s, p.vendorId), GetVendorEarnings(s', p.vendorId);
      && e'.totalEarnings == e.totalEarnings + p.netAmount
      && e'.completedPayouts == e.completedPayouts + 1
      && e'.pendingPayouts + 1 == e.pendingPayouts
      && e'.pendingAmount == e.pendingAmount - p.netAmount
    ensures var p, s' := s.payouts[id], ProcessPayout(s, id, now, reply).store;
      forall w :: w != p.vendorId ==> GetVendorEarnings(s', w) == GetVendorEarnings(s, w)
  {
    var p, s' := s.payouts[id], ProcessPayout(s, id, now, reply).store;
    var q := s'.payouts[id];
    assert s'.payouts == s.payouts[id := q];
    NetSumUpdate(s.payouts, id, q, p.vendorId, PayoutStatus.Completed);
    NetSumUpdate(s.payouts, id, q, p.vendorId, PayoutStatus.Pending);
    forall w | w != p.vendorId
      ensures GetVendorEarnings(s', w) == GetVendorEarnings(s, w)
    {
      NetSumUpdate(s.payouts, id, q, w, PayoutStatus.Completed);
      NetSumUpdate(s.payouts, id, q, w, PayoutStatus.Pending);
    }
  }
}

=== FILE: validation.dfy ===
/**
  The building blocks the input validators share: whole numbers, string
  length bounds, UUID-shaped ids and the paging parameters of list
  endpoints. A raw number arrives as a `real`, as JSON gives it.
 */
module Validation {
  import opened Wrappers

  /** `z.number().int()`: a whole number. */
  predicate IsWhole(x: real) {
    x.Floor as real == x
  }

  /** `z.number().int().positive()`. */
  predicate PositiveWhole(x: real) {
    IsWhole(x) && x > 0.0
  }

  /** `z.string().min(lo).max(hi)`. */
  predicate LengthIn(s: string, lo: nat, hi: nat) {
    lo <= |s| <= hi
  }

  predicate IsHex(c: char) {
    '0' <= c <= '9' || 'a' <= c <= 'f' || 'A' <= c <= 'F'
  }

  predicate HexRun(s: string, from: nat, to: nat)
    requires from <= to <= |s|
  {
    forall i :: from <= i < to ==> IsHex(s[i])
  }

  /** `z.string().uuid()`: five groups of 8, 4, 4, 4 and 12 hex digits joined by dashes. */
  predicate UuidShaped(s: string) {
    && |s| == 36
    && s[8] == '-' && s[13] == '-' && s[18] == '-' && s[23] == '-'
    && HexRun(s, 0, 8) && HexRun(s, 9, 13) && HexRun(s, 14, 18)
    && HexRun(s, 19, 23) && HexRun(s, 24, 36)
  }

  const DefaultLimit: nat := 20
  const MaxLimit: nat := 100

  /** The paging parameters of a list endpoint, after validation. */
  datatype Page = Page(limit: nat, offset: nat)

  /**
    `limit: int().positive().max(100).default(20)` and
    `offset: int().min(0).default(0)`: an absent value takes its default,
    a present one must be whole and in range and is kept.
   */
  function ParsePage(limit: Option<real>, offset: Option<real>): (r: Option<Page>)
    ensures r.Some? <==>
      && (limit.Some? ==> IsWhole(limit.value) && 1.0 <= limit.value <= MaxLimit as real)
      && (offset.Some? ==> IsWhole(offset.value) && offset.value >= 0.0)
    ensures r.Some? ==> 1 <= r.value.limit <= MaxLimit
    ensures r.Some? ==> r.value.limit as real == limit.GetOr(DefaultLimit as real)
    ensures r.Some? ==> r.value.offset as real == offset.GetOr(0.0)
  {
    if limit.Some? && !(IsWhole(limit.value) && 1.0 <= limit.value <= MaxLimit as real) then None
    else if offset.Some? && !(IsWhole(offset.value) && offset.value >= 0.0) then None
    else
      var l: nat := if limit.Some? then limit.value.Floor else DefaultLimit;
      var o: nat := if offset.Some? then offset.value.Floor else 0;
      Some(Page(l, o))
  }

  /** The query of a list endpoint: an optional status name and the paging parameters. */
  datatype ListForm = ListForm(status: Option<string>, limit: Option<real>, offset: Option<real>)

  /**
    Validates a list query whose status enum is recognised by `parseStatus`:
    an absent status filters nothing, a present one must be in the enum,
    and the paging takes its defaults.
   */
  function ParseListForm<S>(f: ListForm, parseStatus: string -> Option<S>): (r: Option<(Option<S>, Page)>)
    ensures r.Some? <==>
      (f.status.Some? ==> parseStatus(f.status.value).Some?) && ParsePage(f.limit, f.offset).Some?
    ensures r.Some? ==>
      && r.value.1 == ParsePage(f.limit, f.offset).value
      && (r.value.0.Some? <==> f.status.Some?)
      && (r.value.0.Some? ==> parseStatus(f.status.value) == r.value.0)
  {
    var page := ParsePage(f.limit, f.offset);
    if page.None? then None
    else if f.status.None? then Some((None, page.value))
    else
      var st := parseStatus(f.status.value);
      if st.None? then None else Some((Some(st.value), page.value))
  }
}

=== FILE: vendor_schema.dfy ===
/**
  The validators of the vendor endpoints: the application form, the payout
  details with their cross-field rule, the profile update and the admin's
  review with its own cross-field rule.
 */
module VendorSchema {
  import opened Wrappers
  import opened Domain
  import opened Patterns
  import opened Validation

  /** A vendor application, the business type already read as a category. */
  datatype ApplicationForm = ApplicationForm(
    businessName: string,
    businessType: Category,
    businessRegistration: Option<string>,
    taxPin: Option<string>,
    phoneNumber: string,
    location: string,
    description: string)

  predicate ValidApplication(f: ApplicationForm) {
    && LengthIn(f.businessName, 3, 255)
    && (f.taxPin.Some? ==> KraPin(f.taxPin.value))
    && LocalPhone(f.phoneNumber)
    && |f.location| >= 3
    && LengthIn(f.description, 20, 1000)
  }

  datatype PayoutDetailsForm = PayoutDetailsForm(
    payoutMethod: PayoutMethod,
    mpesaNumber: Option<string>,
    bankAccountName: Option<string>,
    bankAccountNumber: Option<string>,
    bankName: Option<string>)

  /** The bounds on each payout field that is given. */
  predicate PayoutFieldsValid(f: PayoutDetailsForm) {
    && (f.mpesaNumber.Some? ==> LocalPhone(f.mpesaNumber.value))
    && (f.bankAccountName.Some? ==> |f.bankAccountName.value| >= 3)
    && (f.bankAccountNumber.Some? ==> |f.bankAccountNumber.value| >= 5)
    && (f.bankName.Some? ==> |f.bankName.value| >= 2)
  }

  /** The cross-field rule: the chosen method comes with its details. */
  predicate PayoutDetailsComplete(f: PayoutDetailsForm) {
    match f.payoutMethod
    case Mpesa => Truthy(f.mpesaNumber)
    case Bank => Truthy(f.bankAccountName) && Truthy(f.bankAccountNumber) && Truthy(f.bankName)
  }

  predicate ValidPayoutDetails(f: PayoutDetailsForm) {
    PayoutFieldsValid(f) && PayoutDetailsComplete(f)
  }

  /** Valid M-Pesa details carry a number in the profile phone format. */
  lemma MpesaDetailsCarryAPhone(f: PayoutDetailsForm)
    requires ValidPayoutDetails(f) && f.payoutMethod == Mpesa
    ensures f.mpesaNumber.Some? && LocalPhone(f.mpesaNumber.value)
  {
  }

  /** A profile update: every field optional, with the application's bounds. */
  datatype VendorUpdateForm = VendorUpdateForm(
    businessName: Option<string>,
    businessType: Option<Category>,
    phoneNumber: Option<string>,
    location: Option<string>,
    description: Option<string>)

  predicate ValidVendorUpdate(f: VendorUpdateForm) {
    && (f.businessName.Some? ==> LengthIn(f.businessName.value, 3, 255))
    && (f.phoneNumber.Some? ==> LocalPhone(f.phoneNumber.value))
    && (f.location.Some? ==> |f.location.value| >= 3)
    && (f.description.Some? ==> LengthIn(f.description.value, 20, 1000))
  }

  /** The update carrying every editable field of an application. */
  function AsUpdate(f: ApplicationForm): (u: VendorUpdateForm)
    ensures u.businessName == Some(f.businessName) && u.businessType == Some(f.businessType)
    ensures u.phoneNumber == Some(f.phoneNumber) && u.location == Some(f.location)
    ensures u.description == Some(f.description)
  {
    VendorUpdateForm(Some(f.businessName), Some(f.businessType), Some(f.phoneNumber),
                     Some(f.location), Some(f.description))
  }

  /** The update schema applies the application's bounds: a valid application is a valid update. */
  lemma ValidApplicationIsValidUpdate(f: ApplicationForm)
    requires ValidApplication(f)
    ensures ValidVendorUpdate(AsUpdate(f))
  {
  }

  /** The admin's two possible decisions on an application. */
  datatype Verdict = Approve | Reject {
    function Status(): (st: VendorStatus)
      ensures st == VendorStatus.Approved || st == VendorStatus.Rejected
      ensures st == VendorStatus.Approved <==> this == Approve
    {
      match this
      case Approve => VendorStatus.Approved
      case Reject => VendorStatus.Rejected
    }
  }

  /** `z.enum(['approved', 'rejected'])`. */
  function ParseVerdict(s: string): (r: Option<Verdict>)
    ensures r.Some? <==> s == "approved" || s == "rejected"
    ensures r == Some(Approve) <==> s == "approved"
  {
    if s == "approved" then Some(Approve)
    else if s == "rejected" then Some(Reject)
    else None
  }

  datatype ReviewForm = ReviewForm(status: Verdict, rejectionReason: Option<string>)

  /** A given reason has at least 10 characters; a rejection must give one. */
  predicate ValidReview(f: ReviewForm) {
    && (f.rejectionReason.Some? ==> |f.rejectionReason.value| >= 10)
    && (f.status == Reject ==> Truthy(f.rejectionReason))
  }

  /** Every valid rejection explains itself in at least 10 characters; an approval need not. */
  lemma RejectionsCarryAReason(f: ReviewForm)
    ensures ValidReview(f) && f.status == Reject ==>
      f.rejectionReason.Some? && |f.rejectionReason.value| >= 10
    ensures ValidReview(ReviewForm(Approve, None))
  {
  }
}

=== FILE: vendors.dfy ===
/**
  The vendor lifecycle

    (none) --apply--> pending --review--> approved | rejected
    any    --suspend--> suspended

  with the profile, payout-details and document operations a vendor runs on
  their own profile, found through their user id.
 */
module Vendors {
  import opened Wrappers
  import opened Domain
  import opened VendorSchema
  import Payouts
  import Listings
  import Bookings

  /** The vendor profile of a user, or the error every profile operation throws without one. */
  function ProfileOf(s: Store, userId: Id): (r: Result<Id, Error>)
    ensures r.Success? <==> VendorOfUser(s, userId).Some?
    ensures r.Success? ==> r.value == VendorOfUser(s, userId).value && r.value < |s.vendors|
    ensures r.Failure? ==> r.error == NotFound(VendorKind)
  {
    match VendorOfUser(s, userId)
    case None => Failure(NotFound(VendorKind))
    case Some(v) => Success(v)
  }

  // ----------------------------------------------------------- application

  /** The profile an application creates: pending, without payout details or review. */
  predicate AppliedWith(v: Vendor, userId: Id, f: ApplicationForm) {
    && v.userId == userId
    && v.businessName == f.businessName && v.businessType == f.businessType
    && v.businessRegistration == f.businessRegistration && v.taxPin == f.taxPin
    && v.phoneNumber == f.phoneNumber && v.location == f.location && v.description == f.description
    && v.status == VendorStatus.Pending
    && v.payoutMethod.None? && v.mpesaNumber.None?
    && v.bankAccountName.None? && v.bankAccountNumber.None? && v.bankName.None?
    && v.rejectionReason.None? && v.approvedBy.None? && v.approvedAt.None?
  }

  /**
    Turns a user into a vendor: their role becomes `vendor` (whatever it was
    before) and one pending profile is created. A user with a profile already
    is refused.
   */
  function ApplyAsVendor(s: Store, userId: Id, f: ApplicationForm): (r: Result<(Store, Id), Error>)
    ensures VendorOfUser(s, userId).Some? ==> r == Failure(ApplicationExists)
    ensures VendorOfUser(s, userId).None? && userId >= |s.users| ==> r == Failure(NotFound(UserKind))
    ensures r.Success? <==> VendorOfUser(s, userId).None? && userId < |s.users|
    ensures r.Success? ==>
      var (s', id) := r.value;
      && id == |s.vendors|
      && |s'.vendors| == id + 1 && s'.vendors[..id] == s.vendors
      && AppliedWith(s'.vendors[id], userId, f)
      && s'.users == s.users[userId := User(VendorRole)]
      && s' == s.(users := s'.users, vendors := s'.vendors)
  {
    if VendorOfUser(s, userId).Some? then Failure(ApplicationExists)
    else if userId >= |s.users| then Failure(NotFound(UserKind))
    else
      var v := Vendor(
        userId, f.businessName, f.businessType, f.businessRegistration, f.taxPin,
        f.phoneNumber, f.location, f.description,
        None, None, None, None, None, VendorStatus.Pending, None, None, None);
      Success((s.(users := s.users[userId := User(VendorRole)], vendors := s.vendors + [v]), |s.vendors|))
  }

  /** No user has two vendor profiles. */
  ghost predicate OneProfilePerUser(s: Store) {
    forall i, j :: 0 <= i < j < |s.vendors| ==> s.vendors[i].userId != s.vendors[j].userId
  }

  /** Applying keeps every user at one profile at most. */
  lemma ApplyKeepsOneProfilePerUser(s: Store, userId: Id, f: ApplicationForm)
    requires OneProfilePerUser(s)
    requires ApplyAsVendor(s, userId, f).Success?
    ensures OneProfilePerUser(ApplyAsVendor(s, userId, f).value.0)
  {
  }

  /** A second application by the same user is refused. */
  lemma SecondApplicationIsRefused(s: Store, userId: Id, f: ApplicationForm, g: ApplicationForm)
    requires ApplyAsVendor(s, userId, f).Success?
    ensures ApplyAsVendor(ApplyAsVendor(s, userId, f).value.0, userId, g) == Failure(ApplicationExists)
  {
    var (s', id) := ApplyAsVendor(s, userId, f).value;
    assert s'.vendors[id].userId == userId;
  }

  // --------------------------------------------------------------- profile

  /** Reads a user's own vendor profile. */
  function GetVendorProfile(s: Store, userId: Id): (r: Result<Vendor, Error>)
    ensures r.Success? <==> VendorOfUser(s, userId).Some?
    ensures r.Success? ==> r.value == s.vendors[VendorOfUser(s, userId).value] && r.value.userId == userId
    ensures r.Failure? ==> r.error == NotFound(VendorKind)
  {
    var v :- ProfileOf(s, userId);
    Success(s.vendors[v])
  }

  /** Sets the profile fields the update carries; every other field and row is left alone. */
  function UpdateVendorProfile(s: Store, userId: Id, u: VendorUpdateForm): (r: Result<(Store, Vendor), Error>)
    ensures r.Success? <==> VendorOfUser(s, userId).Some?
    ensures r.Failure? ==> r.error == NotFound(VendorKind)
    ensures r.Success? ==>
      var i := VendorOfUser(s, userId).value;
      var (s', v') := r.value;
      && s' == s.(vendors := s.vendors[i := v'])
      && v' == s.vendors[i].(
           businessName := u.businessName.GetOr(s.vendors[i].businessName),
           businessType := u.businessType.GetOr(s.vendors[i].businessType),
           phoneNumber := u.phoneNumber.GetOr(s.vendors[i].phoneNumber),
           location := u.location.GetOr(s.vendors[i].location),
           description := u.description.GetOr(s.vendors[i].description))
  {
    var i :- ProfileOf(s, userId);
    var v := s.vendors[i];
    var v' := v.(
      businessName := Patch(v.businessName, u.businessName),
      businessType := Patch(v.businessType, u.businessType),
      phoneNumber := Patch(v.phoneNumber, u.phoneNumber),
      location := Patch(v.location, u.location),
      description := Patch(v.description, u.description));
    Success((s.(vendors := s.vendors[i := v']), v'))
  }

  /** A profile update never touches the status, the payout details or the review. */
  lemma ProfileUpdateKeepsStatusAndPayoutDetails(s: Store, userId: Id, u: VendorUpdateForm)
    requires UpdateVendorProfile(s, userId, u).Success?
    ensures var v := s.vendors[VendorOfUser(s, userId).value];
      var v' := UpdateVendorProfile(s, userId, u).value.1;
      && v'.status == v.status && v'.userId == v.userId
      && Payouts.AccountDetails(v') == Payouts.AccountDetails(v)
      && v'.approvedBy == v.approvedBy && v'.rejectionReason == v.rejectionReason
  {
  }

  // -------------------------------------------------------- payout details

  /**
    Records how the vendor is paid. The method is always set; M-Pesa details
    set only the number and bank details only the three bank fields, so the
    other method's fields keep their values. A field the form leaves out is
    not written.
   */
  function AddPayoutDetails(s: Store, userId: Id, d: PayoutDetailsForm): (r: Result<(Store, Vendor), Error>)
    ensures r.Success? <==> VendorOfUser(s, userId).Some?
    ensures r.Failure? ==> r.error == NotFound(VendorKind)
    ensures r.Success? ==>
      var i := VendorOfUser(s, userId).value;
      var v := s.vendors[i];
      var (s', v') := r.value;
      && s' == s.(vendors := s.vendors[i := v'])
      && v'.payoutMethod == Some(d.payoutMethod)
      && v'.mpesaNumber == (if d.payoutMethod == Mpesa && d.mpesaNumber.Some? then d.mpesaNumber else v.mpesaNumber)
      && v'.bankAccountName == (if d.payoutMethod == Bank && d.bankAccountName.Some? then d.bankAccountName else v.bankAccountName)
      && v'.bankAccountNumber == (if d.payoutMethod == Bank && d.bankAccountNumber.Some? then d.bankAccountNumber else v.bankAccountNumber)
      && v'.bankName == (if d.payoutMethod == Bank && d.bankName.Some? then d.bankName else v.bankName)
      && v' == v.(payoutMethod := v'.payoutMethod, mpesaNumber := v'.mpesaNumber,
                  bankAccountName := v'.bankAccountName, bankAccountNumber := v'.bankAccountNumber,
                  bankName := v'.bankName)
  {
    var i :- ProfileOf(s, userId);
    var v := s.vendors[i];
    var v' := match d.payoutMethod
      case Mpesa =>
        v.(payoutMethod := Some(Mpesa),
           mpesaNumber := if d.mpesaNumber.Some? then d.mpesaNumber else v.mpesaNumber)
      case Bank =>
        v.(payoutMethod := Some(Bank),
           bankAccountName := if d.bankAccountName.Some? then d.bankAccountName else v.bankAccountName,
           bankAccountNumber := if d.bankAccountNumber.Some? then d.bankAccountNumber else v.bankAccountNumber,
           bankName := if d.bankName.Some? then d.bankName else v.bankName);
    Success((s.(vendors := s.vendors[i := v']), v'))
  }

  /**
    Details that pass their validator make the vendor payable: a payout
    would be sent by the chosen method, to the account just given.
   */
  lemma ValidDetailsMakeVendorPayable(s: Store, userId: Id, d: PayoutDetailsForm)
    requires ValidPayoutDetails(d)
    requires AddPayoutDetails(s, userId, d).Success?
    ensures var v' := AddPayoutDetails(s, userId, d).value.1;
      && Payouts.PayoutMethodOf(v') == d.payoutMethod
      && Truthy(Payouts.AccountDetails(v'))
      && (d.payoutMethod == Mpesa ==> Payouts.AccountDetails(v') == d.mpesaNumber)
      && (d.payoutMethod == Bank ==>
            Payouts.AccountDetails(v') == Some(d.bankName.value + " - " + d.bankAccountNumber.value))
  {
    var v' := AddPayoutDetails(s, userId, d).value.1;
    if d.payoutMethod == Bank {
      Payouts.BankDetailsAreNeverMissing(v');
    }
  }

  // ------------------------------------------------------------- documents

  /**
    Stores a document of one type for the vendor: a document of that type
    already on file is replaced, otherwise one is added. Either way the
    vendor has exactly one document of the type afterwards.
   */
  function UploadDocument(s: Store, userId: Id, documentType: string, documentUrl: string,
                          fileName: string, fileSize: string, now: Instant): (r: Result<(Store, Document), Error>)
    ensures r.Success? <==> VendorOfUser(s, userId).Some?
    ensures r.Failure? ==> r.error == NotFound(VendorKind)
    ensures r.Success? ==>
      var key := (VendorOfUser(s, userId).value, documentType);
      var (s', doc) := r.value;
      && doc == Document(documentUrl, fileName, fileSize, now)
      && key in s'.documents && s'.documents[key] == doc
      && s'.documents.Keys == s.documents.Keys + {key}
      && (forall k :: k in s.documents && k != key ==> s'.documents[k] == s.documents[k])
      && s' == s.(documents := s'.documents)
  {
    var v :- ProfileOf(s, userId);
    var doc := Document(documentUrl, fileName, fileSize, now);
    Success((s.(documents := s.documents[(v, documentType) := doc]), doc))
  }

  /** The vendor's documents, by type. */
  function GetVendorDocuments(s: Store, userId: Id): (r: Result<map<string, Document>, Error>)
    ensures r.Success? <==> VendorOfUser(s, userId).Some?
    ensures r.Failure? ==> r.error == NotFound(VendorKind)
    ensures r.Success? ==>
      var v := VendorOfUser(s, userId).value;
      && (forall t :: t in r.value <==> (v, t) in s.documents)
      && (forall t :: t in r.value ==> r.value[t] == s.documents[(v, t)])
  {
    var v :- ProfileOf(s, userId);
    Success(map k | k in s.documents.Keys && k.0 == v :: k.1 := s.documents[k])
  }

  /** Uploading twice under one type keeps one document: the later one. */
  lemma ReuploadReplaces(s: Store, userId: Id, documentType: string, u1: string, n1: string, z1: string, t1: Instant,
                         u2: string, n2: string, z2: string, t2: Instant)
    requires UploadDocument(s, userId, documentType, u1, n1, z1, t1).Success?
    ensures var s1 := UploadDocument(s, userId, documentType, u1, n1, z1, t1).value.0;
      var s2 := UploadDocument(s1, userId, documentType, u2, n2, z2, t2).value.0;
      && GetVendorDocuments(s2, userId).Success?
      && GetVendorDocuments(s2, userId).value[documentType] == Document(u2, n2, z2, t2)
      && GetVendorDocuments(s2, userId).value.Keys == GetVendorDocuments(s1, userId).value.Keys
  {
    var s1 := UploadDocument(s, userId, documentType, u1, n1, z1, t1).value.0;
    assert s1.vendors == s.vendors;
  }

  // ---------------------------------------------------------------- review

  /**
    The admin's decision on a pending application. An approval records who
    approved it and when; a rejection clears both. A reason the form leaves
    out is not written.
   */
  function ReviewVendorApplication(s: Store, vendorId: Id, adminId: Id, f: ReviewForm, now: Instant): (r: Result<(Store, Vendor), Error>)
    ensures vendorId >= |s.vendors| ==> r == Failure(NotFound(VendorKind))
    ensures vendorId < |s.vendors| && s.vendors[vendorId].status != VendorStatus.Pending ==> r == Failure(AlreadyReviewed)
    ensures r.Success? <==> vendorId < |s.vendors| && s.vendors[vendorId].status == VendorStatus.Pending
    ensures r.Success? ==>
      var v := s.vendors[vendorId];
      var (s', v') := r.value;
      && s' == s.(vendors := s.vendors[vendorId := v'])
      && v'.status == f.status.Status()
      && v'.rejectionReason == (if f.rejectionReason.Some? then f.rejectionReason else v.rejectionReason)
      && (v'.approvedBy.Some? <==> f.status == Approve) && (v'.approvedAt.Some? <==> f.status == Approve)
      && (f.status == Approve ==> v'.approvedBy == Some(adminId) && v'.approvedAt == Some(now))
      && v' == v.(status := v'.status, rejectionReason := v'.rejectionReason,
                  approvedBy := v'.approvedBy, approvedAt := v'.approvedAt)
  {
    if vendorId >= |s.vendors| then Failure(NotFound(VendorKind))
    else
      var v := s.vendors[vendorId];
      if v.status != VendorStatus.Pending then Failure(AlreadyReviewed)
      else
        var approved := f.status == Approve;
        var v' := v.(
          status := f.status.Status(),
          rejectionReason := if f.rejectionReason.Some? then f.rejectionReason else v.rejectionReason,
          approvedBy := if approved then Some(adminId) else None,
          approvedAt := if approved then Some(now) else None);
        Success((s.(vendors := s.vendors[vendorId := v']), v'))
  }

  /** An application is reviewed once: a second review is refused. */
  lemma ReviewHappensOnce(s: Store, vendorId: Id, adminId: Id, f: ReviewForm, now: Instant,
                          adminId2: Id, g: ReviewForm, later: Instant)
    requires ReviewVendorApplication(s, vendorId, adminId, f, now).Success?
    ensures var s' := ReviewVendorApplication(s, vendorId, adminId, f, now).value.0;
      ReviewVendorApplication(s', vendorId, adminId2, g, later) == Failure(AlreadyReviewed)
  {
  }

  /** Approval is what lets a vendor create listings; rejection does not. */
  lemma ReviewDecidesListing(s: Store, vendorId: Id, adminId: Id, f: ReviewForm, now: Instant,
                             data: Listings.ListingInput, later: Instant)
    requires ReviewVendorApplication(s, vendorId, adminId, f, now).Success?
    ensures var s' := ReviewVendorApplication(s, vendorId, adminId, f, now).value.0;
      && (Listings.CreateListing(s', vendorId, data, later) != Failure(VendorNotApproved) <==> f.status == Approve)
      && (Listings.CreateListing(s', vendorId, data, later).Success? <==>
            f.status == Approve && -99999999.995 < data.basePrice < 99999999.995)
  {
  }

  // ---------------------------------------------------------------- suspend

  /** Suspends a vendor from any status, recording the reason. */
  function SuspendVendor(s: Store, vendorId: Id, reason: string): (r: Result<(Store, Vendor), Error>)
    ensures r.Success? <==> vendorId < |s.vendors|
    ensures r.Failure? ==> r.error == NotFound(VendorKind)
    ensures r.Success? ==>
      var (s', v') := r.value;
      && v' == s.vendors[vendorId].(status := VendorStatus.Suspended, rejectionReason := Some(reason))
      && s' == s.(vendors := s.vendors[vendorId := v'])
  {
    if vendorId >= |s.vendors| then Failure(NotFound(VendorKind))
    else
      var v' := s.vendors[vendorId].(status := VendorStatus.Suspended, rejectionReason := Some(reason));
      Success((s.(vendors := s.vendors[vendorId := v']), v'))
  }

  /**
    A suspended vendor can create no new listings and cannot be reviewed back
    in, but the listings already published stay bookable exactly as before.
   */
  lemma SuspensionStopsNewListingsOnly(s: Store, vendorId: Id, reason: string, data: Listings.ListingInput, now: Instant,
                                       adminId: Id, f: ReviewForm, customerId: Id, req: Bookings.BookingRequest)
    requires SuspendVendor(s, vendorId, reason).Success?
    ensures var s' := SuspendVendor(s, vendorId, reason).value.0;
      && Listings.CreateListing(s', vendorId, data, now) == Failure(VendorNotApproved)
      && ReviewVendorApplication(s', vendorId, adminId, f, now) == Failure(AlreadyReviewed)
      && (Bookings.CreateBooking(s', customerId, req, now).Success? <==> Bookings.CreateBooking(s, customerId, req, now).Success?)
  {
    var s' := SuspendVendor(s, vendorId, reason).value.0;
    assert Bookings.Bookable(s', req, now) <==> Bookings.Bookable(s, req, now);
  }
}

=== FILE: wrappers.dfy ===
/** Failure-carrying datatypes shared by every module of the marketplace model. */
module Wrappers {

  /** An optional value; the services' nullable columns and optional inputs. */
  datatype Option<+T> = None | Some(value: T) {

    /** The wrapped value, or `default` when absent. */
    function GetOr(default: T): T {
      match this
      case Some(v) => v
      case None => default
    }
  }

  /** Either a value or the error a service call throws. */
  datatype Result<+T, +E> = Success(value: T) | Failure(error: E) {

    predicate IsFailure() {
      Failure?
    }

    function PropagateFailure<U>(): Result<U, E>
      requires Failure?
    {
      Failure(error)
    }

    function Extract(): T
      requires Success?
    {
      value
    }
  }
}
